=== FILE: README.md ===
# xv6-riscv-rs kernel core in Dafny

This project models the core of xv6-riscv-rs, a Rust port of the xv6 teaching kernel for 64-bit RISC-V. The model covers:

- the per-hart interrupt nesting (`push_off`/`pop_off`) and the hart-owned spin lock;
- the process table's `wakeup`, `sleep`, `sched`, `proc_dump` and `alloc_pid`;
- the console input line discipline (`console_intr`, `cons_putc`);
- the UART transmit ring (`uart_putc`, `uart_start`, `uart_putc_sync`);
- the bump allocator (`kinit`, `init`, `alloc`, `dealloc`);
- page-table entries, `walk` and `map_pages`;
- the kernel trap path (`kerneltrap`, `devintr`, `clock_intr`);
- the qemu `virt` memory layout.

Every operation is a pure function or a method over immutable datatypes. One call is one step of one hart.

- A kernel `panic!` is a `Panic(fault)` result (module `Common`).
- A Rust debug-build integer overflow is `Panic(ArithmeticOverflow)`. The exceptions are atomic `fetch_add`, which wraps modulo 2^64, and `checked_add`, which is modelled with its `None` branch.
- A lock held by another hart would make the caller spin. That case is a precondition (`!HeldElsewhere(...)`), so every modelled step is one that can proceed.
- `CPUS.myproc()` runs a `push_off`/`pop_off` pair. Its effect on the hart record (`SpinLock.PushPop`) is applied at every place it is called.
- `sleep` and `sched` are split at the context switch. The world the process finds when it is switched back in is a parameter.
- Device registers, the PLIC's claim answer, the LSR "transmitter idle" reads and `allocate_page_table` are oracles passed as parameters:
  - `ready` is how many LSR reads report idle;
  - `irq` is what `plic_claim` returns;
  - `frames` lists the pages the allocator will hand out.

Where the code deviates from what its comments, xv6 or the RISC-V standards evidently intend, the model keeps the behaviour as written. It also gives a corrected definition with the intended property proved (see "## Findings").

## Layout

| file | module | source |
|---|---|---|
| common.dfy | Common | `Option`, `Result`, faults, `byte`, `u64` |
| arith.dfy | Arith | division facts shared by the address arithmetic |
| param.dfy | Param | param.rs |
| spinlock.dfy | SpinLock | spinlock.rs and the `Cpu` record of proc.rs |
| proc.dfy | Proc | proc.rs |
| console.dfy | Console | console.rs |
| uart.dfy | Uart | uart.rs |
| kalloc.dfy | KAlloc | kalloc.rs |
| riscv.dfy | RiscV | riscv.rs and the Sv39 page geometry |
| vm.dfy | Vm | vm.rs |
| trap.dfy | Trap | trap.rs |
| memlayout.dfy | MemLayout | memlayout.rs |

## Model

| member | source | states |
|---|---|---|
| SpinLock.PushOff | src/spinlock.rs:120-135 | interrupts go off and the depth grows by one; the prior SIE value is saved only by the outermost push_off; afterwards no push_off is outstanding with interrupts on |
| SpinLock.PopOff | src/spinlock.rs:137-156 | fatal exactly when interrupts are on or no push_off is outstanding, each with its own message; otherwise the depth drops by one, and interrupts come back on exactly when the depth reaches zero and the saved flag is set |
| SpinLock.PushPop | src/proc.rs:180-185 | the push_off/pop_off bracket myproc runs always succeeds and keeps the hart id, its process and its depth |
| SpinLock.PushPopIdempotent | src/proc.rs:180-185 | a second myproc bracket changes nothing the first did not |
| SpinLock.PushNEffect | src/spinlock.rs:120-135 | n push_offs raise the depth by n, turn interrupts off and keep the flag the first one saved |
| SpinLock.PopNEffect | src/spinlock.rs:137-156 | k pop_offs with k at most the depth all succeed; interrupts return only if the last one empties the stack and the saved flag is set |
| SpinLock.PushPopBalanced | src/spinlock.rs:117-119 | it takes N pop_offs to undo N push_offs: they restore the depth and the interrupt state, and interrupts that were off stay off |
| SpinLock.PushPopUnderflowKeepsOff | src/spinlock.rs:117-119 | fewer pop_offs than push_offs leave interrupts off |
| SpinLock.PushPopExtraPopPanics | src/spinlock.rs:146-148 | from depth zero, one pop_off more than the push_offs is fatal |
| SpinLock.NewLock | src/spinlock.rs:57-63 | a new lock is free and carries its name |
| SpinLock.Lock | src/spinlock.rs:69-93 | lock() is fatal exactly when this hart already holds the lock; otherwise the hart holds it afterwards, after exactly one push_off |
| SpinLock.Unlock | src/spinlock.rs:43-53 | dropping a guard is fatal unless this hart holds the lock; otherwise the lock becomes free and exactly one pop_off runs, whose failure is the drop's failure |
| SpinLock.ForceUnlock | src/spinlock.rs:108-110 | force_unlock frees the lock whoever holds it and leaves the hart's nesting alone |
| SpinLock.LockThenUnlock | src/spinlock.rs:95-99 | holding() is true between a successful lock() and its guard's drop; the pair leaves the lock free and a consistent hart's depth and interrupt state as they were |
| SpinLock.RelockPanics | src/spinlock.rs:72-74 | locking a lock the same hart already holds is fatal |
| Proc.MyProc | src/proc.rs:180-185 | myproc returns the hart's current process, and its effect on the hart is a push_off followed by a pop_off |
| Proc.AllocPid | src/proc.rs:51-54 | alloc_pid returns the counter and advances it by one; the fetch_add wraps, so the counter after 2^64 - 1 is 0 |
| Proc.AllocPidsCount | src/proc.rs:51-54 | until the counter wraps, the i-th of k calls returns the start value plus i |
| Proc.AllocPidsFromBoot | src/proc.rs:52-53 | from boot the first pid is 1 and later pids strictly increase, so they are distinct until wrap-around |
| Proc.WakeOne | src/proc.rs:65-72 | a locked slot changes exactly when it is Sleeping on the channel, and then only its state, to Runnable |
| Proc.WakeupFrom | src/proc.rs:59-77 | the scan from slot i on changes exactly the scanned slots, each as WakeOne does, and is fatal exactly when this hart holds a scanned slot's lock |
| Proc.Wakeup | src/proc.rs:58-78 | on a hart with a process, every slot sleeping on chan becomes Runnable and nothing else changes, since the hart's process is an `Arc` that `ptr::eq` never finds in the table; a hart with no current process changes nothing; fatal exactly when a hart with a process holds any slot's lock; the hart's depth is unchanged |
| Proc.WakeupCorrected | src/proc.rs:56-57 | the corrected scan, on a hart with or without a process, changes exactly the slots other than the hart's own that sleep on chan, makes them Runnable and touches no other field of any slot or of the hart; it is fatal exactly when the hart holds such a slot's lock, and cannot fail when no lock is held and no process runs |
| Proc.WakeupLostOnIdleHart | src/proc.rs:75 | on a hart running no process, the as-written wakeup leaves a sleeper on chan Sleeping; the corrected one makes it Runnable |
| Proc.Sched | src/proc.rs:121-137 | with no process sched returns at once; otherwise it is fatal exactly when the slot lock is not held, the depth is not 1, or the state is Running; the interrupts-enabled panic can never fire |
| Proc.SchedResume | src/proc.rs:138-145 | after the switch, intena is the value saved before it and every other field is what the scheduler handed back |
| Proc.SchedKeepsIntena | src/proc.rs:138-145 | a completed sched leaves intena as it was on entry, whatever the switch did |
| Proc.SleepBegin | src/proc.rs:82-101 | as written, up to the switch: with no process nothing happens; otherwise it is fatal exactly when the hart holds its own slot's lock or enters at a nonzero depth; a success leaves only the own slot changed, to Sleeping on chan under a held lock, with the guard lock forced free |
| Proc.SleepResume | src/proc.rs:103-108 | after the switch: chan is cleared, the slot lock is dropped with a pop_off, and the guard lock is taken again without a matching pop_off |
| Proc.SleepWithGuardPanics | src/proc.rs:92-95 | a caller holding its guard through a normal lock() always panics in sched with "noff != 1" |
| Proc.SleepDriftsNoff | src/proc.rs:108 | a sleep that does reach the switch returns holding the guard at a depth one above its entry depth |
| Proc.SleepBeginCorrected | src/proc.rs:80-81 | the corrected sleep releases the guard through a normal guard drop (with its pop_off), and is fatal when the hart holds neither that guard nor its slot lock |
| Proc.SleepCorrectedBalanced | src/proc.rs:80-81 | a hart holding exactly the guard reaches the switch in the sleeping state, and on resumption returns holding the guard at its entry depth |
| Proc.ListingExact | src/proc.rs:158-161 | the listing holds exactly the lines of the non-Unused slots |
| Proc.ProcDumpFrom | src/proc.rs:153-162 | the dump from slot i on prints the full listing, leaves the table as it was, and is fatal exactly when this hart holds a later slot's lock |
| Proc.ProcDump | src/proc.rs:149-163 | proc_dump prints one line per non-Unused slot in table order and changes no slot or hart depth; it is fatal exactly when the caller holds some slot's lock |
| Proc.ProcDumpLockFree | src/proc.rs:151 | the lock-free scan the doc comment describes yields the same listing |
| Proc.ProcDumpPanicsWhileHoldingSlot | src/proc.rs:155 | a hart holding any slot lock panics in the as-written dump, while the lock-free dump prints the listing |
| Proc.WakeupExample | src/proc.rs:58-78 | worked example: with A asleep on 5, B Runnable, C Unused and D running, wakeup(5) makes only A Runnable and leaves the hart as it was |
| Proc.DumpExample | src/proc.rs:153-162 | worked example: the dump of the same table lists A, B and D and never the Unused C |
| Console.Ctrl | src/console.rs:43-45 | ctrl(b) is the byte that plus '@' gives b |
| Console.InitialConsole | src/console.rs:32-40 | the initial console has all indices zero and a 128-byte ring |
| Console.ConsPutc | src/console.rs:98-107 | a backspace is rubbed out as back, space, back; any other byte is sent as itself |
| Console.EraseStop | src/console.rs:61 | the ^U stopping point is the largest index not above e that is the write index or just past a stored newline |
| Console.KillLine | src/console.rs:61-64 | the ^U loop stops at EraseStop and echoes one rub-out per erased character |
| Console.ConsoleIntr | src/console.rs:51-93 | every input byte keeps r <= w <= e <= r + 128 and never moves r. ^P edits nothing and requests the listing. ^U erases back to the line start. Backspace and DEL erase one byte if any is unpublished. An ordinary byte is stored (return as newline) and echoed when there is room, and it publishes the line and wakes readers exactly on newline, ^D or a full ring |
| Console.NewlinePublishes | src/console.rs:85-88 | a newline or return with room in the ring publishes everything typed and wakes the readers |
| Console.BackspaceUndoesTyping | src/console.rs:66-83 | typing an ordinary byte and then DEL restores the indices, and the screen shows the byte and then its rub-out |
| Console.EchoKeepsHart | src/uart.rs:140-154 | an echo made under the console lock leaves the hart record as it was |
| Console.Echo | src/console.rs:98-105 | echoing bytes inside the console lock, one uart_putc_sync each, hangs exactly when the kernel has panicked and there is something to echo; otherwise all of them go out and the hart is as it was |
| Console.ConsoleInterrupt | src/console.rs:51-93 | console_intr under its lock: it hangs exactly when the kernel has panicked and the byte has an echo (the echo comes before the store and the wakeup). Otherwise the console state and echo are as ConsoleIntr; only a completed line touches the process table, and exactly as wakeup; the console lock is free and the depth restored afterwards. It is fatal exactly when the hart holds the console lock, or holds a slot lock that ^P's dump or the completed line's wakeup takes, or on ^P when some slot is in use: proc_dump's println! takes the console lock again (printf.rs:33-37), so ^P returns only with an empty listing |
| Uart.Default | src/uart.rs:59-67 | the default ring is empty and valid |
| Uart.PendingAppend | src/uart.rs:88-89 | storing at tx_w % 32 with room left appends the byte to the pending bytes and overwrites none of them |
| Uart.UartStart | src/uart.rs:100-122 | uart_start sends exactly the first min(ready, count) pending bytes, in order, moves only the read counter, and keeps the rest pending |
| Uart.UartPutc | src/uart.rs:76-94 | uart_putc hangs exactly when the kernel has panicked or the ring is full; otherwise it appends the byte and sends the first min(ready, count + 1) of the new pending bytes |
| Uart.UartPutcSync | src/uart.rs:140-154 | uart_putc_sync hangs exactly when the kernel has panicked; otherwise it sends the byte alone, and its push_off/pop_off keep a consistent hart's depth and interrupt state |
| KAlloc.New | src/kalloc.rs:37-44 | a new allocator is all zero |
| KAlloc.Init | src/kalloc.rs:51-55 | the heap spans heap_size bytes from heap_start, next is at its start and the count is kept; the end address overflowing is fatal |
| KAlloc.AlignUp | src/kalloc.rs:67-69 | the rounded start is a multiple of align within [next, next + align); it overflows exactly when next + align leaves usize, since Rust adds align to next before subtracting 1 |
| KAlloc.AlignUpLeast | src/kalloc.rs:67-69 | the rounded start is the only multiple of align in [next, next + align) |
| KAlloc.Alloc | src/kalloc.rs:59-82 | a block starts at next rounded up to align and ends within the heap, next moves to its end and the count grows by one; null changes nothing and is returned only when no aligned start in the window fits; fatal exactly when next + align leaves usize or a block that fits would push the count past usize, so it never panics when both fit |
| KAlloc.AllocPanicsAtAlignEdge | src/kalloc.rs:69 | with next two below 2^64 and align 2, the rounded start 2^64 - 2 would fit, yet alloc panics because next + align overflows first |
| KAlloc.Dealloc | src/kalloc.rs:84-91 | dealloc decrements the count (fatal when already zero) and resets next to the heap start when the count reaches zero |
| KAlloc.AllocDeallocKeepValid | src/kalloc.rs:59-91 | alloc and dealloc keep next inside the heap and reset it when no allocation is live |
| KAlloc.AllocThenDeallocRestores | src/kalloc.rs:84-91 | freeing the only allocation restores the allocator exactly |
| KAlloc.AllocSeq | src/kalloc.rs:59-82 | a run of allocations keeps the allocator valid and the heap bounds fixed |
| KAlloc.AllocSeqBounds | src/kalloc.rs:69-80 | the blocks of a run of allocations lie between the old and the new next, and next never moves back |
| KAlloc.AllocSeqDisjoint | src/kalloc.rs:75-80 | the blocks of a run of allocations come in increasing order and never overlap |
| KAlloc.Kinit | src/kalloc.rs:14-20 | as written, kinit gives a heap ending at the kernel's end plus PHYSTOP |
| KAlloc.KinitCorrected | src/kalloc.rs:14-20 | the corrected kinit gives a heap from the kernel's end to PHYSTOP |
| KAlloc.KinitHeapPastRam | src/kalloc.rs:18 | after the as-written kinit, a request for PHYSTOP bytes succeeds with a block that runs past the end of RAM |
| KAlloc.KinitCorrectedStaysInRam | src/kalloc.rs:18 | after the corrected kinit, every block of every run of allocations lies between the kernel's end and PHYSTOP |
| RiscV.PgRoundDown | src/vm.rs:119-120 | pg_round_down gives the largest page multiple not above the address |
| RiscV.PgIndex | src/vm.rs:163 | a level's index of an address is 9 bits |
| RiscV.Pa2Pte | src/vm.rs:173 | pa2pte leaves the low 10 bits of the entry clear |
| RiscV.Pte2Pa | src/vm.rs:165 | pte2pa gives a page-aligned address |
| RiscV.PteAddressRoundTrip | src/vm.rs:165-173 | any flag bits below bit 10 added to pa2pte(pa) fit a u64, and pte2pa of the result is pa's page |
| RiscV.PgRoundDownAligned | src/vm.rs:316-318 | rounding down is idempotent, fixes exactly the aligned addresses, and preserves order |
| RiscV.PgIndexDetermines | src/vm.rs:147-154 | below MAXVA the three indices and the page offset determine the virtual address |
| RiscV.Fields | src/vm.rs:147-154 | below MAXVA an address is its offset plus its three indices, each scaled by its level's span |
| Vm.AsU64 | src/vm.rs:241-243 | an entry's u64 has the entry's high part above bit 5 and its flag bits below |
| Vm.FromU64 | src/vm.rs:241-243 | the entry read from a u64 splits it at bit 5 |
| Vm.PteU64RoundTrip | src/vm.rs:241-243 | an entry and its u64 determine each other |
| Vm.Flags | src/vm.rs:241-243 | flags() are the entry's five defined low bits |
| Vm.SetAddr | src/vm.rs:251-253 | set_addr replaces the whole entry by addr with the flags or-ed in |
| Vm.SetFlags | src/vm.rs:256-258 | set_flags or-s the flags in and keeps the rest of the entry |
| Vm.SetFlagsOnlyAdds | src/vm.rs:256-258 | set_flags never clears a bit and is idempotent |
| Vm.IsAligned | src/vm.rs:316-318 | an address is aligned exactly when it is a multiple of PGSIZE |
| Vm.LeafEntryRoundTrip | src/vm.rs:129-132 | an entry built from pa2pte(pa) and flags gives back exactly those flags and pa's page |
| Vm.SetEntry | src/vm.rs:129-132 | writing an entry changes that entry and no other |
| Vm.Allocate | src/vm.rs:182-190 | a freshly allocated page-table page reads as all zero entries, and no other page changes |
| Vm.Descend | src/vm.rs:162-175 | walk's loop only reads memory without alloc, takes at most one frame per level from the front of the list, and gives up with alloc only when the list is exhausted |
| Vm.WalkThrough | src/vm.rs:155-180 | walk panics exactly at or above MAXVA (the null-pointer unwrap on an entry naming page 0 aside, see Left out); otherwise it returns the level-0 index of va in the page reached, and it fails under alloc only when no frame is left |
| Vm.Walk | src/vm.rs:155-180 | the as-written walk has the same contract, with up to three frames allocated |
| Vm.WalkCorrected | src/vm.rs:143-154 | the corrected walk has the same contract, with up to two frames allocated |
| Vm.WalkCorrectedIsSv39 | src/vm.rs:147-154 | without alloc, the corrected walk finds exactly the level-0 entry the Sv39 hardware translation reads |
| Vm.WalkGoesOneLevelTooDeep | src/vm.rs:162-178 | without alloc, the as-written walk follows the entry the hardware reads one level further, or reports no entry when that entry is invalid |
| Vm.DescendFollows | src/vm.rs:162-176 | walk's loop without alloc, or where every entry on the way is valid, reaches exactly the table the valid-entry descent reaches, allocating nothing |
| Vm.Sv39SlotFollows | src/vm.rs:147-154 | the Sv39 translation's level-0 slot is the level-0 index in the table the valid-entry descent through levels 2 and 1 reaches |
| Vm.FollowKept | src/vm.rs:162-176 | a descent that succeeds goes the same way in any memory keeping every valid entry |
| Vm.AllocateFresh | src/vm.rs:170-175 | allocating a fresh frame and pointing an invalid entry of a page above the last level at it keeps every valid entry, leaves the remaining frames fresh, adds the new page to the table one level below, and changes only that entry and the new page |
| Vm.ChangesCompose | src/vm.rs:162-176 | the changes of one allocating level compose with the changes of the levels below |
| Vm.FreshForNewTable | src/vm.rs:29-33 | a table whose memory holds no valid entry yet, as kvmmake's newly allocated root, with page-aligned distinct frames other than the root on offer, has its frames fresh for the table at any depth |
| Vm.DescendKeepsAllocating | src/vm.rs:166-175 | one allocating level of walk's loop passes the promise of the levels below about memory and frames back to the whole descent |
| Vm.DescendKeepsFollowing | src/vm.rs:163-166 | the following step of walk's loop, through a valid entry, keeps the promise about memory and frames |
| Vm.DescendKeepsBelow | src/vm.rs:166-175 | after an allocating step the rest of the descent, from the new page one level down, keeps the promise about memory and frames |
| Vm.DescendKeeps | src/vm.rs:162-176 | walk's loop with alloc, from frames fresh for a laid-out table, keeps every valid entry, leaves the unused frames fresh, and changes only entries in the pages it took and invalid entries that now point at one of them |
| Vm.LayeredThrough | src/vm.rs:163-166 | following a valid entry one level down carries the layout promise of the rest of the descent over to the whole of it |
| Vm.DescendLayeredFollowing | src/vm.rs:163-166 | the following step of walk's loop, through a valid entry, keeps the layout promise |
| Vm.DescendLayeredBelow | src/vm.rs:166-175 | after an allocating step the rest of the descent, from the new page one level down, keeps the layout and every valid entry |
| Vm.DescendLayeredAllocating | src/vm.rs:166-175 | the allocating step of walk's loop keeps the layout promise: the new page joins the table one level below the page whose entry names it |
| Vm.DescendLayeredStops | src/vm.rs:166-169 | where walk's loop stops at once (no level left, or an invalid entry and no frame), memory, frames and layout stay as they are |
| Vm.DescendLayered | src/vm.rs:162-176 | walk's loop with alloc, from frames fresh for a laid-out table, leaves the table laid out with depths that only grew, and the page it reaches is the one the valid-entry descent through the new memory reaches, a page of the last level |
| Vm.WalkCorrectedAllocIsSv39 | src/vm.rs:155-180 | the corrected walk with alloc from frames fresh for the table always succeeds and returns the slot the Sv39 hardware reads in the new memory, keeping every valid entry and the remaining frames fresh for the table |
| Vm.ConcreteWalk | src/vm.rs:162-179 | from an empty table, the as-written walk of va 0 with allocation takes three frames and returns an entry in the third new table |
| Vm.ConcreteWalkCorrected | src/vm.rs:147-154 | from an empty table, the corrected walk of va 0 takes two frames and returns an entry in the second new table |
| Vm.MappingThroughWalkIsLost | src/vm.rs:178 | mapping va 0 to 0x5000 through the as-written walk leaves va 0 untranslated; through the corrected walk it translates to 0x5000 |
| Vm.LeafLandsTooDeep | src/vm.rs:178-179 | with the leaf written one level too deep, the entry the hardware reads is a bare pointer and va 0 has no translation |
| Vm.LeafInPlace | src/vm.rs:147-154 | with the leaf written at the level-0 entry of the Sv39 walk, va 0 translates to 0x5000 |
| Vm.PagesInOrderSnoc | src/vm.rs:129-137 | appending the next page's entry keeps the writes in page order |
| Vm.MapPages | src/vm.rs:110-141 | size 0 panics, and so does va + size leaving u64. Otherwise the i-th written entry maps page i from pg_round_down(va) to page i from pa, with perm plus VALID. A completed map writes one entry per page through pg_round_down(va + size - 1). Frame exhaustion is reported as an error. A first page whose walk panics makes the call panic alike, and with the Sv39 walk a first page the hardware already translates panics as a remap. With frames fresh for the table (`Vm.FreshFor`), every written entry is in the final memory, no entry valid before is changed, no mapped page had a translation before, and (with R, W or X in perm) each now translates to its physical page |
| Vm.MapRange | src/vm.rs:122-138 | the loop writes the entries for first..last in page order; a completed run writes (last - first) / PGSIZE + 1 entries and leaves the last one in memory; a panic in the first page's iteration is the run's panic; with frames fresh for the table (`Vm.FreshFor`) every written entry stays in memory at the slot the descent through the levels reaches, it was not valid before, and no valid entry is changed |
| Vm.MapPage | src/vm.rs:123-132 | one iteration: it panics out of range exactly at or above MAXVA, and with the remap panic exactly when the walk returns an entry that is already valid; a walk that cannot allocate reports no entry; otherwise the entry the walk returned, invalid before, becomes pa2pte(pa) with perm plus VALID, and every other entry is as the walk left it |
| Vm.RemapWhenAlreadyMapped | src/vm.rs:124-128 | through the Sv39 walk, mapping a page the hardware already translates panics with "page table entry already exists" |
| Vm.FirstPageRemap | src/vm.rs:119-128 | the first page map_pages maps is pg_round_down(va), so the remap panic covers it |
| Vm.LeafIsValid | src/vm.rs:129-132 | the entry map_pages writes is valid and points at pa's page |
| Vm.LeafWriteFresh | src/vm.rs:129-132 | writing an entry into an invalid slot of a last-level page keeps every valid entry, the frames fresh and the table laid out, whatever page the entry names |
| Vm.MapPageFresh | src/vm.rs:123-132 | from frames fresh for the table, one iteration keeps every valid entry and the remaining frames fresh for the table, whatever physical page it maps; the slot it writes was invalid and is where the descent through the levels reaches |
| Vm.MapRangeStep | src/vm.rs:122-138 | one loop iteration from frames fresh for the table keeps the earlier writes in place, adds its own and leaves the remaining frames fresh for the table |
| Vm.MappedSv39 | src/vm.rs:110-141 | a completed map_pages through the Sv39 walk from frames fresh for the table mapped only pages that had no translation, and with R, W or X each now translates to its physical page |
| Vm.PlacedTranslates | src/vm.rs:129-132 | entries placed on the Sv39 descent translate each page to its physical page |
| Vm.LeafTranslates | src/vm.rs:129-132 | a leaf entry in the level-0 slot of the Sv39 descent translates the page to pa's page |
| Vm.PlacedWereUnmapped | src/vm.rs:126-128 | entries placed where no valid entry was, with every valid entry kept, belong to pages the hardware did not translate before |
| Vm.NextPage | src/vm.rs:133-136 | between aligned addresses, a page short of last is at least a whole page short of it, so `a += PGSIZE` never steps past last |
| Trap.ClockIntr | src/trap.rs:101-104 | the tick counter advances by one and wraps to zero at 2^64 |
| Trap.Devintr | src/trap.rs:49-99 | external exactly when bit 63 is set and the low byte is 9; else software exactly for scause 0x8000000000000001; else Unknown with no effect. Only a software interrupt clears SSIP, and only on hart 0 does it advance the ticks. uart_intr runs exactly for irq 10, and plic_complete is called exactly for a nonzero irq other than 1 and 10, with the claimed irq and as the only effect; the claimed irq stays in flight exactly for 1 and 10 |
| Trap.DevintrCorrected | src/trap.rs:70-75 | the corrected devintr classifies alike, runs uart_intr alike, and completes every nonzero claimed irq |
| Trap.DevintrStandardCauses | src/trap.rs:49-99 | the supervisor external and software causes are recognised; the supervisor timer cause and every exception are Unknown |
| Trap.UartInterruptStaysClaimed | src/trap.rs:59-62 | once the UART's irq is claimed it stays in flight through every later devintr |
| Trap.DevintrCorrectedReleases | src/trap.rs:70-75 | with the correction the set of sources in flight never grows, and a UART interrupt is released at once |
| Trap.KernelTrap | src/trap.rs:20-42 | kerneltrap is fatal unless the trap came from supervisor mode with interrupts off and devintr recognised it; otherwise it writes back the sepc and sstatus it read |
| Trap.KernelTrapReturnsExactly | src/trap.rs:25-36 | kerneltrap returns exactly for the two recognised interrupts taken in supervisor mode with interrupts off; a tick on hart 0 then advances the counter |
| MemLayout.ClintMtimecmp | src/memlayout.rs:32-34 | each hart's compare register is 8-aligned at CLINT + 0x4000 + 8 * hart |
| MemLayout.PlicMenable | src/memlayout.rs:42-44 | the machine enable bits sit 0x100 apart per hart from PLIC + 0x2000 |
| MemLayout.PlicSenable | src/memlayout.rs:45-47 | the supervisor enable bits are 0x80 past the machine ones |
| MemLayout.PlicMpriority | src/memlayout.rs:48-50 | the machine thresholds sit 0x2000 apart per hart from PLIC + 0x200000 |
| MemLayout.PlicSpriority | src/memlayout.rs:51-53 | the supervisor threshold is 0x1000 past the machine one |
| MemLayout.PlicMclaim | src/memlayout.rs:54-56 | the machine claim register is the word after the machine threshold |
| MemLayout.PlicSclaim | src/memlayout.rs:57-59 | the supervisor claim register is the word after the supervisor threshold |
| MemLayout.ClintRegistersDisjoint | src/memlayout.rs:32-36 | distinct harts' compare registers do not overlap, and those of the NCPU harts lie below mtime |
| MemLayout.PlicPerHartStride | src/memlayout.rs:42-59 | consecutive harts' PLIC registers step by 0x100 and 0x2000, and no hart's registers reach the next hart's |
| MemLayout.RamSize | src/memlayout.rs:64-65 | the kernel's RAM is 128 MiB from 0x80000000 |

## Left out

- Concurrency: the compare-and-swap spin of `lock()` and memory orderings are not modelled. Each hart step is atomic, and a lock held by another hart is a precondition of the step.
- `swtch`, the `Context` registers, the scheduler loop, `yield` and the trap vectors are not modelled. The switch is a cut with the resumed state as a parameter.
- CSR reads and writes and device registers are parameters and results: `sstatus`, `scause`, `sepc`, `sip`, `tp`, the UART's LSR and THR, and the PLIC.
- `console_intr` is modelled (`Console.ConsoleInterrupt`) although `uart_intr` does not call it in this source: the call is left as a TODO at uart.rs:166.
- `plic.rs` (init and claim), `uart_init`, `uart_getc`, `uart_intr`, `console_read`/`console_write`, `printf` and the panic handler are not modelled. The `PANICKED` flag is a parameter of `Uart.UartPutc`, `Uart.UartPutcSync`, `Console.Echo` and `Console.ConsoleInterrupt`.
- `kvmmake`/`kvminit`/`kvm_map`, `PageTable` allocation, `wait_lock`, parents and files are not modelled. The `Arc` process pointers are modelled only through their identity, as the three lines below say.
- The page-geometry helpers of riscv.rs (`PGSIZE`, `MAXVA`, `pg_round_down`, `pg_index`, `pa2pte`, `pte2pa`) are not modelled from their Rust definitions. Their Sv39 values are assumed, following the Sv39 layout of section 4.4 of the RISC-V Privileged Architecture (v1.12) and are cited at the vm.rs lines that use them.
- Superpages are not modelled. The kernel never creates them, and `Vm.Translate` treats a non-leaf level-0 entry as no translation.
- The five reserved and software bits of a PTE (bits 5-9) are kept in the entry but not named.
- SpinLock.PushOff: `noff` is an unbounded `nat`, so the `noff += 1` overflow at 2^64 is not modelled. No kernel path nests that deep.
- Console.ConsoleIntr: the ring indices `r`, `w` and `e` are unbounded, so their `usize` wrap-around is not modelled. Reaching it would take 2^64 input bytes.
- Uart.UartPutc: the counters `tx_w` and `tx_r` are unbounded, for the same reason.
- Uart.UartPutcSync: the spin on LSR in `uart_putc_sync` is assumed to end, with the transmitter eventually idle.
- KAlloc.Alloc: the allocator's own lock and its push_off/pop_off on the hart are not modelled. The bracket is balanced, as `SpinLock.LockThenUnlock` shows.
- MemLayout: addresses are unbounded `nat`s. None of the sums reaches 2^64 for the harts the kernel has.
- Vm.MapRange: that every written entry is still in memory at the end is promised only when the frames are fresh for the table (`Vm.FreshFor`): page aligned, pairwise distinct, none of them a page holding a valid entry, none of them a page of the table, and the table laid out level by level below the root. The model's frame list is an arbitrary parameter. With a frame listed twice, a later walk zeroes a page-table page holding an earlier leaf. With one page at two levels of the table, a leaf can lead a later walk into a page still on offer, which it then zeroes. So the unconditional promise does not hold of the model. Leaves may name any page, so kvmmake's mappings of the kernel heap's RAM (vm.rs:73-79) and of the trampoline (vm.rs:82-88) are covered. The remap panic is promised for the first page only; for a later page it follows from `Vm.MapPage`, one iteration at a time.
- Vm.MapPages: the same condition (`Vm.FreshFor`) applies to its memory and translation promises, kvmmake's RAM and trampoline mappings included, and the remap panic is promised for the first page only.
- Proc.Wakeup: the hart's process is modelled as a slot number, but in this source `Cpu.proc` is an `Arc<Proc>` (proc.rs:233), a heap object distinct from every slot of the static table (proc.rs:24-29), so the `ptr::eq` skip (proc.rs:64) never holds. The as-written scan therefore visits every slot on a hart with a process, and `Proc.WakeupCorrected` keeps the xv6 reading, where the own slot is skipped.
- Proc.SleepBegin: sleep acts on the hart's own process, kept in the model at slot `c.proc`. In this source the lock it takes (proc.rs:91) and the Sleeping state it sets belong to the `Arc` the hart holds, which no table scan of wakeup reaches, so as written a sleeper is never woken; the model lets wakeup find it in the table. Nothing in this source assigns `Cpu.proc` beyond its `None` initialiser (proc.rs:242), so `myproc()` returns None and sleep and sched return at once; the model covers the path with a process as well.
- Proc.Sched: like sleep, it checks the lock and state of the hart's `Arc` (proc.rs:125-131), which the model keeps at slot `c.proc`.
- Vm.WalkThrough: the `unwrap` of `as_mut()` at vm.rs:165 panics on a valid entry naming physical page 0 (a null pointer); the model follows such an entry into page 0 instead. No entry of that kind arises in this source: walk points new entries only at pages `allocate_page_table` returned non-null (vm.rs:182-190), and every mapping kvmmake makes (vm.rs:29-91) is at or above 0x0C000000. Vm.Walk and Vm.WalkCorrected inherit this, as does Vm.Descend.
- Proc.Sched: the order of sched's guards makes the "interrupts enabled" panic unreachable, and the model reproduces this. `Sched` states it (`r != Panic(SchedInterruptsEnabled)`).

## Findings

| source | as written | input that shows it | evidently intended | confidence | as-written member | corrected member |
|---|---|---|---|---|---|---|
| src/proc.rs:92-95 | `sleep` releases the caller's guard with `force_unlock`, which skips the guard's `pop_off`, and re-takes it with `mem::forget(mutex.lock())` | a process holding its guard normally (depth 1) calls sleep: sched sees depth 2 and panics "noff != 1"; at entry depth 0 the return depth is 1 | drop the guard normally before sched and re-take it afterwards, so the nesting stays balanced | high (not executed) | Proc.SleepWithGuardPanics | Proc.SleepCorrectedBalanced |
| src/proc.rs:151-157 | `proc_dump`, documented as lock-free, locks every slot | a direct call of `proc_dump` on a hart that holds a slot lock: "already locked" panic (or a spin if another hart holds one). Its only caller, `console_intr`'s ^P branch, is not wired to the UART in this source (uart.rs:166), and from an interrupt the held-lock case could not arise, since holding a slot lock keeps interrupts off | read pid and state without taking the lock | medium (not executed) | Proc.ProcDumpPanicsWhileHoldingSlot | Proc.ProcDumpLockFree |
| src/proc.rs:75 | `wakeup` does nothing when `myproc()` is None | a direct call of `wakeup(5)` on a hart with no current process while a slot sleeps on 5: that slot stays Sleeping. Its only caller, `console_intr`, is not wired to the UART in this source (uart.rs:166), so no path reaches it yet | scan every slot when there is no current process | medium (not executed) | Proc.WakeupLostOnIdleHart | Proc.WakeupCorrected |
| src/vm.rs:162-178 | `walk` descends through levels 2, 1 and 0, then indexes the page reached | mapping va 0 to 0x5000 in an empty table: the leaf lands in a fourth-level page and va 0 has no translation | descend through levels 2 and 1 only | high (not executed) | Vm.MappingThroughWalkIsLost | Vm.WalkCorrectedIsSv39 |
| src/kalloc.rs:18 | `kinit` passes `PHYSTOP` as the heap size | a request for PHYSTOP bytes succeeds with a block ending at the kernel's end plus 0x88000000 | pass `PHYSTOP - end` | high (not executed) | KAlloc.KinitHeapPastRam | KAlloc.KinitCorrectedStaysInRam |
| src/trap.rs:59-62 | `devintr` completes only irqs other than the UART's and virtio's | a UART interrupt is claimed, handled and never completed, so the PLIC never forwards irq 10 again | call `plic_complete(irq)` for every nonzero irq | medium (not executed) | Trap.UartInterruptStaysClaimed | Trap.DevintrCorrectedReleases |

`Vm.MapPages` takes the list of walk levels as a parameter. `Vm.WALK_LEVELS` gives the code as written and `Vm.SV39_LEVELS` the corrected walk, so both behaviours of map_pages are covered by one contract.

=== FILE: arith.dfy ===
/** Facts about integer division shared by the allocator and the page
    geometry. */
module Arith {

  /** The quotient and remainder of a division are unique. */
  lemma DivModUnique(x: nat, d: nat, q: nat, m: nat)
    requires d > 0 && m < d && x == q * d + m
    ensures x % d == m && x / d == q
  {
    var q0, m0 := x / d, x % d;
    assert x == q0 * d + m0;
    if q0 < q {
      MulGap(q0, q, d);
    } else if q < q0 {
      MulGap(q, q0, d);
    }
  }

  /** Distinct multiples of `d` are at least `d` apart. */
  lemma MulGap(a: nat, b: nat, d: nat)
    requires a < b
    ensures b * d - a * d >= d
  {
    var k := b - a;
    assert b * d == a * d + k * d;
    assert k * d == (k - 1) * d + d;
    assert (k - 1) * d >= 0;
  }
}

=== FILE: common.dfy ===
/** Vocabulary shared by every module of the kernel model: optional values,
    the fatal panics the modelled code can reach, bytes and the 64-bit word. */
module Common {

  /** An optional value, used for `Option<T>` fields of the kernel. */
  datatype Option<+T> = None | Some(value: T)

  /** One constructor per `panic!`/`assert!` site reachable from the modelled code. */
  datatype Fault =
    | PopOffInterruptsEnabled      // pop_off found SIE set
    | PopOffTooManyTimes           // pop_off found a nesting depth of zero
    | AlreadyLocked                // lock() by the hart that already owns the lock
    | NotHeld                      // a guard dropped by a hart that does not own the lock
    | SchedNotHolding              // sched without the caller's own slot lock
    | SchedNoff                    // sched with a nesting depth other than one
    | SchedRunning                 // sched while the process is still Running
    | SchedInterruptsEnabled       // sched with SIE set
    | MapPagesZeroSize             // map_pages asked to map zero bytes
    | MapPagesRemap                // map_pages found the target entry already valid
    | WalkOutOfRange               // walk given an address at or above MAXVA
    | KernelTrapNotSupervisor      // kerneltrap with SSTATUS.SPP clear
    | KernelTrapInterruptsEnabled  // kerneltrap with SSTATUS.SIE set
    | KernelTrapUnknown            // kerneltrap for a cause devintr does not recognise
    | ArithmeticOverflow           // a checked `usize` addition or subtraction left 0..2^64

  /** A step that either completes with a value or halts the hart with a panic. */
  datatype Result<+T> = Ok(value: T) | Panic(fault: Fault)

  /** `u8` */
  type byte = x: int | 0 <= x < 256

  /** 2^64: the modulus of `usize`/`u64` wrap-around. */
  const U64: nat := 0x1_0000_0000_0000_0000

  /** A `u64`/`usize` value. */
  type u64 = x: int | 0 <= x < U64
}

=== FILE: console.dfy ===
/** Console input line discipline (console.rs): the edit ring `buf` with
    read, write and edit indices r <= w <= e <= r + INPUT_BUF, the special
    keys (^P process list, ^U kill line, backspace/DEL, ^D end of file), and
    the echo, which is modelled as the sequence of bytes sent to the UART. */
module Console {
  import opened Common
  import opened SpinLock
  import Proc
  import Uart

  /** Size of the input ring. */
  const INPUT_BUF: nat := 128

  const BACKSPACE: byte := 0x08
  const NEWLINE: byte := 0x0a
  const CARRIAGE_RETURN: byte := 0x0d
  const DELETE: byte := 0x7f
  const SPACE: byte := 0x20
  const AT_SIGN: byte := 0x40

  /** ctrl(b): the code Ctrl+b sends. */
  function Ctrl(b: byte): (r: byte)
    requires b >= AT_SIGN
    ensures r + AT_SIGN == b
  {
    b - AT_SIGN
  }

  /** The console state: read, write and edit indices (never reduced modulo
      the ring size; slots are addressed modulo INPUT_BUF) and the ring. */
  datatype Console = Console(r: nat, w: nat, e: nat, buf: seq<byte>)

  /** The index discipline console_intr maintains. */
  predicate Valid(cons: Console) {
    |cons.buf| == INPUT_BUF && cons.r <= cons.w <= cons.e <= cons.r + INPUT_BUF
  }

  /** The initial console (Console::default). */
  function InitialConsole(): (cons: Console)
    ensures Valid(cons) && cons.r == cons.w == cons.e == 0
  {
    Console(0, 0, 0, seq(INPUT_BUF, _ => 0))
  }

  /** cons_putc: the bytes written to the UART for one character. A
      BACKSPACE is rubbed out on screen as back, space, back. */
  function ConsPutc(c: byte): (out: seq<byte>)
    ensures c == BACKSPACE ==> out == [BACKSPACE, SPACE, BACKSPACE]
    ensures c != BACKSPACE ==> out == [c]
  {
    if c == BACKSPACE then [0x08, 0x20, 0x08] else [c]
  }

  /** `n` copies of `s` back to back. */
  function Repeat(s: seq<byte>, n: nat): (r: seq<byte>)
    ensures |r| == n * |s|
    decreases n
  {
    if n == 0 then [] else s + Repeat(s, n - 1)
  }

  /** The slot just before index `j` holds a newline. */
  predicate EndsLineAt(buf: seq<byte>, j: nat)
    requires |buf| == INPUT_BUF && j > 0
  {
    buf[(j - 1) % INPUT_BUF] == NEWLINE
  }

  /** Where the ^U loop stops: stepping `e` back one slot at a time, it halts
      at the write index or just after a stored newline. The result is the
      largest such stopping point not above `e`. */
  function EraseStop(buf: seq<byte>, w: nat, e: nat): (k: nat)
    requires |buf| == INPUT_BUF && w <= e
    ensures w <= k <= e
    ensures k == w || EndsLineAt(buf, k)
    ensures forall j :: k < j <= e ==> !EndsLineAt(buf, j)
    decreases e - w
  {
    if e != w && !EndsLineAt(buf, e) then EraseStop(buf, w, e - 1) else e
  }

  /** The ^U loop itself: while e != w and the slot before e is not a
      newline, step e back and echo a rubbed-out character. It stops at
      EraseStop, having echoed one rub-out per erased character. */
  method KillLine(cons: Console) returns (e: nat, echo: seq<byte>)
    requires Valid(cons)
    ensures e == EraseStop(cons.buf, cons.w, cons.e)
    ensures echo == Repeat(ConsPutc(BACKSPACE), cons.e - e)
  {
    e := cons.e;
    echo := [];
    while e != cons.w && cons.buf[(e - 1) % INPUT_BUF] != NEWLINE
      invariant cons.w <= e <= cons.e
      invariant EraseStop(cons.buf, cons.w, e) == EraseStop(cons.buf, cons.w, cons.e)
      invariant echo == Repeat(ConsPutc(BACKSPACE), cons.e - e)
      decreases e
    {
      e := e - 1;
      echo := echo + ConsPutc(BACKSPACE);
      RepeatSnoc(ConsPutc(BACKSPACE), cons.e - e - 1);
    }
  }

  /** One more copy at the end is one more copy. */
  lemma {:induction false} RepeatSnoc(s: seq<byte>, n: nat)
    ensures Repeat(s, n) + s == Repeat(s, n + 1)
    decreases n
  {
    if n > 0 {
      RepeatSnoc(s, n - 1);
      assert Repeat(s, n) + s == s + (Repeat(s, n - 1) + s);
    }
  }

  /** What console_intr asks of the rest of the kernel. */
  datatype ConsoleAction = NoAction | DumpProcesses | WakeReaders

  /** The console after one input byte, the bytes echoed, and the request. */
  datatype ConsoleStep = ConsoleStep(cons: Console, echo: seq<byte>, action: ConsoleAction)

  /** A byte that takes the default branch of console_intr. */
  predicate Ordinary(c: byte) {
    c != Ctrl('P' as int) && c != Ctrl('U' as int) && c != Ctrl('H' as int) && c != DELETE
  }

  /** The byte an accepted input byte is stored as: return becomes newline. */
  function Stored(c: byte): byte {
    if c == CARRIAGE_RETURN then NEWLINE else c
  }

  /** The edit console_intr makes under the console lock for input byte `c`.
      Every branch keeps r <= w <= e <= r + INPUT_BUF and never moves r. */
  function ConsoleIntr(cons: Console, c: byte): (s: ConsoleStep)
    requires Valid(cons)
    ensures Valid(s.cons) && s.cons.r == cons.r
    ensures s.action == DumpProcesses <==> c == Ctrl('P' as int)
    ensures c == Ctrl('P' as int) ==> s.cons == cons && s.echo == []
    ensures c == Ctrl('U' as int) ==>
              && s.cons == cons.(e := EraseStop(cons.buf, cons.w, cons.e))
              && s.echo == Repeat(ConsPutc(BACKSPACE), cons.e - s.cons.e)
              && s.action == NoAction
    ensures (c == Ctrl('H' as int) || c == DELETE) ==>
              && s.action == NoAction
              && (cons.e != cons.w ==> s.cons == cons.(e := cons.e - 1) && s.echo == ConsPutc(BACKSPACE))
              && (cons.e == cons.w ==> s.cons == cons && s.echo == [])
    ensures Ordinary(c) && (c == 0 || cons.e - cons.r >= INPUT_BUF) ==> s == ConsoleStep(cons, [], NoAction)
    ensures Ordinary(c) && c != 0 && cons.e - cons.r < INPUT_BUF ==>
              && s.echo == [Stored(c)]
              && s.cons.e == cons.e + 1
              && s.cons.buf == cons.buf[cons.e % INPUT_BUF := Stored(c)]
              && (s.action == WakeReaders <==>
                    Stored(c) == NEWLINE || Stored(c) == Ctrl('D' as int) || cons.e + 1 == cons.r + INPUT_BUF)
              && s.cons.w == (if s.action == WakeReaders then s.cons.e else cons.w)
  {
    if c == Ctrl('P' as int) then
      ConsoleStep(cons, [], DumpProcesses)
    else if c == Ctrl('U' as int) then
      var k := EraseStop(cons.buf, cons.w, cons.e);
      ConsoleStep(cons.(e := k), Repeat(ConsPutc(BACKSPACE), cons.e - k), NoAction)
    else if c == Ctrl('H' as int) || c == DELETE then
      if cons.e != cons.w then ConsoleStep(cons.(e := cons.e - 1), ConsPutc(BACKSPACE), NoAction)
      else ConsoleStep(cons, [], NoAction)
    else if c != 0 && cons.e - cons.r < INPUT_BUF then
      var ch := Stored(c);
      var stored := cons.(buf := cons.buf[cons.e % INPUT_BUF := ch], e := cons.e + 1);
      if ch == NEWLINE || ch == Ctrl('D' as int) || stored.e == stored.r + INPUT_BUF then
        ConsoleStep(stored.(w := stored.e), ConsPutc(ch), WakeReaders)
      else
        ConsoleStep(stored, ConsPutc(ch), NoAction)
    else
      ConsoleStep(cons, [], NoAction)
  }

  /** Typing a full line is what publishes it: after `line` accepted bytes
      ending in a newline, w has caught up with e. */
  lemma NewlinePublishes(cons: Console)
    requires Valid(cons) && cons.e - cons.r < INPUT_BUF
    ensures ConsoleIntr(cons, NEWLINE).cons.w == cons.e + 1
    ensures ConsoleIntr(cons, CARRIAGE_RETURN).cons.w == cons.e + 1
    ensures ConsoleIntr(cons, CARRIAGE_RETURN).action == WakeReaders
  {
  }

  /** Backspace undoes typing: an accepted byte that does not complete a
      line, followed by backspace, leaves the indices as they were, and the
      screen shows the byte and then its rub-out. */
  lemma BackspaceUndoesTyping(cons: Console, c: byte)
    requires Valid(cons) && Ordinary(c) && c != 0 && cons.e - cons.r < INPUT_BUF
    requires ConsoleIntr(cons, c).action == NoAction
    ensures var typed := ConsoleIntr(cons, c);
            var erased := ConsoleIntr(typed.cons, DELETE);
            && erased.cons.r == cons.r && erased.cons.w == cons.w && erased.cons.e == cons.e
            && typed.echo + erased.echo == [Stored(c), BACKSPACE, SPACE, BACKSPACE]
  {
  }

  /** An echo inside the console lock (uart_putc_sync's push_off/pop_off)
      leaves a consistent hart with a lock held exactly as it was. */
  lemma EchoKeepsHart(c: Cpu)
    requires Consistent(c) && c.noff > 0
    ensures PushPop(c) == c
  {
  }

  /** The whole of console_intr on hart `cpu`: take the console lock, edit,
      print the process list (^P) or wake the readers sleeping on `readChan`
      (the address of `r`), drop the lock. */
  datatype Interrupted = Interrupted(cpu: Cpu, consLock: SpinMutex, cons: Console, table: seq<Proc.Proc>,
                                     echo: seq<byte>, listing: seq<Proc.DumpLine>)

  /** The lock drop that ends console_intr. */
  function Finish(cpu: Cpu, lk: SpinMutex, s: ConsoleStep, t: seq<Proc.Proc>, listing: seq<Proc.DumpLine>): Result<Interrupted> {
    match Unlock(lk, cpu)
    case Panic(f) => Panic(f)
    case Ok((lk', cpu')) => Ok(Interrupted(cpu', lk', s.cons, t, s.echo, listing))
  }

  /** The echo of one input byte, one cons_putc (so one uart_putc_sync) per
      byte, inside the console lock. The first byte hangs once PANICKED is
      set; otherwise every byte goes out and the hart is as it was. */
  function Echo(cpu: Cpu, bytes: seq<byte>, panicked: bool): (r: Result<Uart.SyncOutcome>)
    requires Consistent(cpu) && cpu.noff > 0
    ensures r.Ok?
    ensures r.value.Stuck? <==> panicked && bytes != []
    ensures r.value.Echoed? ==> r.value.out == bytes && r.value.cpu == cpu
    decreases |bytes|
  {
    if bytes == [] then Ok(Uart.Echoed(cpu, []))
    else
      match Uart.UartPutcSync(cpu, bytes[0], panicked)
      case Panic(f) => Panic(f)
      case Ok(first) =>
        if first.Stuck? then Ok(Uart.Stuck)
        else
          EchoKeepsHart(cpu);
          match Echo(first.cpu, bytes[1..], panicked)
          case Panic(f) => Panic(f)
          case Ok(rest) =>
            if rest.Stuck? then Ok(Uart.Stuck)
            else
              assert bytes == first.out + rest.out;
              Ok(Uart.Echoed(rest.cpu, bytes))
  }

  /** How console_intr ends: it never returns because an echo hangs on a
      panicked kernel, or it returns. */
  datatype Outcome = EchoHangs | Returned(done: Interrupted)

  /** console_intr(c) composed with the process table. The console state and
      echo are those of ConsoleIntr, and the echo goes out before anything
      else happens; once the kernel has panicked a byte with an echo hangs
      there. Only a completed line touches the table, and then exactly as
      wakeup does; the console lock ends up free and the hart's depth where
      it started. ^P runs proc_dump with the console lock held, and every
      line proc_dump prints goes through println!, whose _print takes the
      console lock again: as written ^P returns only when no slot is in use.
      Slot locks matter only to the two bytes that take them: ^P (proc_dump
      locks every slot) and a byte that completes a line (wakeup locks the
      slots it scans). */
  function ConsoleInterrupt(cpu: Cpu, consLock: SpinMutex, cons: Console, t: seq<Proc.Proc>, c: byte, readChan: nat,
                            panicked: bool): (r: Result<Outcome>)
    requires Valid(cons)
    requires !HeldElsewhere(consLock, cpu.id)
    requires ConsoleIntr(cons, c).action == DumpProcesses ==> Proc.SlotsNotHeldElsewhere(t, cpu.id)
    requires ConsoleIntr(cons, c).action == WakeReaders ==> Proc.ScanNotBlocked(PushOff(cpu), t, 0, false)
    ensures Holding(consLock, cpu) ==> r == Panic(AlreadyLocked)
    ensures r.Ok? && r.value.EchoHangs? <==>
              !Holding(consLock, cpu) && panicked && ConsoleIntr(cons, c).echo != []
    ensures r.Panic? <==>
              || Holding(consLock, cpu)
              || (ConsoleIntr(cons, c).action == DumpProcesses &&
                  ((exists j :: 0 <= j < |t| && Holding(t[j].lock, cpu)) || Proc.Listing(t) != []))
              || (ConsoleIntr(cons, c).action == WakeReaders && !panicked && cpu.proc.Some? &&
                  exists j :: 0 <= j < |t| && Holding(t[j].lock, cpu))
    ensures r.Panic? && !Holding(consLock, cpu) && ConsoleIntr(cons, c).action == DumpProcesses ==>
              r == Panic(AlreadyLocked)
    ensures r.Ok? && r.value.Returned? ==>
              && r.value.done.cons == ConsoleIntr(cons, c).cons && r.value.done.echo == ConsoleIntr(cons, c).echo
              && r.value.done.consLock.owner == None && r.value.done.cpu.noff == cpu.noff
    ensures r.Ok? && r.value.Returned? && ConsoleIntr(cons, c).action != WakeReaders ==> r.value.done.table == t
    ensures r.Ok? && r.value.Returned? && ConsoleIntr(cons, c).action == WakeReaders ==>
              && Proc.Wakeup(PushOff(cpu), t, readChan).Ok?
              && r.value.done.table == Proc.Wakeup(PushOff(cpu), t, readChan).value.1
    ensures r.Ok? && r.value.Returned? && ConsoleIntr(cons, c).action == DumpProcesses ==>
              && r.value.done.listing == Proc.Listing(t) == []
              && forall j :: 0 <= j < |t| ==> t[j].control.state == Proc.Unused
  {
    match Lock(consLock, cpu)
    case Panic(f) => Panic(f)
    case Ok((lk, c1)) =>
      var s := ConsoleIntr(cons, c);
      match Echo(c1, s.echo, panicked)
      case Panic(f) => Panic(f)
      case Ok(echoed) =>
        if echoed.Stuck? then Ok(EchoHangs)
        else match s.action
          case NoAction => Wrap(Finish(c1, lk, s, t, []))
          case DumpProcesses =>
            (match Proc.ProcDump(c1, t)
             case Panic(f) => Panic(f)
             case Ok((c2, t2, listing)) =>
               if listing != [] then Panic(AlreadyLocked)
               else
                 Proc.ListingExact(t);
                 Wrap(Finish(c2, lk, s, t2, listing)))
          case WakeReaders =>
            (match Proc.Wakeup(c1, t, readChan)
             case Panic(f) => Panic(f)
             case Ok((c2, t2)) => Wrap(Finish(c2, lk, s, t2, [])))
  }

  /** A console_intr that ran to its end. */
  function Wrap(r: Result<Interrupted>): Result<Outcome> {
    match r
    case Panic(f) => Panic(f)
    case Ok(i) => Ok(Returned(i))
  }
}

=== FILE: kalloc.dfy ===
/** The kernel heap (kalloc.rs): a bump allocator behind a spin lock. It
    hands out blocks by advancing `next`, counts live allocations, and only
    reclaims memory when the count returns to zero. `usize` arithmetic is
    taken with overflow checks on: an addition or subtraction that leaves
    0..2^64 is a panic, except for the explicit `checked_add`. */
module KAlloc {
  import opened Common
  import opened Arith
  import MemLayout

  datatype BumpAllocator = BumpAllocator(heapStart: nat, heapEnd: nat, next: nat, allocations: nat)

  /** The request `Layout` carries: a size and a power-of-two alignment. */
  datatype Layout = Layout(size: nat, align: nat)

  predicate IsPowerOfTwo(n: nat)
    decreases n
  {
    n == 1 || (n >= 2 && n % 2 == 0 && IsPowerOfTwo(n / 2))
  }

  /** What the `Layout` type guarantees: a power-of-two alignment and values
      that fit a `usize`. */
  predicate ValidLayout(l: Layout) {
    IsPowerOfTwo(l.align) && l.align < U64 && l.size < U64
  }

  /** What alloc returns: a null pointer or the start of a block. */
  datatype Allocated = Null | Block(start: nat)

  /** BumpAllocator::new: everything zero. */
  function New(): (a: BumpAllocator)
    ensures a.heapStart == a.heapEnd == a.next == 0 && a.allocations == 0
  {
    BumpAllocator(0, 0, 0, 0)
  }

  /** The bounds the allocator keeps once initialised: `next` stays inside the
      heap, every field is a `usize`, and with no live allocation `next` is
      back at the start. */
  predicate Valid(a: BumpAllocator) {
    && a.heapStart <= a.next <= a.heapEnd < U64 && a.allocations < U64
    && (a.allocations == 0 ==> a.next == a.heapStart)
  }

  /** init(heap_start, heap_size): the heap is [heap_start, heap_start +
      heap_size); the count is left as it was. */
  function Init(a: BumpAllocator, heapStart: nat, heapSize: nat): (r: Result<BumpAllocator>)
    requires heapStart < U64 && heapSize < U64
    ensures r.Panic? <==> heapStart + heapSize >= U64
    ensures r.Ok? ==> r.value.heapEnd - r.value.heapStart == heapSize
    ensures r.Ok? ==> r.value.heapStart == r.value.next == heapStart && r.value.allocations == a.allocations
  {
    if heapStart + heapSize >= U64 then Panic(ArithmeticOverflow)
    else Ok(a.(heapStart := heapStart, heapEnd := heapStart + heapSize, next := heapStart))
  }

  /** `x & !(align - 1)` for a power-of-two `align`: the low bits below
      `align` cleared, one bit at a time. */
  function ClearLowBits(x: nat, align: nat): nat
    requires IsPowerOfTwo(align)
    decreases align
  {
    if align == 1 then x else 2 * ClearLowBits(x / 2, align / 2)
  }

  /** Clearing the low bits rounds down to a multiple of `align`. */
  lemma {:induction false} ClearLowBitsRoundsDown(x: nat, align: nat)
    requires IsPowerOfTwo(align)
    ensures ClearLowBits(x, align) == x - x % align
    decreases align
  {
    if align != 1 {
      ClearLowBitsRoundsDown(x / 2, align / 2);
      HalvedRemainder(x, align / 2);
    }
  }

  /** The remainder by 2h is twice the remainder of x / 2 by h, plus the
      bit shifted out. */
  lemma HalvedRemainder(x: nat, h: nat)
    requires h > 0
    ensures x % (2 * h) == 2 * ((x / 2) % h) + x % 2
  {
    var q, r := (x / 2) / h, (x / 2) % h;
    assert x / 2 == q * h + r;
    assert x == q * (2 * h) + (2 * r + x % 2);
    DivModUnique(x, 2 * h, q, 2 * r + x % 2);
  }

  /** Subtracting the remainder lands on a multiple of `d` less than `d`
      below. */
  lemma RoundDownFacts(x: nat, d: nat)
    requires d > 0
    ensures (x - x % d) % d == 0 && x - x % d <= x < x - x % d + d
  {
    assert x == x / d * d + x % d;
    DivModUnique(x - x % d, d, x / d, 0);
  }

  /** Two multiples of `d` less than `d` apart are equal. */
  lemma MultiplesApart(s: nat, t: nat, d: nat)
    requires d > 0 && s % d == 0 && t % d == 0 && s <= t < s + d
    ensures s == t
  {
    var qs, qt := s / d, t / d;
    assert s == qs * d && t == qt * d;
    if qs < qt {
      MulGap(qs, qt, d);
    } else if qt < qs {
      MulGap(qt, qs, d);
    }
  }

  /** The start of the block alloc would hand out for alignment `align` (the
      align-up of `next`), or None when the sum overflows. Rust evaluates
      `next + align - 1` as `(next + align) - 1`, so the overflow check fires
      as soon as `next + align` leaves `usize`, one step before the rounded
      value itself would. */
  function AlignUp(next: nat, align: nat): (r: Option<nat>)
    requires IsPowerOfTwo(align)
    ensures r.None? <==> next + align >= U64
    ensures r.Some? ==> r.value % align == 0 && next <= r.value < next + align
  {
    if next + align >= U64 then None
    else
      ClearLowBitsRoundsDown(next + align - 1, align);
      RoundDownFacts(next + align - 1, align);
      Some(ClearLowBits(next + align - 1, align))
  }

  /** The align-up is the least multiple of `align` not below `next`: no
      other multiple lies in [next, next + align). */
  lemma AlignUpLeast(next: nat, align: nat)
    requires IsPowerOfTwo(align) && next + align < U64
    ensures forall s :: s % align == 0 && next <= s < next + align ==> s == AlignUp(next, align).value
  {
    var t := AlignUp(next, align).value;
    forall s | s % align == 0 && next <= s < next + align
      ensures s == t
    {
      if s <= t {
        MultiplesApart(s, t, align);
      } else {
        MultiplesApart(t, s, align);
      }
    }
  }

  /** GlobalAlloc::alloc: round `next` up to the alignment; a `checked_add`
      overflow or an end beyond the heap gives null and changes nothing;
      otherwise the block is [start, start + size), `next` moves to its end
      and the count goes up by one. */
  function Alloc(a: BumpAllocator, l: Layout): (r: Result<(BumpAllocator, Allocated)>)
    requires ValidLayout(l) && a.next < U64 && a.allocations < U64
    ensures r.Panic? ==> r.fault == ArithmeticOverflow
    ensures r.Panic? <==>
              || a.next + l.align >= U64
              || (var s := AlignUp(a.next, l.align).value;
                  s + l.size < U64 && s + l.size <= a.heapEnd && a.allocations + 1 >= U64)
    ensures a.next + l.align < U64 && a.allocations + 1 < U64 ==> r.Ok?
    ensures r.Ok? && r.value.1.Null? ==> r.value.0 == a
    ensures r.Ok? && r.value.1.Block? ==>
              var s := r.value.1.start;
              && s % l.align == 0 && a.next <= s < a.next + l.align
              && s + l.size <= a.heapEnd
              && r.value.0 == a.(next := s + l.size, allocations := a.allocations + 1)
    ensures r.Ok? && r.value.1.Null? ==>
              forall s :: s % l.align == 0 && a.next <= s < a.next + l.align ==> s + l.size > a.heapEnd || s + l.size >= U64
  {
    match AlignUp(a.next, l.align)
    case None => Panic(ArithmeticOverflow)
    case Some(start) =>
      AlignUpLeast(a.next, l.align);
      if start + l.size >= U64 then Ok((a, Null))
      else if start + l.size > a.heapEnd then Ok((a, Null))
      else if a.allocations + 1 >= U64 then Panic(ArithmeticOverflow)
      else Ok((a.(next := start + l.size, allocations := a.allocations + 1), Block(start)))
  }

  /** At the overflow edge: with `next + align` exactly 2^64 the sum
      overflows, although the rounded-down start would still fit. */
  lemma AllocPanicsAtAlignEdge()
    ensures Alloc(BumpAllocator(0, U64 - 1, U64 - 2, 1), Layout(1, 2)) == Panic(ArithmeticOverflow)
  {
  }

  /** GlobalAlloc::dealloc: the pointer and layout are ignored; the count
      goes down by one, and the whole heap is reclaimed when it reaches zero. */
  function Dealloc(a: BumpAllocator): (r: Result<BumpAllocator>)
    ensures r.Panic? <==> a.allocations == 0
    ensures r.Ok? ==> r.value.allocations + 1 == a.allocations
    ensures r.Ok? ==> r.value.heapStart == a.heapStart && r.value.heapEnd == a.heapEnd
    ensures r.Ok? ==> r.value.next == (if r.value.allocations == 0 then a.heapStart else a.next)
  {
    if a.allocations == 0 then Panic(ArithmeticOverflow)
    else
      var b := a.(allocations := a.allocations - 1);
      if b.allocations == 0 then Ok(b.(next := b.heapStart)) else Ok(b)
  }

  /** Alloc and Dealloc keep the allocator Valid. */
  lemma AllocDeallocKeepValid(a: BumpAllocator, l: Layout)
    requires Valid(a) && ValidLayout(l)
    ensures Alloc(a, l).Ok? ==> Valid(Alloc(a, l).value.0)
    ensures Dealloc(a).Ok? ==> Valid(Dealloc(a).value)
  {
  }

  /** A single allocation freed again puts a fresh allocator back exactly as
      it was. */
  lemma AllocThenDeallocRestores(a: BumpAllocator, l: Layout)
    requires Valid(a) && ValidLayout(l) && a.allocations == 0
    requires Alloc(a, l).Ok? && Alloc(a, l).value.1.Block?
    ensures Dealloc(Alloc(a, l).value.0) == Ok(a)
  {
  }

  /** A run of allocations with no dealloc in between, stopping at the first
      panic. */
  function AllocSeq(a: BumpAllocator, ls: seq<Layout>): (r: Result<(BumpAllocator, seq<Allocated>)>)
    requires forall i :: 0 <= i < |ls| ==> ValidLayout(ls[i])
    requires Valid(a)
    ensures r.Ok? ==> |r.value.1| == |ls| && Valid(r.value.0)
    ensures r.Ok? ==> r.value.0.heapStart == a.heapStart && r.value.0.heapEnd == a.heapEnd
    decreases |ls|
  {
    if |ls| == 0 then Ok((a, []))
    else
      AllocDeallocKeepValid(a, ls[0]);
      match Alloc(a, ls[0])
      case Panic(f) => Panic(f)
      case Ok((a', b)) =>
        match AllocSeq(a', ls[1..])
        case Panic(f) => Panic(f)
        case Ok((a'', bs)) => Ok((a'', [b] + bs))
  }

  /** The blocks of a run of allocations lie between the old and the new
      `next`, which never moves back. */
  lemma {:induction false} AllocSeqBounds(a: BumpAllocator, ls: seq<Layout>)
    requires forall i :: 0 <= i < |ls| ==> ValidLayout(ls[i])
    requires Valid(a)
    ensures AllocSeq(a, ls).Ok? ==>
              var (a', bs) := AllocSeq(a, ls).value;
              && a.next <= a'.next <= a'.heapEnd
              && (forall i :: 0 <= i < |bs| && bs[i].Block? ==> a.next <= bs[i].start && bs[i].start + ls[i].size <= a'.next)
    decreases |ls|
  {
    if |ls| > 0 && AllocSeq(a, ls).Ok? {
      AllocDeallocKeepValid(a, ls[0]);
      var a1 := Alloc(a, ls[0]).value.0;
      AllocSeqBounds(a1, ls[1..]);
      var (a', bs) := AllocSeq(a, ls).value;
      var rest := AllocSeq(a1, ls[1..]).value.1;
      forall i | 0 <= i < |bs| && bs[i].Block?
        ensures a.next <= bs[i].start && bs[i].start + ls[i].size <= a'.next
      {
        if i > 0 {
          assert bs[i] == rest[i - 1] && ls[i] == ls[1..][i - 1];
        }
      }
    }
  }

  /** The blocks of a run of allocations come in increasing order and never
      overlap. */
  lemma {:induction false} AllocSeqDisjoint(a: BumpAllocator, ls: seq<Layout>)
    requires forall i :: 0 <= i < |ls| ==> ValidLayout(ls[i])
    requires Valid(a)
    ensures AllocSeq(a, ls).Ok? ==>
              var bs := AllocSeq(a, ls).value.1;
              forall i, j :: 0 <= i < j < |bs| && bs[i].Block? && bs[j].Block? ==> bs[i].start + ls[i].size <= bs[j].start
    decreases |ls|
  {
    if |ls| > 0 && AllocSeq(a, ls).Ok? {
      AllocDeallocKeepValid(a, ls[0]);
      var a1 := Alloc(a, ls[0]).value.0;
      AllocSeqBounds(a1, ls[1..]);
      AllocSeqDisjoint(a1, ls[1..]);
      var bs := AllocSeq(a, ls).value.1;
      var rest := AllocSeq(a1, ls[1..]).value.1;
      forall i, j | 0 <= i < j < |bs| && bs[i].Block? && bs[j].Block?
        ensures bs[i].start + ls[i].size <= bs[j].start
      {
        assert bs[j] == rest[j - 1] && ls[j] == ls[1..][j - 1];
        if i > 0 {
          assert bs[i] == rest[i - 1] && ls[i] == ls[1..][i - 1];
        }
      }
    }
  }

  /** kinit as written: the allocator is initialised with the kernel's end
      address as its start and PHYSTOP passed where init expects a size. */
  function Kinit(kernelEnd: nat): (r: Result<BumpAllocator>)
    requires MemLayout.KERNBASE <= kernelEnd <= MemLayout.PHYSTOP
    ensures r.Ok? && r.value.heapEnd == kernelEnd + MemLayout.PHYSTOP && Valid(r.value)
  {
    Init(New(), kernelEnd, MemLayout.PHYSTOP)
  }

  /** kinit as intended: the heap runs from the kernel's end to PHYSTOP. */
  function KinitCorrected(kernelEnd: nat): (r: Result<BumpAllocator>)
    requires MemLayout.KERNBASE <= kernelEnd <= MemLayout.PHYSTOP
    ensures r.Ok? && Valid(r.value)
    ensures r.value.heapStart == kernelEnd && r.value.heapEnd == MemLayout.PHYSTOP
  {
    Init(New(), kernelEnd, MemLayout.PHYSTOP - kernelEnd)
  }

  /** Finding: the heap kinit sets up reaches far beyond PHYSTOP, so a request
      for PHYSTOP bytes succeeds and its block runs past the end of RAM. */
  lemma KinitHeapPastRam(kernelEnd: nat)
    requires MemLayout.KERNBASE <= kernelEnd <= MemLayout.PHYSTOP
    ensures var a := Kinit(kernelEnd).value;
            && Alloc(a, Layout(MemLayout.PHYSTOP, 1)) == Ok((a.(next := kernelEnd + MemLayout.PHYSTOP, allocations := 1), Block(kernelEnd)))
            && kernelEnd + MemLayout.PHYSTOP > MemLayout.PHYSTOP
  {
    var a := Kinit(kernelEnd).value;
    ClearLowBitsRoundsDown(kernelEnd, 1);
  }

  /** With the corrected kinit, every block of every run of allocations lies
      inside the kernel's RAM, between the kernel's end and PHYSTOP. */
  lemma KinitCorrectedStaysInRam(kernelEnd: nat, ls: seq<Layout>)
    requires MemLayout.KERNBASE <= kernelEnd <= MemLayout.PHYSTOP
    requires forall i :: 0 <= i < |ls| ==> ValidLayout(ls[i])
    ensures var a := KinitCorrected(kernelEnd).value;
            AllocSeq(a, ls).Ok? ==>
              forall i :: 0 <= i < |ls| && AllocSeq(a, ls).value.1[i].Block? ==>
                kernelEnd <= AllocSeq(a, ls).value.1[i].start &&
                AllocSeq(a, ls).value.1[i].start + ls[i].size <= MemLayout.PHYSTOP
  {
    var a := KinitCorrected(kernelEnd).value;
    AllocSeqBounds(a, ls);
  }
}

=== FILE: memlayout.dfy ===
/** The physical memory map of the qemu `virt` machine (memlayout.rs): the
    device base addresses, the per-hart CLINT and PLIC register formulas, and
    the RAM the kernel uses. Addresses are unbounded naturals; for the hart
    numbers the kernel passes (below NCPU) none of the sums comes near 2^64. */
module MemLayout {
  import Param

  const UART0: nat := 0x1000_0000
  const UART0_IRQ: nat := 10
  const VIRTIO0: nat := 0x1000_1000
  const VIRTIO0_IRQ: nat := 1

  /** Core-local interruptor, which holds the timer. */
  const CLINT: nat := 0x200_0000

  /** The machine-time compare register of hart `id`: one 8-byte register per
      hart, packed from CLINT + 0x4000 upwards. */
  function ClintMtimecmp(id: nat): (a: nat)
    ensures a % 8 == 0
    ensures CLINT + 0x4000 <= a && (a - (CLINT + 0x4000)) / 8 == id
  {
    CLINT + 0x4000 + 8 * id
  }

  /** The machine-time counter (cycles since boot). */
  const CLINT_MTIME: nat := CLINT + 0xBFF8

  /** Platform-level interrupt controller. */
  const PLIC: nat := 0x0C00_0000
  const PLIC_PRIORITY: nat := PLIC + 0x0
  const PLIC_PENDING: nat := PLIC + 0x1000

  /** Machine-mode enable bits of hart `hart`. */
  function PlicMenable(hart: nat): (a: nat)
    ensures a >= PLIC + 0x2000 && (a - (PLIC + 0x2000)) % 0x100 == 0
  {
    PLIC + 0x2000 + hart * 0x100
  }

  /** Supervisor-mode enable bits: 0x80 past the machine-mode ones. */
  function PlicSenable(hart: nat): (a: nat)
    ensures a == PlicMenable(hart) + 0x80
  {
    PLIC + 0x2080 + hart * 0x100
  }

  /** Machine-mode priority threshold of hart `hart`. */
  function PlicMpriority(hart: nat): (a: nat)
    ensures a >= PLIC + 0x20_0000 && (a - (PLIC + 0x20_0000)) % 0x2000 == 0
  {
    PLIC + 0x20_0000 + hart * 0x2000
  }

  /** Supervisor-mode priority threshold: 0x1000 past the machine-mode one. */
  function PlicSpriority(hart: nat): (a: nat)
    ensures a == PlicMpriority(hart) + 0x1000
  {
    PLIC + 0x20_1000 + hart * 0x2000
  }

  /** Machine-mode claim/complete register: the word after the threshold. */
  function PlicMclaim(hart: nat): (a: nat)
    ensures a == PlicMpriority(hart) + 4
  {
    PLIC + 0x20_0004 + hart * 0x2000
  }

  /** Supervisor-mode claim/complete register: the word after the threshold. */
  function PlicSclaim(hart: nat): (a: nat)
    ensures a == PlicSpriority(hart) + 4
  {
    PLIC + 0x20_1004 + hart * 0x2000
  }

  /** Start of the RAM the boot ROM jumps to. */
  const KERNBASE: nat := 0x8000_0000
  /** End of the RAM the kernel uses. */
  const PHYSTOP: nat := KERNBASE + 128 * 1024 * 1024

  /** Distinct harts get distinct, non-overlapping compare registers, and all
      of them (for the NCPU harts) lie below the time counter. */
  lemma ClintRegistersDisjoint(i: nat, j: nat)
    ensures i != j ==> ClintMtimecmp(i) + 8 <= ClintMtimecmp(j) || ClintMtimecmp(j) + 8 <= ClintMtimecmp(i)
    ensures i < Param.NCPU ==> ClintMtimecmp(i) + 8 <= CLINT_MTIME
  {
  }

  /** Consecutive harts' PLIC contexts step by 0x100 (enable bits) and by
      0x2000 (threshold and claim), and one hart's registers never reach the
      next hart's. */
  lemma PlicPerHartStride(h: nat)
    ensures PlicMenable(h + 1) == PlicMenable(h) + 0x100
    ensures PlicSenable(h + 1) == PlicSenable(h) + 0x100
    ensures PlicMpriority(h + 1) == PlicMpriority(h) + 0x2000
    ensures PlicSpriority(h + 1) == PlicSpriority(h) + 0x2000
    ensures PlicSenable(h) + 0x80 <= PlicMenable(h + 1)
    ensures PlicSclaim(h) + 4 <= PlicMpriority(h + 1)
  {
  }

  /** The kernel's RAM is 128 MiB, starting at 0x8000_0000. */
  lemma RamSize()
    ensures PHYSTOP - KERNBASE == 0x800_0000 && PHYSTOP == 0x8800_0000
  {
  }
}

=== FILE: param.dfy ===
/** Kernel-wide size limits (param.rs). */
module Param {
  /** Maximum number of processes. */
  const NPROC: nat := 64
  /** Maximum number of CPUs (harts). */
  const NCPU: nat := 8
}

=== FILE: proc.dfy ===
/** The process table and the sleep/wakeup/sched handoff (proc.rs). The
    table is a sequence of slots; each slot pairs its lock-protected control
    block with the lock and the process name. The register-context switch is
    an opaque yield: `sched` and `sleep` are split at the switch, and the
    world the process finds when it is switched back in is a parameter. */
module Proc {
  import opened Common
  import opened SpinLock

  datatype ProcState = Unused | Used | Sleeping | Runnable | Running | Zombie

  /** The fields guarded by a slot's lock. `chan` is the sleep channel. */
  datatype ProcControl = ProcControl(state: ProcState, chan: Option<nat>, killed: bool, xstate: int, pid: nat)

  /** One process-table slot: the guarded control block, its lock, and the
      process name (private to the process, read without the lock). */
  datatype Proc = Proc(control: ProcControl, lock: SpinMutex, name: string)

  /** Cpus::myproc: reads the slot this hart runs, bracketed by
      push_off/pop_off (which is why it is not free of effects). */
  function MyProc(c: Cpu): (r: (Cpu, Option<nat>))
    ensures r.1 == c.proc
    ensures PopOff(PushOff(c)) == Ok(r.0)
  {
    (PushPop(c), c.proc)
  }

  // ---------------------------------------------------------------- alloc_pid

  /** NEXT_PID starts here. */
  const FIRST_PID: nat := 1

  /** alloc_pid on the counter value `next`: hands out `next` and advances
      the counter by one, modulo 2^64 (an atomic fetch_add wraps). */
  function AllocPid(next: nat): (r: (nat, nat))
    requires next < U64
    ensures r.0 == next && r.1 < U64
    ensures next + 1 < U64 ==> r.1 == next + 1
    ensures next + 1 == U64 ==> r.1 == 0
  {
    (next, (next + 1) % U64)
  }

  /** The pids handed out by `k` successive alloc_pid calls. */
  function AllocPids(next: nat, k: nat): (pids: seq<nat>)
    requires next < U64
    ensures |pids| == k
    decreases k
  {
    if k == 0 then []
    else
      var (pid, next') := AllocPid(next);
      [pid] + AllocPids(next', k - 1)
  }

  /** Until the counter wraps, the i-th call returns `next + i`. */
  lemma {:induction false} AllocPidsCount(next: nat, k: nat)
    requires next < U64 && next + k <= U64
    ensures forall i :: 0 <= i < k ==> AllocPids(next, k)[i] == next + i
    decreases k
  {
    if k > 0 {
      var next' := AllocPid(next).1;
      if k > 1 {
        AllocPidsCount(next', k - 1);
      }
    }
  }

  /** From boot, alloc_pid returns 1 first and then strictly increasing, hence
      pairwise distinct, values for as many calls as fit before wrap-around. */
  lemma AllocPidsFromBoot(k: nat)
    requires k < U64
    ensures k > 0 ==> AllocPids(FIRST_PID, k)[0] == 1
    ensures forall i, j :: 0 <= i < j < k ==> AllocPids(FIRST_PID, k)[i] < AllocPids(FIRST_PID, k)[j]
  {
    AllocPidsCount(FIRST_PID, k);
  }

  // ------------------------------------------------------------------- wakeup

  /** What wakeup does to a slot it has locked. */
  function WakeOne(ctl: ProcControl, chan: nat): (r: ProcControl)
    ensures r.chan == ctl.chan && r.killed == ctl.killed && r.xstate == ctl.xstate && r.pid == ctl.pid
    ensures r.state != ctl.state <==> ctl.state == Sleeping && ctl.chan == Some(chan)
    ensures r.state != ctl.state ==> r.state == Runnable
  {
    if ctl.state == Sleeping && ctl.chan == Some(chan) then ctl.(state := Runnable) else ctl
  }

  /** Whether the wakeup scan locks and inspects slot `i` on a hart running
      `proc`. As written (`corrected` false) the scan skips a slot only when
      `ptr::eq` finds it to be the hart's process. That process is an `Arc`,
      a heap object, and the table is a static array, so the test never
      holds: a hart with a process inspects every slot, and an idle hart
      none. The corrected scan, where the hart's process is table slot `me`
      as in xv6, inspects every slot but that one, on an idle hart too. */
  predicate Scans(proc: Option<nat>, i: nat, corrected: bool) {
    if corrected then proc != Some(i) else proc.Some?
  }

  /** No slot the scan will lock is held by another hart (otherwise the scan
      spins there). */
  predicate ScanNotBlocked(c: Cpu, t: seq<Proc>, i: nat, corrected: bool) {
    forall j :: i <= j < |t| && Scans(c.proc, j, corrected) ==> !HeldElsewhere(t[j].lock, c.id)
  }

  /** The wakeup loop from slot `i` on. Each iteration calls myproc(), then,
      for a slot it scans, locks it, applies WakeOne and drops the guard. */
  function WakeupFrom(c: Cpu, t: seq<Proc>, chan: nat, i: nat, corrected: bool): (r: Result<(Cpu, seq<Proc>)>)
    requires i <= |t|
    requires ScanNotBlocked(c, t, i, corrected)
    ensures r.Panic? <==> exists j :: i <= j < |t| && Scans(c.proc, j, corrected) && Holding(t[j].lock, c)
    ensures r.Panic? ==> r.fault == AlreadyLocked
    ensures r.Ok? ==> r.value.0 == (if i < |t| then PushPop(c) else c)
    ensures r.Ok? ==> |r.value.1| == |t|
    ensures r.Ok? ==> forall j :: 0 <= j < |t| ==>
              r.value.1[j] == (if i <= j && Scans(c.proc, j, corrected)
                               then t[j].(control := WakeOne(t[j].control, chan)) else t[j])
    decreases |t| - i
  {
    if i == |t| then Ok((c, t))
    else
      var (c1, proc) := MyProc(c);
      if !Scans(proc, i, corrected) then WakeupFrom(c1, t, chan, i + 1, corrected)
      else match Lock(t[i].lock, c1)
        case Panic(f) => Panic(f)
        case Ok((m1, c2)) =>
          var ctl := WakeOne(t[i].control, chan);
          match Unlock(m1, c2)
          case Panic(f) => Panic(f)
          case Ok((m2, c3)) =>
            PushPopIdempotent(c);
            WakeupFrom(c3, t[i := t[i].(control := ctl, lock := m2)], chan, i + 1, corrected)
  }

  /** A slot the as-written wakeup makes Runnable. */
  predicate WokenAsWritten(c: Cpu, t: seq<Proc>, j: nat, chan: nat)
    requires j < |t|
  {
    c.proc.Some? && t[j].control.state == Sleeping && t[j].control.chan == Some(chan)
  }

  /** wakeup(chan) as written. On a hart with a process, exactly the slots
      that sleep on `chan` become Runnable (no slot is the hart's own
      process, see Scans); nothing else in any slot changes; with no current
      process nothing changes at all; and the scan is fatal if this hart holds
      the lock of any slot. */
  function Wakeup(c: Cpu, t: seq<Proc>, chan: nat): (r: Result<(Cpu, seq<Proc>)>)
    requires ScanNotBlocked(c, t, 0, false)
    ensures r.Panic? <==> c.proc.Some? && exists j :: 0 <= j < |t| && Holding(t[j].lock, c)
    ensures r.Ok? ==> |r.value.1| == |t|
    ensures r.Ok? ==> forall j :: 0 <= j < |t| ==>
              && r.value.1[j].lock == t[j].lock && r.value.1[j].name == t[j].name
              && r.value.1[j].control.(state := t[j].control.state) == t[j].control
              && (r.value.1[j].control.state != t[j].control.state <==> WokenAsWritten(c, t, j, chan))
              && (WokenAsWritten(c, t, j, chan) ==> r.value.1[j].control.state == Runnable)
    ensures c.proc.None? ==> r.Ok? && r.value.1 == t
    ensures r.Ok? ==> r.value.0.noff == c.noff && r.value.0.id == c.id && r.value.0.proc == c.proc
    ensures r.Ok? && Consistent(c) ==> Consistent(r.value.0)
  {
    WakeupFrom(c, t, chan, 0, false)
  }

  /** The corrected wakeup: a hart with no current process still wakes every
      matching sleeper. Exactly the slots other than the caller's own (every
      slot, on an idle hart) that sleep on `chan` become Runnable; nothing else
      in any slot changes; and the scan is fatal exactly when this hart holds
      the lock of a slot it scans. */
  function WakeupCorrected(c: Cpu, t: seq<Proc>, chan: nat): (r: Result<(Cpu, seq<Proc>)>)
    requires ScanNotBlocked(c, t, 0, true)
    ensures r.Panic? <==> exists j :: 0 <= j < |t| && Some(j) != c.proc && Holding(t[j].lock, c)
    ensures r.Panic? ==> r.fault == AlreadyLocked
    ensures r.Ok? ==> |r.value.1| == |t|
    ensures r.Ok? ==> forall j :: 0 <= j < |t| ==>
              && r.value.1[j].lock == t[j].lock && r.value.1[j].name == t[j].name
              && r.value.1[j].control.(state := t[j].control.state) == t[j].control
              && (r.value.1[j].control.state != t[j].control.state <==>
                    Some(j) != c.proc && t[j].control.state == Sleeping && t[j].control.chan == Some(chan))
              && (r.value.1[j].control.state != t[j].control.state ==> r.value.1[j].control.state == Runnable)
    ensures c.proc.None? && (forall j :: 0 <= j < |t| ==> t[j].lock.owner == None) ==> r.Ok?
    ensures r.Ok? ==> r.value.0.noff == c.noff && r.value.0.id == c.id && r.value.0.proc == c.proc
  {
    WakeupFrom(c, t, chan, 0, true)
  }

  /** Finding: wakeup called directly on a hart that runs no process leaves
      a sleeper on the channel Sleeping, while the corrected scan makes it
      Runnable. */
  lemma WakeupLostOnIdleHart()
    ensures var c := Cpu(0, None, 1, false, false);
            var t := [Proc(ProcControl(Sleeping, Some(5), false, 0, 7), NewLock("proc"), "sh")];
            && Wakeup(c, t, 5) == Ok((PushPop(c), t))
            && WakeupCorrected(c, t, 5).Ok?
            && WakeupCorrected(c, t, 5).value.1[0].control.state == Runnable
  {
    var c := Cpu(0, None, 1, false, false);
    var t := [Proc(ProcControl(Sleeping, Some(5), false, 0, 7), NewLock("proc"), "sh")];
    assert WakeupCorrected(c, t, 5).value.1[0].control.state != t[0].control.state;
  }

  // -------------------------------------------------------------------- sched

  /** The moment of sched: no process (sched returns at once), or the hart
      record as it stands when the context switch happens. */
  datatype SchedPoint = NoProcess(cpu: Cpu) | Switch(at: Cpu)

  /** The checks sched makes once myproc() has named slot `me`; `ctl` is the
      control block the caller's guard protects. */
  function SchedChecks(c: Cpu, t: seq<Proc>, me: nat, ctl: ProcControl): (r: Result<Cpu>)
    requires me < |t|
  {
    if !Holding(t[me].lock, c) then Panic(SchedNotHolding)
    else if c.noff != 1 then Panic(SchedNoff)
    else if ctl.state == Running then Panic(SchedRunning)
    else if c.sie then Panic(SchedInterruptsEnabled)
    else Ok(c)
  }

  /** sched up to the context switch. It panics unless the hart holds the
      running slot's lock, the depth is exactly 1 and the state is not
      Running. The interrupts-enabled check can never fire: the myproc() call
      before it clears SIE whenever the depth is 1. */
  function Sched(c: Cpu, t: seq<Proc>, ctl: ProcControl): (r: Result<SchedPoint>)
    requires c.proc.Some? ==> c.proc.value < |t|
    ensures c.proc.None? ==> r == Ok(NoProcess(PushPop(c)))
    ensures c.proc.Some? ==>
              (r.Panic? <==> !Holding(t[c.proc.value].lock, c) || c.noff != 1 || ctl.state == Running)
    ensures r != Panic(SchedInterruptsEnabled)
    ensures c.proc.Some? && r.Ok? ==> r.value == Switch(c.(sie := false))
  {
    var (c1, proc) := MyProc(c);
    match proc
    case None => Ok(NoProcess(c1))
    case Some(me) =>
      match SchedChecks(c1, t, me, ctl)
      case Panic(f) => Panic(f)
      case Ok(at) => Ok(Switch(at))
  }

  /** sched after the switch: the hart record is whatever the scheduler hands
      back (`resumed`, possibly another hart's), with the interrupt-enable
      flag saved before the switch written back. */
  function SchedResume(at: Cpu, resumed: Cpu): (r: Cpu)
    ensures r.intena == at.intena
    ensures r.(intena := resumed.intena) == resumed
  {
    resumed.(intena := at.intena)
  }

  /** sched leaves `intena` as it was before the switch, whatever the switch
      did to the hart record. */
  lemma SchedKeepsIntena(c: Cpu, t: seq<Proc>, ctl: ProcControl, resumed: Cpu)
    requires c.proc.Some? && c.proc.value < |t|
    requires Sched(c, t, ctl).Ok?
    ensures SchedResume(Sched(c, t, ctl).value.at, resumed).intena == c.intena
  {
  }

  // -------------------------------------------------------------------- sleep

  /** A process suspended inside sleep: the hart record at the switch, the
      table and guard lock as sleep left them, and the sleeper's slot. */
  datatype Suspended = Suspended(cpu: Cpu, table: seq<Proc>, guard: SpinMutex, slot: nat)

  datatype SleepStep = Idle(cpu: Cpu) | Asleep(s: Suspended)

  /** The common tail of sleep before the switch: mark the slot Sleeping on
      `chan` under its lock, then sched (whose own myproc() finds the same
      slot). */
  function GoToSleep(c: Cpu, t: seq<Proc>, me: nat, lk: SpinMutex, guard: SpinMutex, chan: nat): (r: Result<SleepStep>)
    requires me < |t|
  {
    var ctl := t[me].control.(chan := Some(chan), state := Sleeping);
    var t' := t[me := t[me].(control := ctl, lock := lk)];
    var (c1, _) := MyProc(c);
    match SchedChecks(c1, t', me, ctl)
    case Panic(f) => Panic(f)
    case Ok(at) => Ok(Asleep(Suspended(at, t', guard, me)))
  }

  /** The caller's slot exists and is not locked by another hart. */
  predicate SleepNotBlocked(c: Cpu, t: seq<Proc>) {
    c.proc.Some? ==> c.proc.value < |t| && !HeldElsewhere(t[c.proc.value].lock, c.id)
  }

  /** sleep(chan, guard) as written, up to the switch. Sleep and sched act
      on the hart's own process, whose record the model keeps at `t[me]`; in
      this source that record is the `Arc` the hart holds, not one of the
      table slots wakeup scans. The steps: lock the own slot,
      force-unlock the guard's lock `m` (no pop_off), mark the slot Sleeping on
      `chan`, and sched. Because force_unlock leaves the guard's push_off
      outstanding, sched's depth check passes only for a hart that entered
      with depth 0. */
  function SleepBegin(c: Cpu, t: seq<Proc>, m: SpinMutex, chan: nat): (r: Result<SleepStep>)
    requires SleepNotBlocked(c, t)
    ensures c.proc.None? ==> r == Ok(Idle(PushPop(c)))
    ensures c.proc.Some? ==> (r.Panic? <==> Holding(t[c.proc.value].lock, c) || c.noff != 0)
    ensures c.proc.Some? && Holding(t[c.proc.value].lock, c) ==> r == Panic(AlreadyLocked)
    ensures c.proc.Some? && !Holding(t[c.proc.value].lock, c) && c.noff != 0 ==> r == Panic(SchedNoff)
    ensures c.proc.Some? && r.Ok? ==> r.value.Asleep? && SleepingAt(c, t, chan, r.value.s)
    ensures r.Ok? && r.value.Asleep? ==> r.value.s.guard == ForceUnlock(m)
  {
    var (c1, proc) := MyProc(c);
    match proc
    case None => Ok(Idle(c1))
    case Some(me) =>
      match Lock(t[me].lock, c1)
      case Panic(f) => Panic(f)
      case Ok((lk, c2)) => GoToSleep(c2, t, me, lk, ForceUnlock(m), chan)
  }

  /** The state at the switch of a successful sleep on `chan` by hart `c`:
      only the sleeper's slot changed, to Sleeping on `chan`, its lock is held
      by the hart, the depth is 1 with interrupts off, and the saved flag is
      the SIE value the hart had on entry. */
  ghost predicate SleepingAt(c: Cpu, t: seq<Proc>, chan: nat, s: Suspended) {
    && c.proc == Some(s.slot) && s.slot < |t| && |s.table| == |t|
    && s.table[s.slot].control == t[s.slot].control.(chan := Some(chan), state := Sleeping)
    && s.table[s.slot].name == t[s.slot].name
    && Holding(s.table[s.slot].lock, s.cpu)
    && (forall j :: 0 <= j < |t| && j != s.slot ==> s.table[j] == t[j])
    && s.cpu.id == c.id && s.cpu.noff == 1 && !s.cpu.sie && s.cpu.intena == c.sie
  }

  /** sleep after the switch: restore intena (sched), clear the channel, drop
      the slot guard, and lock the guard's lock again; that new guard is
      forgotten, so its push_off is never undone. `resumed`, `t` and `m` are
      the hart record, table and guard lock as the process finds them. */
  function SleepResume(s: Suspended, resumed: Cpu, t: seq<Proc>, m: SpinMutex): (r: Result<(Cpu, seq<Proc>, SpinMutex)>)
    requires s.slot < |t| && !HeldElsewhere(m, resumed.id)
    ensures r.Panic? <==> !Holding(t[s.slot].lock, resumed) || resumed.sie || resumed.noff == 0 || Holding(m, resumed)
    ensures r.Ok? ==> var (c', t', m') := r.value;
              && c'.noff == resumed.noff && !c'.sie && c'.id == resumed.id
              && Holding(m', c') && m'.name == m.name
              && |t'| == |t| && t'[s.slot].control == t[s.slot].control.(chan := None)
              && t'[s.slot].lock.owner == None
              && (forall j :: 0 <= j < |t| && j != s.slot ==> t'[j] == t[j])
  {
    var c1 := SchedResume(s.cpu, resumed);
    var ctl := t[s.slot].control.(chan := None);
    match Unlock(t[s.slot].lock, c1)
    case Panic(f) => Panic(f)
    case Ok((lk, c2)) =>
      var t' := t[s.slot := t[s.slot].(control := ctl, lock := lk)];
      match Lock(m, c2)
      case Panic(f) => Panic(f)
      case Ok((m', c3)) => Ok((c3, t', m'))
  }

  /** Finding: a caller that acquired its guard the normal way cannot sleep —
      the guard's push_off is still counted, so sched sees depth 2. */
  lemma SleepWithGuardPanics(c: Cpu, t: seq<Proc>, m: SpinMutex, chan: nat)
    requires c.proc.Some? && c.proc.value < |t| && t[c.proc.value].lock.owner == None
    requires m.owner == None
    ensures Lock(m, c).Ok?
    ensures var (m1, c1) := Lock(m, c).value; SleepBegin(c1, t, m1, chan) == Panic(SchedNoff)
  {
  }

  /** Finding: when sched's check does pass (entry depth 0), the round trip
      through sleep returns with the depth one higher than on entry and the
      guard lock held by this hart again. */
  lemma SleepDriftsNoff(c: Cpu, t: seq<Proc>, m: SpinMutex, chan: nat, resumed: Cpu, t2: seq<Proc>, m2: SpinMutex)
    requires SleepNotBlocked(c, t) && c.proc.Some?
    requires SleepBegin(c, t, m, chan).Ok?
    requires var s := SleepBegin(c, t, m, chan).value.s;
             s.slot < |t2| && !HeldElsewhere(m2, resumed.id) && resumed.noff == s.cpu.noff
    requires SleepResume(SleepBegin(c, t, m, chan).value.s, resumed, t2, m2).Ok?
    ensures var (c', _, m') := SleepResume(SleepBegin(c, t, m, chan).value.s, resumed, t2, m2).value;
            c'.noff == c.noff + 1 && Holding(m', c')
  {
  }

  /** sleep(chan, guard) as intended (and as xv6 does it): the guard's lock is
      released through the normal guard drop, so its push_off is undone. */
  function SleepBeginCorrected(c: Cpu, t: seq<Proc>, m: SpinMutex, chan: nat): (r: Result<SleepStep>)
    requires SleepNotBlocked(c, t)
    ensures c.proc.None? ==> r == Ok(Idle(PushPop(c)))
    ensures c.proc.Some? && !Holding(t[c.proc.value].lock, c) && !Holding(m, c) ==> r == Panic(NotHeld)
    ensures r.Ok? && r.value.Asleep? ==> r.value.s.guard == ForceUnlock(m)
  {
    var (c1, proc) := MyProc(c);
    match proc
    case None => Ok(Idle(c1))
    case Some(me) =>
      match Lock(t[me].lock, c1)
      case Panic(f) => Panic(f)
      case Ok((lk, c2)) =>
        match Unlock(m, c2)
        case Panic(f) => Panic(f)
        case Ok((m', c3)) => GoToSleep(c3, t, me, lk, m', chan)
  }

  /** The corrected sleep keeps the nesting balanced: a hart holding exactly
      the guard (depth 1, interrupts off) reaches the switch, and if it is
      resumed at the depth it switched at, it returns holding the guard at
      its entry depth. */
  lemma SleepCorrectedBalanced(c: Cpu, t: seq<Proc>, m: SpinMutex, chan: nat, resumed: Cpu)
    requires c.proc.Some? && c.proc.value < |t| && t[c.proc.value].lock.owner == None
    requires Holding(m, c) && c.noff == 1 && !c.sie
    ensures SleepBeginCorrected(c, t, m, chan).Ok?
    ensures SleepBeginCorrected(c, t, m, chan).value.Asleep?
    ensures var s := SleepBeginCorrected(c, t, m, chan).value.s;
            && SleepingAt(c.(sie := c.intena), t, chan, s)
            && (resumed.id == c.id && resumed.noff == s.cpu.noff && !resumed.sie ==>
                  && SleepResume(s, resumed, s.table, s.guard).Ok?
                  && SleepResume(s, resumed, s.table, s.guard).value.0.noff == c.noff
                  && Holding(SleepResume(s, resumed, s.table, s.guard).value.2, c))
  {
  }

  // ---------------------------------------------------------------- proc_dump

  /** No slot lock is held by a hart other than `id`. */
  predicate SlotsNotHeldElsewhere(t: seq<Proc>, id: nat) {
    forall j :: 0 <= j < |t| ==> !HeldElsewhere(t[j].lock, id)
  }

  /** One line of the process listing. */
  datatype DumpLine = DumpLine(pid: nat, state: ProcState, name: string)

  function LineOf(p: Proc): DumpLine {
    DumpLine(p.control.pid, p.control.state, p.name)
  }

  /** The listing the diagnostic should print: one line per non-Unused slot,
      in table order (defined from the end of the table). */
  function Listing(t: seq<Proc>): seq<DumpLine>
    decreases |t|
  {
    if |t| == 0 then []
    else
      var last := t[|t| - 1];
      Listing(t[..|t| - 1]) + (if last.control.state == Unused then [] else [LineOf(last)])
  }

  /** Every listed line belongs to a non-Unused slot, and every non-Unused
      slot is listed. */
  lemma {:induction false} ListingExact(t: seq<Proc>)
    ensures forall l :: l in Listing(t) ==> exists j :: 0 <= j < |t| && t[j].control.state != Unused && l == LineOf(t[j])
    ensures forall j :: 0 <= j < |t| && t[j].control.state != Unused ==> LineOf(t[j]) in Listing(t)
    decreases |t|
  {
    if |t| > 0 {
      var init := t[..|t| - 1];
      ListingExact(init);
      forall j | 0 <= j < |t| - 1
        ensures t[j] == init[j]
      {
      }
    }
  }

  /** Extending the table by one slot extends the listing by that slot's line
      (if any). */
  lemma ListingSnoc(t: seq<Proc>, i: nat)
    requires i < |t|
    ensures Listing(t[..i + 1]) == Listing(t[..i]) + (if t[i].control.state == Unused then [] else [LineOf(t[i])])
  {
    assert t[..i + 1][..i] == t[..i];
  }

  /** proc_dump as written, from slot `i` on: each slot is locked to read its
      pid and state (which the doc comment says it does not do), the guard is
      dropped, and non-Unused slots are printed. */
  function ProcDumpFrom(c: Cpu, t: seq<Proc>, i: nat, acc: seq<DumpLine>): (r: Result<(Cpu, seq<Proc>, seq<DumpLine>)>)
    requires i <= |t| && acc == Listing(t[..i])
    requires forall j :: i <= j < |t| ==> !HeldElsewhere(t[j].lock, c.id)
    ensures r.Panic? <==> exists j :: i <= j < |t| && Holding(t[j].lock, c)
    ensures r.Panic? ==> r.fault == AlreadyLocked
    ensures r.Ok? ==> r.value.0 == (if i < |t| then PushPop(c) else c)
    ensures r.Ok? ==> r.value.1 == t && r.value.2 == Listing(t)
    decreases |t| - i
  {
    if i == |t| then
      assert t[..i] == t;
      Ok((c, t, acc))
    else match Lock(t[i].lock, c)
      case Panic(f) => Panic(f)
      case Ok((m1, c1)) =>
        var (pid, state) := (t[i].control.pid, t[i].control.state);
        match Unlock(m1, c1)
        case Panic(f) => Panic(f)
        case Ok((m2, c2)) =>
          var t' := t[i := t[i].(lock := m2)];
          assert t' == t;
          assert c2.id == c.id;
          forall j | i + 1 <= j < |t|
            ensures !HeldElsewhere(t'[j].lock, c2.id)
          {
            assert !HeldElsewhere(t[j].lock, c.id);
          }
          var line := if state == Unused then [] else [DumpLine(pid, state, t[i].name)];
          ListingSnoc(t, i);
          PushPopIdempotent(c);
          ProcDumpFrom(c2, t', i + 1, acc + line)
  }

  /** proc_dump as written: prints exactly the non-Unused slots in table order
      and leaves every slot as it found it, but spins while another hart holds
      a slot lock and panics if this hart holds one. */
  function ProcDump(c: Cpu, t: seq<Proc>): (r: Result<(Cpu, seq<Proc>, seq<DumpLine>)>)
    requires SlotsNotHeldElsewhere(t, c.id)
    ensures r.Panic? <==> exists j :: 0 <= j < |t| && Holding(t[j].lock, c)
    ensures r.Ok? ==> r.value.1 == t && r.value.2 == Listing(t)
    ensures r.Ok? ==> r.value.0.noff == c.noff && r.value.0.id == c.id && r.value.0.proc == c.proc
    ensures r.Ok? && Consistent(c) ==> Consistent(r.value.0)
  {
    assert t[..0] == [];
    ProcDumpFrom(c, t, 0, [])
  }

  /** proc_dump as its doc comment describes it: a lock-free scan, which
      neither blocks nor panics nor touches the hart. */
  function ProcDumpLockFree(t: seq<Proc>, i: nat, acc: seq<DumpLine>): (r: seq<DumpLine>)
    requires i <= |t| && acc == Listing(t[..i])
    ensures r == Listing(t)
    decreases |t| - i
  {
    if i == |t| then
      assert t[..i] == t;
      acc
    else
      ListingSnoc(t, i);
      ProcDumpLockFree(t, i + 1, acc + if t[i].control.state == Unused then [] else [LineOf(t[i])])
  }

  /** Finding: proc_dump called directly on a hart that holds some slot's
      lock panics as written, where the lock-free dump prints the listing. */
  lemma ProcDumpPanicsWhileHoldingSlot(c: Cpu, t: seq<Proc>, j: nat)
    requires j < |t| && Holding(t[j].lock, c)
    requires SlotsNotHeldElsewhere(t, c.id)
    ensures ProcDump(c, t) == Panic(AlreadyLocked)
    ensures (assert t[..0] == []; ProcDumpLockFree(t, 0, [])) == Listing(t)
  {
  }

  // ------------------------------------------------------- worked example

  /** A sleeps on channel 5, B is Runnable, C is Unused, and D runs on hart 0
      at depth 1 (as inside a held lock). */
  const EXAMPLE_A: Proc := Proc(ProcControl(Sleeping, Some(5), false, 0, 1), NewLock("proc"), "a")
  const EXAMPLE_B: Proc := Proc(ProcControl(Runnable, None, false, 0, 2), NewLock("proc"), "b")
  const EXAMPLE_C: Proc := Proc(ProcControl(Unused, None, false, 0, 0), NewLock("proc"), "c")
  const EXAMPLE_D: Proc := Proc(ProcControl(Running, None, false, 0, 4), NewLock("proc"), "d")
  const EXAMPLE_HART: Cpu := Cpu(0, Some(3), 1, false, false)

  /** wakeup(5) in the example changes only A, to Runnable, and leaves the
      hart as it was. */
  lemma WakeupExample()
    ensures Wakeup(EXAMPLE_HART, [EXAMPLE_A, EXAMPLE_B, EXAMPLE_C, EXAMPLE_D], 5)
         == Ok((EXAMPLE_HART, [EXAMPLE_A.(control := EXAMPLE_A.control.(state := Runnable)), EXAMPLE_B, EXAMPLE_C, EXAMPLE_D]))
  {
    var t := [EXAMPLE_A, EXAMPLE_B, EXAMPLE_C, EXAMPLE_D];
    var w := Wakeup(EXAMPLE_HART, t, 5);
    assert w.Ok?;
    assert PushPop(EXAMPLE_HART) == EXAMPLE_HART;
    assert w.value.1 == [EXAMPLE_A.(control := EXAMPLE_A.control.(state := Runnable)), EXAMPLE_B, EXAMPLE_C, EXAMPLE_D];
  }

  /** The dump of the example lists A, B and D, but never the Unused C. */
  lemma DumpExample()
    ensures ProcDump(EXAMPLE_HART, [EXAMPLE_A, EXAMPLE_B, EXAMPLE_C, EXAMPLE_D]).Ok?
    ensures ProcDump(EXAMPLE_HART, [EXAMPLE_A, EXAMPLE_B, EXAMPLE_C, EXAMPLE_D]).value.2
         == [LineOf(EXAMPLE_A), LineOf(EXAMPLE_B), LineOf(EXAMPLE_D)]
  {
    var t := [EXAMPLE_A, EXAMPLE_B, EXAMPLE_C, EXAMPLE_D];
    assert t[..3][..2][..1][..0] == [];
    assert Listing(t[..3][..2][..1]) == [LineOf(EXAMPLE_A)];
    assert t[..3] == [EXAMPLE_A, EXAMPLE_B, EXAMPLE_C];
    assert t[..3][..2] == t[..2];
    assert Listing(t[..2]) == [LineOf(EXAMPLE_A), LineOf(EXAMPLE_B)];
    assert Listing(t[..3]) == [LineOf(EXAMPLE_A), LineOf(EXAMPLE_B)];
    assert Listing(t) == [LineOf(EXAMPLE_A), LineOf(EXAMPLE_B), LineOf(EXAMPLE_D)];
  }
}

=== FILE: riscv.dfy ===
/** RISC-V definitions the kernel uses. The status and interrupt-pending
    bits are those of riscv.rs. The page-geometry helpers (PGSIZE, MAXVA,
    pg_round_down, pg_index, pa2pte, pte2pa) that vm.rs imports from
    riscv.rs are not modelled from their Rust definitions: their values are
    assumed here, following the Sv39 layout of section 4.4 of the RISC-V Privileged Architecture
    (v1.12) and the five-field split of a virtual address documented at the
    head of walk (vm.rs), with xv6's convention of one bit below the Sv39
    maximum for MAXVA. Addresses are `u64` values; the shifts and masks of
    those helpers are written as division and remainder by powers of two. */
module RiscV {
  import opened Common
  import opened Arith

  /** SSTATUS.SPP: the previous privilege mode was Supervisor. */
  const SSTATUS_SPP: bv64 := 1 << 8
  /** SSTATUS.SIE: supervisor interrupts enabled. */
  const SSTATUS_SIE: bv64 := 1 << 1
  /** SIP.SSIP: supervisor software interrupt pending. */
  const SIP_SSIP: bv64 := 1 << 1

  /** intr_get on a value read from sstatus. */
  predicate IntrGet(sstatus: bv64) {
    sstatus & SSTATUS_SIE != 0
  }

  /** Assumed: bytes per page (1 << 12). */
  const PGSIZE: nat := 4096

  /** Assumed: one above the highest virtual address (1 << 38, one bit less
      than Sv39 allows, to avoid sign-extension). */
  const MAXVA: nat := 0x40_0000_0000

  /** Assumed: the start of the page holding `a` (a & !(PGSIZE - 1)): the
      largest multiple of PGSIZE not above `a`. */
  function PgRoundDown(a: u64): (r: u64)
    ensures r % PGSIZE == 0 && r <= a < r + PGSIZE
  {
    a - a % PGSIZE
  }

  /** 1 << (12 + 9 * level): the span of one entry of a level-`level` table. */
  function LevelSpan(level: nat): (s: nat)
    requires level < 3
    ensures s >= PGSIZE
  {
    if level == 0 then 0x1000 else if level == 1 then 0x20_0000 else 0x4000_0000
  }

  /** Assumed: the 9-bit page-table index of `va` at `level` (bits
      12 + 9*level .. 20 + 9*level). */
  function PgIndex(level: nat, va: u64): (r: nat)
    requires level < 3
    ensures r < 512
  {
    (va / LevelSpan(level)) % 512
  }

  /** Address 0 has index 0 at every level. */
  lemma PgIndexOfZero()
    ensures PgIndex(0, 0) == 0 && PgIndex(1, 0) == 0 && PgIndex(2, 0) == 0
  {
    DivModUnique(0, LevelSpan(0), 0, 0);
    DivModUnique(0, LevelSpan(1), 0, 0);
    DivModUnique(0, LevelSpan(2), 0, 0);
    DivModUnique(0, 512, 0, 0);
  }

  /** Assumed: the physical page number of `pa`, placed at bit 10 of a PTE
      ((pa >> 12) << 10). */
  function Pa2Pte(pa: u64): (e: u64)
    ensures e % 1024 == 0
  {
    DivModUnique((pa / PGSIZE) * 1024, 1024, pa / PGSIZE, 0);
    (pa / PGSIZE) * 1024
  }

  /** Assumed: the physical address a PTE points at ((pte >> 10) << 12); the
      shift left drops the entry's top two bits, as a `u64` shift does. */
  function Pte2Pa(pte: u64): (pa: u64)
    ensures pa % PGSIZE == 0
  {
    var wide := (pte / 1024) * PGSIZE;
    WrapKeepsAlignment(pte / 1024);
    wide % U64
  }

  /** Wrapping a multiple of PGSIZE modulo 2^64 keeps it a multiple. */
  lemma WrapKeepsAlignment(k: nat)
    ensures (k * PGSIZE) % U64 % PGSIZE == 0
  {
    var q := (k * PGSIZE) / U64;
    var r := (k * PGSIZE) % U64;
    assert k * PGSIZE == q * U64 + r;
    assert q * U64 == (q * 0x10_0000_0000_0000) * PGSIZE;
    assert r == (k - q * 0x10_0000_0000_0000) * PGSIZE;
    DivModUnique(r, PGSIZE, k - q * 0x10_0000_0000_0000, 0);
  }

  /** A physical address survives the trip into a PTE (with any bits below
      bit 10 added) and back, up to its page offset. */
  lemma PteAddressRoundTrip(pa: u64, low: nat)
    requires low < 1024
    ensures Pa2Pte(pa) + low < U64
    ensures Pte2Pa(Pa2Pte(pa) + low) == PgRoundDown(pa)
  {
    var p := pa / PGSIZE;
    DivModUnique(pa, PGSIZE, p, pa % PGSIZE);
    DivModUnique(p * 1024 + low, 1024, p, low);
    DivModUnique(p * PGSIZE, U64, 0, p * PGSIZE);
  }

  /** Rounding down is idempotent, keeps page-aligned addresses, and
      preserves order. */
  lemma PgRoundDownAligned(a: u64, b: u64)
    ensures PgRoundDown(PgRoundDown(a)) == PgRoundDown(a)
    ensures a % PGSIZE == 0 <==> PgRoundDown(a) == a
    ensures a <= b ==> PgRoundDown(a) <= PgRoundDown(b)
  {
    if a <= b && PgRoundDown(a) > PgRoundDown(b) {
      MulGap(PgRoundDown(b) / PGSIZE, PgRoundDown(a) / PGSIZE, PGSIZE);
    }
  }

  /** Below MAXVA the three indices and the page offset determine the
      address: two such addresses with equal indices and equal offsets are
      equal. */
  lemma PgIndexDetermines(va: u64, vb: u64)
    requires va < MAXVA && vb < MAXVA
    requires PgIndex(0, va) == PgIndex(0, vb) && PgIndex(1, va) == PgIndex(1, vb) && PgIndex(2, va) == PgIndex(2, vb)
    requires va % PGSIZE == vb % PGSIZE
    ensures va == vb
  {
    Fields(va);
    Fields(vb);
  }

  /** An address below MAXVA is its offset plus its three indices, each
      scaled by the span of its level. */
  lemma Fields(va: u64)
    requires va < MAXVA
    ensures va == va % PGSIZE + PgIndex(0, va) * LevelSpan(0) + PgIndex(1, va) * LevelSpan(1) + PgIndex(2, va) * LevelSpan(2)
  {
    var p0 := va / 0x1000;
    var p1 := va / 0x20_0000;
    var p2 := va / 0x4000_0000;
    assert p1 == p0 / 512 by { DivModUnique(va, 0x20_0000, p0 / 512, (p0 % 512) * 0x1000 + va % 0x1000); }
    assert p2 == p1 / 512 by { DivModUnique(va, 0x4000_0000, p1 / 512, (p1 % 512) * 0x20_0000 + va % 0x20_0000); }
    assert p2 < 512;
  }
}

=== FILE: spinlock.dfy ===
/** Per-hart interrupt nesting (push_off/pop_off) and the spin lock whose
    ownership is bound to a hart (spinlock.rs), over the per-hart record
    declared in proc.rs. One hart takes one step at a time; a lock held by
    another hart is a precondition ("the step is blocked"), not a loop. */
module SpinLock {
  import opened Common

  /** The per-hart record: `id` is the hart number read from `tp`, `proc` the
      process-table slot running here, `noff` the push_off depth, `intena`
      the interrupt-enable flag saved by the outermost push_off, and `sie`
      the hart's SSTATUS.SIE bit (what intr_get reads). */
  datatype Cpu = Cpu(id: nat, proc: Option<nat>, noff: nat, intena: bool, sie: bool)

  /** The discipline push_off/pop_off maintain: while any push_off is
      outstanding, interrupts are off. */
  predicate Consistent(c: Cpu) {
    c.noff > 0 ==> !c.sie
  }

  /** The flag the outermost push_off remembers. */
  function SavedIntena(c: Cpu): bool {
    if c.noff == 0 then c.sie else c.intena
  }

  /** push_off: interrupts off, depth one deeper, and the prior SIE value
      remembered only when this is the outermost level. */
  function PushOff(c: Cpu): (r: Cpu)
    ensures !r.sie
    ensures r.noff == c.noff + 1
    ensures c.noff == 0 ==> r.intena == c.sie
    ensures c.noff > 0 ==> r.intena == c.intena
    ensures r.id == c.id && r.proc == c.proc
    ensures Consistent(r)
  {
    c.(sie := false, intena := SavedIntena(c), noff := c.noff + 1)
  }

  /** pop_off: fatal when interrupts are on or nothing is outstanding;
      otherwise one level shallower, and interrupts come back on only when
      the depth reaches zero and the outermost push_off found them on. */
  function PopOff(c: Cpu): (r: Result<Cpu>)
    ensures r.Panic? <==> c.sie || c.noff == 0
    ensures c.sie ==> r == Panic(PopOffInterruptsEnabled)
    ensures !c.sie && c.noff == 0 ==> r == Panic(PopOffTooManyTimes)
    ensures r.Ok? ==> r.value.noff == c.noff - 1
    ensures r.Ok? ==> (r.value.sie <==> r.value.noff == 0 && c.intena)
    ensures r.Ok? ==> r.value.intena == c.intena && r.value.id == c.id && r.value.proc == c.proc
  {
    if c.sie then Panic(PopOffInterruptsEnabled)
    else if c.noff < 1 then Panic(PopOffTooManyTimes)
    else
      var d := c.(noff := c.noff - 1);
      if d.noff == 0 && d.intena then Ok(d.(sie := true)) else Ok(d)
  }

  /** The net effect of a push_off immediately undone by a pop_off, which is
      what Cpus::myproc does around its read of `proc`. */
  function PushPop(c: Cpu): (r: Cpu)
    ensures PopOff(PushOff(c)) == Ok(r)
    ensures r.id == c.id && r.proc == c.proc && r.noff == c.noff
  {
    c.(intena := SavedIntena(c), sie := c.noff == 0 && c.sie)
  }

  /** A second bracket changes nothing more than the first. */
  lemma PushPopIdempotent(c: Cpu)
    ensures PushPop(PushPop(c)) == PushPop(c)
  {
  }

  /** `n` successive push_offs. */
  function PushN(c: Cpu, n: nat): Cpu
    decreases n
  {
    if n == 0 then c else PushN(PushOff(c), n - 1)
  }

  /** `n` successive pop_offs, stopping at the first panic. */
  function PopN(c: Cpu, n: nat): Result<Cpu>
    decreases n
  {
    if n == 0 then Ok(c)
    else match PopOff(c)
      case Panic(f) => Panic(f)
      case Ok(d) => PopN(d, n - 1)
  }

  /** After n >= 1 push_offs the depth has grown by n, interrupts are off, and
      the remembered flag is the one the first push_off saw. */
  lemma {:induction false} PushNEffect(c: Cpu, n: nat)
    requires n > 0
    ensures PushN(c, n) == c.(noff := c.noff + n, sie := false, intena := SavedIntena(c))
    decreases n
  {
    if n > 1 {
      PushNEffect(PushOff(c), n - 1);
    }
  }

  /** k pop_offs from a state with interrupts off and at least k levels
      outstanding succeed; interrupts come back only if the last of them
      empties the stack and the saved flag was set. */
  lemma {:induction false} PopNEffect(c: Cpu, k: nat)
    requires !c.sie && 0 < k <= c.noff
    ensures PopN(c, k) == Ok(c.(noff := c.noff - k, sie := k == c.noff && c.intena))
    decreases k
  {
    if k > 1 {
      PopNEffect(c.(noff := c.noff - 1), k - 1);
    }
  }

  /** N push_offs followed by N pop_offs restore the depth and the interrupt
      state of a consistent hart (interrupts that started off stay off); only
      `intena` keeps the value the outermost push_off stored in it. */
  lemma PushPopBalanced(c: Cpu, n: nat)
    requires Consistent(c) && n > 0
    ensures PopN(PushN(c, n), n) == Ok(c.(intena := SavedIntena(c)))
  {
    PushNEffect(c, n);
    PopNEffect(PushN(c, n), n);
  }

  /** Fewer pop_offs than push_offs leave interrupts disabled. */
  lemma PushPopUnderflowKeepsOff(c: Cpu, n: nat, k: nat)
    requires 0 < k < n
    ensures PopN(PushN(c, n), k).Ok? && !PopN(PushN(c, n), k).value.sie
  {
    PushNEffect(c, n);
    PopNEffect(PushN(c, n), k);
  }

  /** From depth zero, one pop_off more than the push_offs is fatal. */
  lemma PushPopExtraPopPanics(c: Cpu, n: nat)
    requires c.noff == 0 && n > 0
    ensures PopN(PushN(c, n), n + 1).Panic?
  {
    PushNEffect(c, n);
    PopNEffect(PushN(c, n), n);
    PopNSplit(PushN(c, n), n, 1);
  }

  /** Running k + j pop_offs is running k and then j more. */
  lemma {:induction false} PopNSplit(c: Cpu, k: nat, j: nat)
    ensures PopN(c, k + j) == (match PopN(c, k) case Panic(f) => Panic(f) case Ok(d) => PopN(d, j))
    decreases k
  {
    if k > 0 {
      match PopOff(c)
      case Panic(f) =>
      case Ok(d) => PopNSplit(d, k - 1, j);
    }
  }

  /** A spin lock: `owner` is the hart whose `Cpu` the atomic pointer names,
      or None when the lock is free. */
  datatype SpinMutex = SpinMutex(name: string, owner: Option<nat>)

  /** SpinMutex::new: a free lock. */
  function NewLock(name: string): (m: SpinMutex)
    ensures m.owner == None && m.name == name
  {
    SpinMutex(name, None)
  }

  /** holding(): the calling hart is the owner. */
  predicate Holding(m: SpinMutex, c: Cpu) {
    m.owner == Some(c.id)
  }

  /** The lock belongs to some other hart, so lock() would spin. */
  predicate HeldElsewhere(m: SpinMutex, id: nat) {
    m.owner.Some? && m.owner.value != id
  }

  /** lock(): push_off, then a fatal error if this hart already owns the
      lock, otherwise ownership passes to this hart. */
  function Lock(m: SpinMutex, c: Cpu): (r: Result<(SpinMutex, Cpu)>)
    requires !HeldElsewhere(m, c.id)
    ensures r.Panic? <==> Holding(m, c)
    ensures r.Panic? ==> r.fault == AlreadyLocked
    ensures r.Ok? ==> Holding(r.value.0, r.value.1) && r.value.0.name == m.name
    ensures r.Ok? ==> r.value.1 == PushOff(c)
  {
    var c' := PushOff(c);
    if Holding(m, c') then Panic(AlreadyLocked)
    else Ok((m.(owner := Some(c.id)), c'))
  }

  /** Dropping a guard: fatal unless this hart owns the lock; otherwise the
      lock becomes free and one pop_off runs. */
  function Unlock(m: SpinMutex, c: Cpu): (r: Result<(SpinMutex, Cpu)>)
    ensures !Holding(m, c) ==> r == Panic(NotHeld)
    ensures Holding(m, c) ==> (r.Panic? <==> PopOff(c).Panic?)
    ensures r.Ok? ==> r.value.0 == m.(owner := None) && PopOff(c) == Ok(r.value.1)
  {
    if !Holding(m, c) then Panic(NotHeld)
    else match PopOff(c)
      case Panic(f) => Panic(f)
      case Ok(c') => Ok((m.(owner := None), c'))
  }

  /** force_unlock: the lock becomes free, whoever held it, and the hart's
      nesting record is not touched. */
  function ForceUnlock(m: SpinMutex): (r: SpinMutex)
    ensures r.owner == None && r.name == m.name
  {
    m.(owner := None)
  }

  /** holding() is true from a successful lock() until its guard is dropped,
      and the pair lock/drop leaves the lock free and the hart's depth and
      interrupt state as they were (for a consistent hart). */
  lemma LockThenUnlock(m: SpinMutex, c: Cpu)
    requires m.owner == None && Consistent(c)
    ensures Lock(m, c).Ok?
    ensures Holding(Lock(m, c).value.0, Lock(m, c).value.1)
    ensures var (m1, c1) := Lock(m, c).value;
            Unlock(m1, c1) == Ok((m, c.(intena := SavedIntena(c))))
    ensures !Holding(Unlock(Lock(m, c).value.0, Lock(m, c).value.1).value.0, c)
  {
  }

  /** A second lock() of the same lock by the same hart is fatal. */
  lemma RelockPanics(m: SpinMutex, c: Cpu)
    requires m.owner == None
    ensures Lock(m, c).Ok?
    ensures var (m1, c1) := Lock(m, c).value; Lock(m1, c1) == Panic(AlreadyLocked)
  {
  }
}

=== FILE: trap.dfy ===
/** Kernel-mode traps (trap.rs): devintr's decoding of scause (section 4.1.8
    of the RISC-V Privileged Architecture, v1.12: bit 63 marks an interrupt,
    the low bits carry the code, 1 for a supervisor software interrupt and 9
    for a supervisor external interrupt), the tick counter, and kerneltrap's
    guards. The CSRs, the hart id and plic_claim's answer are parameters;
    uart_intr and plic_complete are recorded as effects. The PLIC is reduced
    to the set of sources claimed and not yet completed, which its gateways
    will not signal again (section 9 of the RISC-V PLIC specification,
    v1.0.0). */
module Trap {
  import opened Common
  import opened RiscV
  import MemLayout

  /** What devintr reports. */
  datatype TrapKind = ExternalInterrupt | SoftwareInterrupt | Unknown

  /** The device work devintr starts. */
  datatype Effect = UartIntr | PlicComplete(irq: nat)

  /** The sources claimed from the PLIC and not yet completed. */
  datatype Plic = Plic(inFlight: set<nat>)

  /** The state devintr reads and writes besides the trap kind: sip, the
      global tick counter and the PLIC. */
  datatype Devices = Devices(sip: bv64, ticks: u64, plic: Plic)

  /** devintr's outcome: the kind, the devices afterwards, and the effects in
      order. */
  datatype Handled = Handled(kind: TrapKind, dev: Devices, effects: seq<Effect>)

  /** The bit of scause that marks an interrupt. */
  const INTERRUPT_BIT: bv64 := 0x8000_0000_0000_0000

  /** The scause of a supervisor software interrupt. */
  const SUPERVISOR_SOFTWARE: bv64 := 0x8000_0000_0000_0001
  /** The scause of a supervisor external interrupt. */
  const SUPERVISOR_EXTERNAL: bv64 := 0x8000_0000_0000_0009
  /** The scause of a supervisor timer interrupt (not delegated here: the
      machine-mode timer handler forwards ticks as software interrupts). */
  const SUPERVISOR_TIMER: bv64 := 0x8000_0000_0000_0005

  /** devintr's test for an external interrupt: bit 63 set and the low byte
      of the code 9. */
  predicate ExternalCause(scause: bv64) {
    scause & INTERRUPT_BIT != 0 && scause & 0xff == 9
  }

  /** clock_intr: TICKS.fetch_add(1), which wraps at 2^64. */
  function ClockIntr(ticks: u64): (r: u64)
    ensures ticks < U64 - 1 ==> r == ticks + 1
    ensures ticks == U64 - 1 ==> r == 0
  {
    (ticks + 1) % U64
  }

  /** plic_claim(), then plic_complete(irq) when `completes` says so: the
      claimed source is in flight until it is completed. */
  function ClaimAndMaybeComplete(p: Plic, irq: nat, completes: bool): Plic {
    if irq == 0 then p
    else if completes then Plic(p.inFlight - {irq})
    else Plic(p.inFlight + {irq})
  }

  /** The dispatch on the claimed irq as written: the UART's interrupt runs
      uart_intr, virtio's does nothing, and only some other nonzero irq is
      completed. */
  function DispatchIrq(irq: nat): seq<Effect> {
    if irq == MemLayout.UART0_IRQ then [UartIntr]
    else if irq == MemLayout.VIRTIO0_IRQ then []
    else if irq != 0 then [PlicComplete(irq)]
    else []
  }

  /** The same dispatch completing every nonzero irq after handling it, as
      the PLIC's claim/complete protocol requires. */
  function DispatchIrqCorrected(irq: nat): seq<Effect> {
    if irq == MemLayout.UART0_IRQ then [UartIntr, PlicComplete(irq)]
    else if irq != 0 then [PlicComplete(irq)]
    else []
  }

  /** devintr with the given irq dispatch: an external interrupt claims
      `irq` and dispatches it; a software interrupt advances the ticks on hart
      0 and clears SSIP; anything else is Unknown and touches nothing. */
  function DevintrWith(scause: bv64, hart: nat, irq: nat, d: Devices, dispatch: seq<Effect>): Handled {
    if ExternalCause(scause) then
      Handled(ExternalInterrupt, d.(plic := ClaimAndMaybeComplete(d.plic, irq, PlicComplete(irq) in dispatch)), dispatch)
    else if scause == SUPERVISOR_SOFTWARE then
      var ticks := if hart == 0 then ClockIntr(d.ticks) else d.ticks;
      Handled(SoftwareInterrupt, d.(sip := d.sip & !SIP_SSIP, ticks := ticks), [])
    else
      Handled(Unknown, d, [])
  }

  /** devintr() as written, on hart `hart`, with plic_claim answering `irq`.
      It is an external interrupt exactly when bit 63 is set and the low
      byte is 9, else a software interrupt exactly for scause
      0x8000000000000001, else Unknown with no effect at all. Only a software
      interrupt touches sip, and it clears SSIP alone; only one on hart 0
      advances the ticks; uart_intr runs exactly for irq 10, and plic_complete
      is called exactly for a nonzero irq other than 1 and 10, with that irq
      as its argument and as the only effect. */
  function Devintr(scause: bv64, hart: nat, irq: nat, d: Devices): (h: Handled)
    ensures h.kind == ExternalInterrupt <==> scause & INTERRUPT_BIT != 0 && scause & 0xff == 9
    ensures h.kind == SoftwareInterrupt <==> !ExternalCause(scause) && scause == SUPERVISOR_SOFTWARE
    ensures h.kind == Unknown ==> h.dev == d && h.effects == []
    ensures h.kind != SoftwareInterrupt ==> h.dev.sip == d.sip && h.dev.ticks == d.ticks
    ensures h.kind == SoftwareInterrupt ==>
              && h.dev.sip & SIP_SSIP == 0
              && h.dev.sip | SIP_SSIP == d.sip | SIP_SSIP
              && h.dev.plic == d.plic && h.effects == []
    ensures h.dev.ticks != d.ticks ==> h.kind == SoftwareInterrupt && hart == 0
    ensures h.kind == SoftwareInterrupt && hart == 0 ==> h.dev.ticks == ClockIntr(d.ticks)
    ensures UartIntr in h.effects <==> h.kind == ExternalInterrupt && irq == MemLayout.UART0_IRQ
    ensures (exists n :: PlicComplete(n) in h.effects) <==>
              h.kind == ExternalInterrupt && irq != 0 && irq != MemLayout.UART0_IRQ && irq != MemLayout.VIRTIO0_IRQ
    ensures (exists n :: PlicComplete(n) in h.effects) ==> h.effects == [PlicComplete(irq)]
    ensures h.kind == ExternalInterrupt && irq != 0 ==>
              h.dev.plic.inFlight == if irq == MemLayout.UART0_IRQ || irq == MemLayout.VIRTIO0_IRQ
                                     then d.plic.inFlight + {irq} else d.plic.inFlight - {irq}
  {
    var h := DevintrWith(scause, hart, irq, d, DispatchIrq(irq));
    assert PlicComplete(irq) in h.effects ==> h.effects[0] == PlicComplete(irq);
    h
  }

  /** devintr with every claimed irq completed. */
  function DevintrCorrected(scause: bv64, hart: nat, irq: nat, d: Devices): (h: Handled)
    ensures h.kind == Devintr(scause, hart, irq, d).kind
    ensures h.dev.plic.inFlight == if h.kind == ExternalInterrupt && irq != 0 then d.plic.inFlight - {irq} else d.plic.inFlight
    ensures (UartIntr in h.effects) == (UartIntr in Devintr(scause, hart, irq, d).effects)
    ensures h.kind == ExternalInterrupt && irq != 0 ==> PlicComplete(irq) in h.effects
  {
    var h := DevintrWith(scause, hart, irq, d, DispatchIrqCorrected(irq));
    assert ExternalCause(scause) && irq == MemLayout.UART0_IRQ ==> h.effects == [UartIntr, PlicComplete(irq)];
    h
  }

  /** devintr's classification agrees with the standard's codes for the
      causes this kernel expects: a supervisor external interrupt is
      External, a supervisor software interrupt Software; the supervisor
      timer interrupt and every exception are Unknown. */
  lemma DevintrStandardCauses(hart: nat, irq: nat, d: Devices, scause: bv64)
    ensures Devintr(SUPERVISOR_EXTERNAL, hart, irq, d).kind == ExternalInterrupt
    ensures Devintr(SUPERVISOR_SOFTWARE, hart, irq, d).kind == SoftwareInterrupt
    ensures Devintr(SUPERVISOR_TIMER, hart, irq, d).kind == Unknown
    ensures scause & INTERRUPT_BIT == 0 ==> Devintr(scause, hart, irq, d).kind == Unknown
  {
  }

  /** Finding: as written, once the UART's interrupt has been claimed it is
      never completed. Whatever devintr is later called with, source 10
      stays in flight, so the UART cannot interrupt again. */
  lemma UartInterruptStaysClaimed(scause: bv64, hart: nat, irq: nat, d: Devices)
    requires ExternalCause(scause) || MemLayout.UART0_IRQ in d.plic.inFlight
    requires ExternalCause(scause) ==> irq == MemLayout.UART0_IRQ || MemLayout.UART0_IRQ in d.plic.inFlight
    ensures MemLayout.UART0_IRQ in Devintr(scause, hart, irq, d).dev.plic.inFlight
  {
  }

  /** With the correction, a claimed source is out of flight again as soon as
      devintr returns: the set of sources in flight never grows. */
  lemma DevintrCorrectedReleases(scause: bv64, hart: nat, irq: nat, d: Devices)
    ensures DevintrCorrected(scause, hart, irq, d).dev.plic.inFlight <= d.plic.inFlight
    ensures MemLayout.UART0_IRQ !in DevintrCorrected(SUPERVISOR_EXTERNAL, hart, MemLayout.UART0_IRQ, d).dev.plic.inFlight
  {
  }

  /** What kerneltrap leaves behind: the sepc and sstatus it writes back,
      and devintr's outcome. */
  datatype Returned = Returned(sepc: bv64, sstatus: bv64, handled: Handled)

  /** kerneltrap() with the CSR values it reads: it panics unless the trap
      came from supervisor mode with interrupts off and devintr recognised
      it; otherwise it writes back the sepc and sstatus it read on entry. */
  function KernelTrap(sepc: bv64, sstatus: bv64, scause: bv64, hart: nat, irq: nat, d: Devices): (r: Result<Returned>)
    ensures sstatus & SSTATUS_SPP == 0 ==> r == Panic(KernelTrapNotSupervisor)
    ensures sstatus & SSTATUS_SPP != 0 && IntrGet(sstatus) ==> r == Panic(KernelTrapInterruptsEnabled)
    ensures sstatus & SSTATUS_SPP != 0 && !IntrGet(sstatus) ==>
              (r == Panic(KernelTrapUnknown) <==> Devintr(scause, hart, irq, d).kind == Unknown)
    ensures r.Ok? ==> r.value.sepc == sepc && r.value.sstatus == sstatus
    ensures r.Ok? ==> r.value.handled == Devintr(scause, hart, irq, d)
  {
    if sstatus & SSTATUS_SPP == 0 then Panic(KernelTrapNotSupervisor)
    else if IntrGet(sstatus) then Panic(KernelTrapInterruptsEnabled)
    else
      var h := Devintr(scause, hart, irq, d);
      match h.kind
      case Unknown => Panic(KernelTrapUnknown)
      case _ => Ok(Returned(sepc, sstatus, h))
  }

  /** kerneltrap returns exactly for the two interrupts devintr knows, taken
      in supervisor mode with interrupts off; a timer tick on hart 0 then
      advances the counter by one. */
  lemma KernelTrapReturnsExactly(sepc: bv64, sstatus: bv64, scause: bv64, hart: nat, irq: nat, d: Devices)
    ensures KernelTrap(sepc, sstatus, scause, hart, irq, d).Ok? <==>
              sstatus & SSTATUS_SPP != 0 && !IntrGet(sstatus) && (ExternalCause(scause) || scause == SUPERVISOR_SOFTWARE)
    ensures scause == SUPERVISOR_SOFTWARE && hart == 0 && KernelTrap(sepc, sstatus, scause, hart, irq, d).Ok? ==>
              KernelTrap(sepc, sstatus, scause, hart, irq, d).value.handled.dev.ticks == ClockIntr(d.ticks)
  {
  }
}

=== FILE: uart.dfy ===
/** The 16550a UART's transmit side (uart.rs): a 32-byte ring with
    free-running write and read counters, filled by uart_putc and drained by
    uart_start while the transmitter reports idle. The line status register
    is an oracle: `ready` is how many successive reads of it report
    "transmitter idle" before one reports busy. */
module Uart {
  import opened Common
  import opened Arith
  import opened SpinLock

  /** Size of the transmit ring. */
  const UART_TX_BUF_SIZE: nat := 32

  /** The ring and its counters: write next at `txW % 32`, read next from
      `txR % 32`. */
  datatype Uart = Uart(buf: seq<byte>, txW: nat, txR: nat)

  /** At most a ring's worth of bytes is buffered. */
  predicate Valid(u: Uart) {
    |u.buf| == UART_TX_BUF_SIZE && u.txR <= u.txW <= u.txR + UART_TX_BUF_SIZE
  }

  /** Uart::default: an empty ring. */
  function Default(): (u: Uart)
    ensures Valid(u) && u.txW == u.txR == 0
  {
    Uart(seq(UART_TX_BUF_SIZE, _ => 0), 0, 0)
  }

  /** The number of buffered bytes, tx_w - tx_r. */
  function Count(u: Uart): nat
    requires u.txR <= u.txW
  {
    u.txW - u.txR
  }

  /** The bytes waiting to be sent, oldest first. */
  function Pending(u: Uart): (p: seq<byte>)
    requires Valid(u)
    ensures |p| == Count(u)
  {
    seq(Count(u), i requires 0 <= i < Count(u) => u.buf[(u.txR + i) % UART_TX_BUF_SIZE])
  }

  function Min(a: nat, b: nat): nat {
    if a <= b then a else b
  }

  /** Counters fewer than 32 apart fall in different slots of the ring. */
  lemma SlotsDiffer(a: nat, b: nat)
    requires a < b < a + UART_TX_BUF_SIZE
    ensures a % UART_TX_BUF_SIZE != b % UART_TX_BUF_SIZE
  {
    var q, m := a / UART_TX_BUF_SIZE, a % UART_TX_BUF_SIZE;
    if m + (b - a) < UART_TX_BUF_SIZE {
      DivModUnique(b, UART_TX_BUF_SIZE, q, m + (b - a));
    } else {
      DivModUnique(b, UART_TX_BUF_SIZE, q + 1, m + (b - a) - UART_TX_BUF_SIZE);
    }
  }

  /** Storing a byte in the free slot at `txW % 32` appends it to the pending
      bytes and overwrites none of them. */
  lemma PendingAppend(u: Uart, c: byte)
    requires Valid(u) && Count(u) < UART_TX_BUF_SIZE
    ensures var v := u.(buf := u.buf[u.txW % UART_TX_BUF_SIZE := c], txW := u.txW + 1);
            Valid(v) && Pending(v) == Pending(u) + [c]
  {
    var v := u.(buf := u.buf[u.txW % UART_TX_BUF_SIZE := c], txW := u.txW + 1);
    var p, q := Pending(u), Pending(v);
    forall i | 0 <= i < Count(u)
      ensures q[i] == p[i]
    {
      SlotsDiffer(u.txR + i, u.txW);
    }
    assert q[Count(u)] == c;
    assert q == p + [c];
  }

  /** uart_start: while bytes are buffered and the transmitter is idle, send
      the oldest one. It sends exactly the first min(ready, count) pending
      bytes, in order, and moves only the read counter. */
  method UartStart(u: Uart, ready: nat) returns (v: Uart, sent: seq<byte>)
    requires Valid(u)
    ensures Valid(v) && v.buf == u.buf && v.txW == u.txW
    ensures v.txR == u.txR + Min(ready, Count(u))
    ensures sent == Pending(u)[..Min(ready, Count(u))]
    ensures Pending(v) == Pending(u)[Min(ready, Count(u))..]
  {
    v := u;
    sent := [];
    var idleReads := 0;
    while true
      invariant Valid(v) && v.buf == u.buf && v.txW == u.txW && u.txR <= v.txR
      invariant idleReads == v.txR - u.txR <= ready
      invariant sent == Pending(u)[..v.txR - u.txR]
      invariant Pending(v) == Pending(u)[v.txR - u.txR..]
      decreases v.txW - v.txR
    {
      if v.txW - v.txR == 0 {
        return;
      }
      if idleReads == ready {
        // the line status register reports the transmitter busy
        return;
      }
      idleReads := idleReads + 1;
      var c := v.buf[v.txR % UART_TX_BUF_SIZE];
      v := v.(txR := v.txR + 1);
      sent := sent + [c];
    }
  }

  /** The outcome of uart_putc: it never returns (the kernel has panicked,
      or the ring is full and the sleep that would wait for room is absent),
      or it stores the byte and drains what it can. */
  datatype PutcOutcome = Hangs | Put(uart: Uart, sent: seq<byte>)

  /** uart_putc(c): hang once PANICKED is set or while the ring is full;
      otherwise store `c` at `txW % 32`, advance `txW`, and run uart_start. */
  method UartPutc(u: Uart, c: byte, panicked: bool, ready: nat) returns (o: PutcOutcome)
    requires Valid(u)
    ensures o.Hangs? <==> panicked || Count(u) == UART_TX_BUF_SIZE
    ensures o.Put? ==> Valid(o.uart) && o.uart.txW == u.txW + 1
    ensures o.Put? ==> o.uart.buf == u.buf[u.txW % UART_TX_BUF_SIZE := c]
    ensures o.Put? ==>
              var n := Min(ready, Count(u) + 1);
              o.sent == (Pending(u) + [c])[..n] && Pending(o.uart) == (Pending(u) + [c])[n..]
  {
    if panicked {
      return Hangs;
    }
    if u.txW - u.txR == UART_TX_BUF_SIZE {
      return Hangs;
    }
    var stored := u.(buf := u.buf[u.txW % UART_TX_BUF_SIZE := c], txW := u.txW + 1);
    PendingAppend(u, c);
    var v, sent := UartStart(stored, ready);
    return Put(v, sent);
  }

  /** What uart_putc_sync does: nothing returns once PANICKED is set;
      otherwise the byte goes out once the transmitter is idle. */
  datatype SyncOutcome = Stuck | Echoed(cpu: Cpu, out: seq<byte>)

  /** uart_putc_sync(c): push_off, hang if panicked, wait for an idle
      transmitter, write `c`, pop_off. The bracket leaves a hart's depth and
      interrupt state as they were. */
  function UartPutcSync(cpu: Cpu, c: byte, panicked: bool): (r: Result<SyncOutcome>)
    ensures r.Ok?
    ensures r.value.Stuck? <==> panicked
    ensures r.value.Echoed? ==> r.value.out == [c] && r.value.cpu == PushPop(cpu)
    ensures r.value.Echoed? && Consistent(cpu) ==>
              r.value.cpu.noff == cpu.noff && r.value.cpu.sie == cpu.sie
  {
    var c1 := PushOff(cpu);
    if panicked then Ok(Stuck)
    else match PopOff(c1)
      case Panic(f) => Panic(f)
      case Ok(c2) => Ok(Echoed(c2, [c]))
  }
}

=== FILE: vm.dfy ===
/** Page-table entries and the construction of mappings (vm.rs). Physical
    memory, as far as page tables are concerned, is a map from entry
    references (page-table page, index) to entries, where an entry never
    written reads as zero (pages come from a zeroing allocator).
    allocate_page_table is an oracle: `frames` lists the addresses it will
    return, and an exhausted list is an allocation failure. */
module Vm {
  import opened Common
  import opened Arith
  import opened RiscV

  // ------------------------------------------------------------- PTE flags

  /** A PageTableEntryFlags value: the five bits it defines, bit i of the
      entry being bit i here. */
  type PteFlags = bv5

  const VALID: PteFlags := 1 << 0
  const READABLE: PteFlags := 1 << 1
  const WRITABLE: PteFlags := 1 << 2
  const EXECUTABLE: PteFlags := 1 << 3
  /** The page is accessible to user mode. */
  const USER: PteFlags := 1 << 4

  /** `f` includes every bit of `bits`. */
  predicate Contains(f: PteFlags, bits: PteFlags) {
    f & bits == bits
  }

  // ------------------------------------------------------------------ PTEs

  /** A page-table entry's `u64`, split at bit 5: `high` holds bits 5..63
      (the physical page number from bit 10 up, and five bits this kernel
      does not name), `low` bits 0..4. */
  datatype PteWord = PteWord(high: nat, low: PteFlags)

  /** Bits 5..63 of a `u64` hold values below 2^59. */
  const HIGH_LIMIT: nat := 0x800_0000_0000_0000

  /** A PageTableEntry. */
  type Pte = e: PteWord | e.high < HIGH_LIMIT witness PteWord(0, 0)

  /** PageTableEntry::new: the zero entry. */
  const ZERO: Pte := PteWord(0, 0)

  /** PageTableEntry::as_u64. */
  function AsU64(e: Pte): (v: u64)
    ensures v / 32 == e.high && v % 32 == e.low as int
  {
    DivModUnique(e.high * 32 + e.low as int, 32, e.high, e.low as int);
    e.high * 32 + e.low as int
  }

  /** The entry holding the `u64` `v`. */
  function FromU64(v: u64): (e: Pte)
    ensures e.high == v / 32 && e.low as int == v % 32
  {
    PteWord(v / 32, (v % 32) as bv5)
  }

  /** An entry and its `u64` determine each other. */
  lemma PteU64RoundTrip(e: Pte, v: u64)
    ensures FromU64(AsU64(e)) == e
    ensures AsU64(FromU64(v)) == v
  {
    assert (e.low as int) as bv5 == e.low;
  }

  /** PageTableEntry::flags: the entry's value with every bit above the five
      defined ones dropped (from_bits_truncate). */
  function Flags(e: Pte): (f: PteFlags)
    ensures f as int == AsU64(e) % 32
  {
    e.low
  }

  /** set_addr(addr, flags): the whole entry becomes `addr | flags`; nothing
      of the old entry survives (so it is a function of the two arguments):
      the bits of `addr` above the flags are kept and the flag bits are
      those of `addr` plus `flags`. */
  function SetAddr(addr: u64, flags: PteFlags): (e: Pte)
    ensures AsU64(e) / 32 == addr / 32
    ensures Flags(e) == Flags(FromU64(addr)) | flags
  {
    var a := FromU64(addr);
    a.(low := a.low | flags)
  }

  /** set_flags(flags): the flag bits become the old ones plus `flags`; the
      rest of the entry is kept. */
  function SetFlags(e: Pte, flags: PteFlags): (r: Pte)
    ensures AsU64(r) / 32 == AsU64(e) / 32
    ensures Flags(r) == Flags(e) | flags
  {
    e.(low := e.low | flags)
  }

  /** set_flags never clears a bit of the entry, and is idempotent. */
  lemma SetFlagsOnlyAdds(e: Pte, flags: PteFlags)
    ensures Contains(Flags(SetFlags(e, flags)), Flags(e))
    ensures Contains(Flags(SetFlags(e, flags)), flags)
    ensures SetFlags(SetFlags(e, flags), flags) == SetFlags(e, flags)
  {
  }

  /** PhysAddr::is_aligned: rounding down leaves the address as it is. */
  function IsAligned(pa: u64): (b: bool)
    ensures b <==> pa % PGSIZE == 0
  {
    PgRoundDown(pa) == pa
  }

  /** The page an entry points at: pte2pa(entry.as_u64()). */
  function Target(e: Pte): (pa: u64)
    ensures pa % PGSIZE == 0
  {
    Pte2Pa(AsU64(e))
  }

  /** An entry built by set_addr(pa2pte(pa), flags) gives back exactly those
      flags and the page of `pa`. */
  lemma LeafEntryRoundTrip(pa: u64, flags: PteFlags)
    ensures Flags(SetAddr(Pa2Pte(pa), flags)) == flags
    ensures Target(SetAddr(Pa2Pte(pa), flags)) == PgRoundDown(pa)
  {
    var addr := Pa2Pte(pa);
    assert addr % 32 == 0 by {
      DivModUnique(addr, 32, (addr / 1024) * 32, 0);
    }
    assert FromU64(addr).low == 0;
    var e := SetAddr(addr, flags);
    assert AsU64(e) == addr + flags as int;
    PteAddressRoundTrip(pa, flags as int);
  }

  predicate IsValid(e: Pte) {
    Contains(Flags(e), VALID)
  }

  // ---------------------------------------------------------------- memory

  /** A reference to one entry: the page-table page and the index in it. */
  datatype PteRef = PteRef(table: u64, index: nat)

  /** The entries of page-table pages that have been written. */
  datatype Memory = Memory(entries: map<PteRef, Pte>)

  /** The entry at `r`; one never written reads as zero. */
  function EntryAt(m: Memory, r: PteRef): Pte {
    if r in m.entries then m.entries[r] else ZERO
  }

  /** The entry at `index` of the page at `table`. */
  function Entry(m: Memory, table: u64, index: nat): Pte {
    EntryAt(m, PteRef(table, index))
  }

  /** Writing one entry changes that entry and no other. */
  function SetEntry(m: Memory, at: PteRef, e: Pte): (r: Memory)
    ensures EntryAt(r, at) == e
    ensures forall q :: q != at ==> EntryAt(r, q) == EntryAt(m, q)
  {
    Memory(m.entries[at := e])
  }

  /** A freshly allocated (zeroed) page-table page at `frame`. */
  function Allocate(m: Memory, frame: u64): (r: Memory)
    ensures forall i :: Entry(r, frame, i) == ZERO
    ensures forall q: PteRef :: q.table == frame ==> EntryAt(r, q) == ZERO
    ensures forall q: PteRef :: q.table != frame ==> EntryAt(r, q) == EntryAt(m, q)
  {
    Memory(map q | q in m.entries && q.table != frame :: m.entries[q])
  }

  // ------------------------------------------------------------------ walk

  /** Where a descent ends: the memory and the unused frames afterwards, and
      the page-table page reached (None when an entry was invalid and no
      page could or might be allocated). */
  datatype Descent = Descent(mem: Memory, frames: seq<u64>, table: Option<u64>)

  /** `s` is what is left of `t` after some calls took from its front. */
  predicate IsSuffix<T(==)>(s: seq<T>, t: seq<T>) {
    |s| <= |t| && s == t[|t| - |s|..]
  }

  predicate ValidLevels(levels: seq<nat>) {
    forall i :: 0 <= i < |levels| ==> levels[i] < 3
  }

  /** The body of walk's loop, once per level of `levels`: follow a valid
      entry to the page it names; otherwise give up (alloc false or no frame
      left), or allocate a zeroed page and point the entry at it. */
  function Descend(m: Memory, table: u64, va: u64, alloc: bool, frames: seq<u64>, levels: seq<nat>): (r: Descent)
    requires ValidLevels(levels)
    ensures !alloc ==> r.mem == m && r.frames == frames
    ensures IsSuffix(r.frames, frames)
    ensures |frames| - |r.frames| <= |levels|
    ensures alloc && r.table.None? ==> |r.frames| == 0
    decreases |levels|
  {
    if |levels| == 0 then Descent(m, frames, Some(table))
    else
      var at := PteRef(table, PgIndex(levels[0], va));
      var e := EntryAt(m, at);
      if IsValid(e) then Descend(m, Target(e), va, alloc, frames, levels[1..])
      else if !alloc || |frames| == 0 then Descent(m, frames, None)
      else
        var page := frames[0];
        var m' := SetEntry(Allocate(m, page), at, SetAddr(Pa2Pte(page), VALID));
        var r := Descend(m', page, va, alloc, frames[1..], levels[1..]);
        assert frames[1..][|frames| - 1 - |r.frames|..] == frames[|frames| - |r.frames|..];
        r
  }

  /** What walk returns: memory and unused frames afterwards, and the entry. */
  datatype Walked = Walked(mem: Memory, frames: seq<u64>, pte: Option<PteRef>)

  /** The levels walk's loop visits as written: 2, 1 and 0. */
  const WALK_LEVELS: seq<nat> := [2, 1, 0]
  /** The levels an Sv39 walk descends through before the last table: 2, 1. */
  const SV39_LEVELS: seq<nat> := [2, 1]

  /** walk with its loop running over `levels`: panics at or above MAXVA,
      reads memory only when `alloc` is false, uses at most one frame per
      level, fails only when it needs a frame and none is left, and
      otherwise returns the level-0 index of va in the page it reached. */
  function WalkThrough(m: Memory, root: u64, va: u64, alloc: bool, frames: seq<u64>, levels: seq<nat>): (r: Result<Walked>)
    requires ValidLevels(levels)
    ensures r.Panic? <==> va >= MAXVA
    ensures r.Panic? ==> r.fault == WalkOutOfRange
    ensures r.Ok? && !alloc ==> r.value.mem == m && r.value.frames == frames
    ensures r.Ok? ==> IsSuffix(r.value.frames, frames) && |frames| - |r.value.frames| <= |levels|
    ensures r.Ok? && r.value.pte.Some? ==> r.value.pte.value.index == PgIndex(0, va)
    ensures r.Ok? && alloc && r.value.pte.None? ==> |r.value.frames| == 0
  {
    if va >= MAXVA then Panic(WalkOutOfRange)
    else
      var d := Descend(m, root, va, alloc, frames, levels);
      match d.table
      case None => Ok(Walked(d.mem, d.frames, None))
      case Some(t) => Ok(Walked(d.mem, d.frames, Some(PteRef(t, PgIndex(0, va)))))
  }

  /** walk(page_table, va, alloc) as written: the loop runs levels 2, 1 and
      0, then indexes the page reached once more. */
  function Walk(m: Memory, root: u64, va: u64, alloc: bool, frames: seq<u64>): (r: Result<Walked>)
    ensures r.Panic? <==> va >= MAXVA
    ensures r.Ok? && !alloc ==> r.value.mem == m && r.value.frames == frames
    ensures r.Ok? ==> IsSuffix(r.value.frames, frames) && |frames| - |r.value.frames| <= 3
    ensures r.Ok? && r.value.pte.Some? ==> r.value.pte.value.index == PgIndex(0, va)
    ensures r.Ok? && alloc && r.value.pte.None? ==> |r.value.frames| == 0
  {
    WalkThrough(m, root, va, alloc, frames, WALK_LEVELS)
  }

  /** walk as the three-level Sv39 scheme needs it: the loop descends through
      levels 2 and 1 only, and the level-0 index is taken in the page reached. */
  function WalkCorrected(m: Memory, root: u64, va: u64, alloc: bool, frames: seq<u64>): (r: Result<Walked>)
    ensures r.Panic? <==> va >= MAXVA
    ensures r.Ok? && !alloc ==> r.value.mem == m && r.value.frames == frames
    ensures r.Ok? ==> IsSuffix(r.value.frames, frames) && |frames| - |r.value.frames| <= 2
    ensures r.Ok? && r.value.pte.Some? ==> r.value.pte.value.index == PgIndex(0, va)
    ensures r.Ok? && alloc && r.value.pte.None? ==> |r.value.frames| == 0
  {
    WalkThrough(m, root, va, alloc, frames, SV39_LEVELS)
  }

  // -------------------------------------------------- the hardware's view

  /** The level-0 entry the Sv39 translation of `va` reads: follow valid
      entries at levels 2 and 1 (superpages do not occur in this kernel). */
  function Sv39Slot(m: Memory, root: u64, va: u64): Option<PteRef> {
    var e2 := Entry(m, root, PgIndex(2, va));
    if !IsValid(e2) then None
    else
      var e1 := Entry(m, Target(e2), PgIndex(1, va));
      if !IsValid(e1) then None
      else Some(PteRef(Target(e1), PgIndex(0, va)))
  }

  /** Sv39 translation: the level-0 entry must be valid and a leaf (readable,
      writable or executable); the result is its page plus va's offset. */
  function Translate(m: Memory, root: u64, va: u64): Option<nat> {
    match Sv39Slot(m, root, va)
    case None => None
    case Some(s) =>
      var e := EntryAt(m, s);
      if IsValid(e) && Flags(e) & (READABLE | WRITABLE | EXECUTABLE) != 0 then Some(Target(e) + va % PGSIZE)
      else None
  }

  /** Without allocation, the corrected walk finds exactly the entry the
      hardware translation reads. */
  lemma WalkCorrectedIsSv39(m: Memory, root: u64, va: u64, frames: seq<u64>)
    requires va < MAXVA
    ensures WalkCorrected(m, root, va, false, frames) == Ok(Walked(m, frames, Sv39Slot(m, root, va)))
  {
    var e2 := Entry(m, root, PgIndex(2, va));
    if IsValid(e2) {
      assert SV39_LEVELS[1..] == [1];
      assert [1][1..] == [];
    }
  }

  /** Finding: without allocation, the as-written walk goes one level past
      the entry the hardware reads. When that entry is valid it returns an
      index into the page the entry points at (for a leaf, the mapped data
      page itself); when it is invalid it reports no entry at all. */
  lemma WalkGoesOneLevelTooDeep(m: Memory, root: u64, va: u64, frames: seq<u64>)
    requires va < MAXVA
    ensures Walk(m, root, va, false, frames) == Ok(Walked(m, frames,
              match Sv39Slot(m, root, va)
              case None => None
              case Some(s) =>
                if IsValid(EntryAt(m, s)) then Some(PteRef(Target(EntryAt(m, s)), PgIndex(0, va))) else None))
  {
    var e2 := Entry(m, root, PgIndex(2, va));
    if IsValid(e2) {
      assert WALK_LEVELS[1..] == [1, 0];
      assert [1, 0][1..] == [0];
      assert [0][1..] == [];
    }
  }

  /** The empty memory, root table 0x1000 and three free frames: the start
      of the concrete case below. */
  const EMPTY: Memory := Memory(map[])
  const FRAMES: seq<u64> := [0x2000, 0x3000, 0x4000]
  /** A read-write leaf for physical page 0x5000. */
  const LEAF: Pte := SetAddr(Pa2Pte(0x5000), READABLE | WRITABLE | VALID)

  /** The pointer entry walk writes for a freshly allocated page. */
  function Pointer(page: u64): Pte {
    SetAddr(Pa2Pte(page), VALID)
  }

  /** Memory after allocating the tables for va 0 below root 0x1000, one
      page per level in `levels`, from FRAMES. */
  function Chain(n: nat): (m: Memory)
    requires n <= 3
  {
    if n == 0 then EMPTY
    else
      var parent: u64 := if n == 1 then 0x1000 else FRAMES[n - 2];
      SetEntry(Allocate(Chain(n - 1), FRAMES[n - 1]), PteRef(parent, 0), Pointer(FRAMES[n - 1]))
  }

  lemma PointerTargets(page: u64)
    requires page % PGSIZE == 0
    ensures IsValid(Pointer(page)) && Target(Pointer(page)) == page
    ensures !(Flags(Pointer(page)) & (READABLE | WRITABLE | EXECUTABLE) != 0)
  {
    LeafEntryRoundTrip(page, VALID);
  }

  /** The last descent of the as-written walk of va 0: level 0 of the page
      at 0x3000 is empty, so the last frame becomes a fourth table. */
  lemma DescendLevel0()
    ensures Descend(Chain(2), 0x3000, 0, true, [0x4000], [0]) == Descent(Chain(3), [], Some(0x4000))
  {
    assert [0][1..] == [] && [0x4000][1..] == [];
    PgIndexOfZero();
    assert EntryAt(Chain(2), PteRef(0x3000, 0)) == ZERO;
  }

  /** The level-1 descent of va 0: the page at 0x2000 is empty at index 0,
      so 0x3000 becomes the next table. */
  lemma DescendLevel1()
    ensures Descend(Chain(1), 0x2000, 0, true, [0x3000, 0x4000], [1, 0]) == Descent(Chain(3), [], Some(0x4000))
  {
    DescendLevel0();
    assert [1, 0][1..] == [0] && [0x3000, 0x4000][1..] == [0x4000];
    PgIndexOfZero();
    assert EntryAt(Chain(1), PteRef(0x2000, 0)) == ZERO;
  }

  /** Walking va 0 with allocation from an empty table, as written, allocates
      one table for each of the three levels, chained from the root. */
  lemma ConcreteWalk()
    ensures Walk(EMPTY, 0x1000, 0, true, FRAMES) == Ok(Walked(Chain(3), [], Some(PteRef(0x4000, 0))))
  {
    DescendLevel1();
    assert WALK_LEVELS[1..] == [1, 0] && FRAMES[1..] == [0x3000, 0x4000];
    PgIndexOfZero();
    assert EntryAt(EMPTY, PteRef(0x1000, 0)) == ZERO;
  }

  /** The corrected walk of va 0 from an empty table allocates the level-1
      and level-0 tables only. */
  lemma ConcreteWalkCorrected()
    ensures WalkCorrected(EMPTY, 0x1000, 0, true, FRAMES) == Ok(Walked(Chain(2), [0x4000], Some(PteRef(0x3000, 0))))
  {
    assert SV39_LEVELS[1..] == [1] && [1][1..] == [];
    assert FRAMES[1..] == [0x3000, 0x4000] && FRAMES[1..][1..] == [0x4000];
    PgIndexOfZero();
    assert EntryAt(EMPTY, PteRef(0x1000, 0)) == ZERO;
    assert EntryAt(Chain(1), PteRef(0x2000, 0)) == ZERO;
  }

  /** Finding, concretely: mapping virtual page 0 to physical page 0x5000 in
      an empty table with the as-written walk leaves the hardware with no
      translation (the leaf lands one level too deep, and the level-0 entry
      the hardware reads is a bare pointer), while the corrected walk makes
      va 0 translate to 0x5000. */
  lemma MappingThroughWalkIsLost()
    ensures Walk(EMPTY, 0x1000, 0, true, FRAMES).Ok?
    ensures Walk(EMPTY, 0x1000, 0, true, FRAMES).value.pte == Some(PteRef(0x4000, 0))
    ensures Translate(SetEntry(Walk(EMPTY, 0x1000, 0, true, FRAMES).value.mem, PteRef(0x4000, 0), LEAF), 0x1000, 0) == None
    ensures WalkCorrected(EMPTY, 0x1000, 0, true, FRAMES).Ok?
    ensures WalkCorrected(EMPTY, 0x1000, 0, true, FRAMES).value.pte == Some(PteRef(0x3000, 0))
    ensures Translate(SetEntry(WalkCorrected(EMPTY, 0x1000, 0, true, FRAMES).value.mem, PteRef(0x3000, 0), LEAF), 0x1000, 0) == Some(0x5000)
  {
    ConcreteWalk();
    ConcreteWalkCorrected();
    LeafLandsTooDeep();
    LeafInPlace();
  }

  /** The leaf written one level too deep: the level-0 entry the hardware
      reads is the pointer to the fourth page, which is no leaf. */
  lemma LeafLandsTooDeep()
    ensures Translate(SetEntry(Chain(3), PteRef(0x4000, 0), LEAF), 0x1000, 0) == None
  {
    PointerTargets(0x2000);
    PointerTargets(0x3000);
    PointerTargets(0x4000);
    PgIndexOfZero();
    var bad := SetEntry(Chain(3), PteRef(0x4000, 0), LEAF);
    assert Entry(bad, 0x1000, 0) == Pointer(0x2000);
    assert Entry(bad, 0x2000, 0) == Pointer(0x3000);
    assert Entry(bad, 0x3000, 0) == Pointer(0x4000);
  }

  /** The leaf written where the hardware looks: va 0 translates to 0x5000. */
  lemma LeafInPlace()
    ensures Translate(SetEntry(Chain(2), PteRef(0x3000, 0), LEAF), 0x1000, 0) == Some(0x5000)
  {
    PointerTargets(0x2000);
    PointerTargets(0x3000);
    LeafEntryRoundTrip(0x5000, READABLE | WRITABLE | VALID);
    PgIndexOfZero();
    var good := SetEntry(Chain(2), PteRef(0x3000, 0), LEAF);
    assert Entry(good, 0x1000, 0) == Pointer(0x2000);
    assert Entry(good, 0x2000, 0) == Pointer(0x3000);
    assert Entry(good, 0x3000, 0) == LEAF;
  }

  // ----------------------------------------- allocation from fresh frames

  /** The page-table page reached from `table` by following the entries of
      va at `levels`, as the hardware does: valid entries only, None at the
      first invalid one. */
  function Follow(m: Memory, table: u64, va: u64, levels: seq<nat>): Option<u64>
    requires ValidLevels(levels)
    decreases |levels|
  {
    if |levels| == 0 then Some(table)
    else
      var e := Entry(m, table, PgIndex(levels[0], va));
      if IsValid(e) then Follow(m, Target(e), va, levels[1..]) else None
  }

  /** A descent that need not allocate (alloc false, or every entry on the
      path valid) reads memory only and ends where Follow does. */
  lemma {:induction false} DescendFollows(m: Memory, table: u64, va: u64, alloc: bool, frames: seq<u64>, levels: seq<nat>)
    requires ValidLevels(levels)
    requires !alloc || Follow(m, table, va, levels).Some?
    ensures Descend(m, table, va, alloc, frames, levels) == Descent(m, frames, Follow(m, table, va, levels))
    decreases |levels|
  {
    if |levels| > 0 {
      var e := Entry(m, table, PgIndex(levels[0], va));
      if IsValid(e) {
        DescendFollows(m, Target(e), va, alloc, frames, levels[1..]);
      }
    }
  }

  /** Through a valid entry, a descent with allocation goes on from the page
      the entry names. */
  lemma DescendThrough(m: Memory, table: u64, va: u64, frames: seq<u64>, levels: seq<nat>)
    requires ValidLevels(levels) && |levels| > 0
    requires IsValid(Entry(m, table, PgIndex(levels[0], va)))
    ensures Descend(m, table, va, true, frames, levels) ==
            Descend(m, Target(Entry(m, table, PgIndex(levels[0], va))), va, true, frames, levels[1..])
  {
  }

  /** Through an invalid entry with a frame on offer, a descent with
      allocation zeroes the frame, points the entry at it and goes on from
      it with the rest of the frames. */
  lemma DescendAllocates(m: Memory, table: u64, va: u64, frames: seq<u64>, levels: seq<nat>)
    requires ValidLevels(levels) && |levels| > 0 && |frames| > 0
    requires !IsValid(Entry(m, table, PgIndex(levels[0], va)))
    ensures Descend(m, table, va, true, frames, levels) ==
            Descend(SetEntry(Allocate(m, frames[0]), PteRef(table, PgIndex(levels[0], va)), Pointer(frames[0])),
                    frames[0], va, true, frames[1..], levels[1..])
  {
  }

  /** The slot the hardware reads is the level-0 index of va in the page
      Follow reaches through levels 2 and 1. */
  lemma Sv39SlotFollows(m: Memory, root: u64, va: u64)
    ensures Sv39Slot(m, root, va) ==
              if Follow(m, root, va, SV39_LEVELS).Some? then Some(PteRef(Follow(m, root, va, SV39_LEVELS).value, PgIndex(0, va)))
              else None
  {
    assert SV39_LEVELS[1..] == [1] && [1][1..] == [];
  }

  /** Frames a page allocator may hand out next: page aligned, pairwise
      distinct, and none of them a page that holds a valid entry. */
  ghost predicate Fresh(m: Memory, frames: seq<u64>) {
    && (forall x :: x in frames ==> x % PGSIZE == 0)
    && (forall j, k :: 0 <= j < k < |frames| ==> frames[j] != frames[k])
    && (forall q {:trigger EntryAt(m, q)} :: IsValid(EntryAt(m, q)) ==> q.table !in frames)
  }

  /** The page-table pages of a table walked through `n` levels, each with
      its depth below the root: a valid entry of a page above the last level
      names a page one level deeper, and no page of the table is a frame on
      offer. Entries of the last level's pages (the leaves map_pages writes)
      may name any page, a frame on offer included. */
  ghost predicate Layered(m: Memory, frames: seq<u64>, depth: map<u64, nat>, n: nat) {
    && (forall t :: t in depth ==> depth[t] <= n && t !in frames)
    && (forall q: PteRef {:trigger Target(EntryAt(m, q))} :: q.table in depth && depth[q.table] < n && IsValid(EntryAt(m, q)) ==>
          Target(EntryAt(m, q)) in depth && depth[Target(EntryAt(m, q))] == depth[q.table] + 1)
  }

  /** `depth'` gives every page of `depth` the same depth. */
  ghost predicate Extends(depth: map<u64, nat>, depth': map<u64, nat>) {
    forall t :: t in depth ==> t in depth' && depth'[t] == depth[t]
  }

  /** Giving a page not yet laid out a depth extends the depths. */
  lemma ExtendsAdd(depth: map<u64, nat>, page: u64, k: nat)
    requires page !in depth
    ensures Extends(depth, depth[page := k])
  {
  }

  /** Frames fresh for the table at `root`, laid out in `n` levels by `depth`. */
  ghost predicate FreshIn(m: Memory, root: u64, frames: seq<u64>, depth: map<u64, nat>, n: nat) {
    Fresh(m, frames) && Layered(m, frames, depth, n) && root in depth && depth[root] == 0
  }

  /** The frames allocate_page_table will hand out are fresh for the table
      at `root`, walked through `n` levels: page aligned, pairwise distinct,
      none of them a page holding a valid entry or a page of the table, and
      the table laid out level by level below `root`. A leaf may name any
      page, a frame on offer or a page of the table included. */
  ghost predicate FreshFor(m: Memory, root: u64, frames: seq<u64>, n: nat) {
    exists depth :: FreshIn(m, root, frames, depth, n)
  }

  /** A table whose memory holds no valid entry yet, as kvmmake's freshly
      allocated root, with page-aligned distinct frames other than the root
      on offer, meets FreshFor for any number of levels. */
  lemma FreshForNewTable(m: Memory, root: u64, frames: seq<u64>, n: nat)
    requires forall q :: !IsValid(EntryAt(m, q))
    requires root !in frames
    requires forall x :: x in frames ==> x % PGSIZE == 0
    requires forall j, k :: 0 <= j < k < |frames| ==> frames[j] != frames[k]
    ensures FreshFor(m, root, frames, n)
  {
    assert FreshIn(m, root, frames, map[root := 0], n);
  }

  /** Every valid entry of `m` is in `m'` unchanged. */
  ghost predicate Keeps(m: Memory, m': Memory) {
    forall q :: IsValid(EntryAt(m, q)) ==> EntryAt(m', q) == EntryAt(m, q)
  }

  /** `x` is one of the frames a call used: it was offered and is not left. */
  predicate Taken(x: u64, frames: seq<u64>, rest: seq<u64>) {
    x in frames && x !in rest
  }

  /** What is left of a sequence holds nothing the sequence did not. */
  lemma SuffixIn<T>(s: seq<T>, t: seq<T>)
    requires IsSuffix(s, t)
    ensures forall x :: x in s ==> x in t
  {
    forall x | x in s
      ensures x in t
    {
      var j :| 0 <= j < |s| && s[j] == x;
      assert t[|t| - |s| + j] == x;
    }
  }

  /** Following valid entries only, a descent that succeeds in `m` succeeds
      alike in any memory that keeps the valid entries of `m`. */
  lemma {:induction false} FollowKept(m: Memory, m': Memory, table: u64, va: u64, levels: seq<nat>)
    requires ValidLevels(levels) && Keeps(m, m') && Follow(m, table, va, levels).Some?
    ensures Follow(m', table, va, levels) == Follow(m, table, va, levels)
    decreases |levels|
  {
    if |levels| > 0 {
      FollowKept(m, m', Target(Entry(m, table, PgIndex(levels[0], va))), va, levels[1..]);
    }
  }

  /** One allocation of walk's loop, with the first fresh frame, for an
      invalid entry `at` of a page above the last level: the page is zeroed
      and `at` points at it. Valid entries are kept, the rest of the frames
      stay fresh, the new page joins the table one level below `at`, and
      only the new page and `at` change. */
  lemma AllocateFresh(m: Memory, at: PteRef, frames: seq<u64>, depth: map<u64, nat>, n: nat)
    requires Fresh(m, frames) && Layered(m, frames, depth, n) && |frames| > 0 && !IsValid(EntryAt(m, at))
    requires at.table in depth && depth[at.table] < n
    ensures var m' := SetEntry(Allocate(m, frames[0]), at, Pointer(frames[0]));
            && Keeps(m, m') && Fresh(m', frames[1..]) && frames[0] !in frames[1..] && frames[0] !in depth
            && Layered(m', frames[1..], depth[frames[0] := depth[at.table] + 1], n)
            && IsValid(EntryAt(m', at)) && Target(EntryAt(m', at)) == frames[0]
            && (forall q :: EntryAt(m', q) != EntryAt(m, q) ==> q.table == frames[0] || q == at)
  {
    var page := frames[0];
    var m' := SetEntry(Allocate(m, page), at, Pointer(page));
    var depth' := depth[page := depth[at.table] + 1];
    assert page in frames;
    PointerTargets(page);
    SuffixIn(frames[1..], frames);
    forall q | IsValid(EntryAt(m', q))
      ensures q.table !in frames[1..]
    {
      if q != at {
        assert q.table != page;
      }
    }
    forall q: PteRef | q.table in depth' && depth'[q.table] < n && IsValid(EntryAt(m', q))
      ensures Target(EntryAt(m', q)) in depth' && depth'[Target(EntryAt(m', q))] == depth'[q.table] + 1
    {
      if q != at {
        assert q.table != page && EntryAt(m', q) == EntryAt(m, q);
      }
    }
  }

  /** Every entry that differs between `m` and `m'` lies in a page taken
      from `frames` (`rest` being what is left), or was invalid and now
      points at such a page. */
  ghost predicate ChangedOnlyBy(m: Memory, m': Memory, frames: seq<u64>, rest: seq<u64>) {
    forall q :: EntryAt(m', q) != EntryAt(m, q) ==>
      || Taken(q.table, frames, rest)
      || (&& !IsValid(EntryAt(m, q))
          && EntryAt(m', q) == Pointer(Target(EntryAt(m', q)))
          && Taken(Target(EntryAt(m', q)), frames, rest))
  }

  /** An allocation at `at` followed by a descent that keeps valid entries
      and changes only what its own frames allow, keeps valid entries and
      changes only what all the frames allow. */
  lemma ChangesCompose(m: Memory, m': Memory, dm: Memory, at: PteRef, frames: seq<u64>, rest: seq<u64>)
    requires |frames| > 0 && IsSuffix(rest, frames[1..]) && frames[0] !in frames[1..]
    requires Keeps(m, m') && !IsValid(EntryAt(m, at))
    requires EntryAt(m', at) == Pointer(frames[0]) && IsValid(Pointer(frames[0])) && Target(Pointer(frames[0])) == frames[0]
    requires forall q :: EntryAt(m', q) != EntryAt(m, q) ==> q.table == frames[0] || q == at
    requires Keeps(m', dm) && ChangedOnlyBy(m', dm, frames[1..], rest)
    ensures Keeps(m, dm) && ChangedOnlyBy(m, dm, frames, rest)
  {
    SuffixIn(rest, frames[1..]);
    SuffixIn(frames[1..], frames);
    assert frames[0] in frames && frames[0] !in rest;
    forall q | EntryAt(dm, q) != EntryAt(m, q)
      ensures || Taken(q.table, frames, rest)
              || (&& !IsValid(EntryAt(m, q))
                  && EntryAt(dm, q) == Pointer(Target(EntryAt(dm, q)))
                  && Taken(Target(EntryAt(dm, q)), frames, rest))
    {
      if EntryAt(dm, q) == EntryAt(m', q) {
        assert q.table == frames[0] || q == at;
      }
    }
  }

  /** What a descent with allocation, started in `m` with `frames` on offer,
      promises of the memory and frames `d` it leaves: every valid entry
      kept, the unused frames still fresh, and only the pages it took and
      pointers to them changed. */
  ghost predicate DescentKeeps(m: Memory, frames: seq<u64>, d: Descent) {
    Keeps(m, d.mem) && Fresh(d.mem, d.frames) && ChangedOnlyBy(m, d.mem, frames, d.frames)
  }

  /** What a descent with allocation from `table` through `levels`, in a
      table laid out by `depth`, promises of the layout after it, with the
      depths `depth'`: the table is still laid out and only grew, and the
      page reached is where the hardware's descent through the new memory
      ends, a page of the last level. */
  ghost predicate LaidOutAfter(table: u64, va: u64, levels: seq<nat>, d: Descent,
                               depth: map<u64, nat>, depth': map<u64, nat>, n: nat)
    requires ValidLevels(levels)
  {
    match d
    case Descent(mem, rest, reached) =>
      && Layered(mem, rest, depth', n) && Extends(depth, depth')
      && reached == Follow(mem, table, va, levels)
      && (reached.Some? ==> reached.value in depth' && depth'[reached.value] == n)
  }
  /** The promise about the layout for some depths after the descent. */
  ghost predicate DescentLayered(table: u64, va: u64, levels: seq<nat>, d: Descent, depth: map<u64, nat>, n: nat)
    requires ValidLevels(levels)
  {
    exists depth' :: LaidOutAfter(table, va, levels, d, depth, depth', n)
  }


  /** The allocating step of walk's loop passes the promise of the rest of
      the descent about memory and frames back to the whole of it. */
  lemma DescendKeepsAllocating(m: Memory, table: u64, va: u64, frames: seq<u64>, levels: seq<nat>, depth: map<u64, nat>, n: nat)
    requires ValidLevels(levels) && |levels| > 0 && |frames| > 0
    requires Fresh(m, frames) && Layered(m, frames, depth, n) && table in depth && depth[table] < n
    requires !IsValid(Entry(m, table, PgIndex(levels[0], va)))
    requires var m' := SetEntry(Allocate(m, frames[0]), PteRef(table, PgIndex(levels[0], va)), Pointer(frames[0]));
             DescentKeeps(m', frames[1..], Descend(m', frames[0], va, true, frames[1..], levels[1..]))
    ensures DescentKeeps(m, frames, Descend(m, table, va, true, frames, levels))
  {
    var at := PteRef(table, PgIndex(levels[0], va));
    var page := frames[0];
    var m' := SetEntry(Allocate(m, page), at, Pointer(page));
    AllocateFresh(m, at, frames, depth, n);
    var d := Descend(m', page, va, true, frames[1..], levels[1..]);
    assert Descend(m, table, va, true, frames, levels) == d;
    ChangesCompose(m, m', d.mem, at, frames, d.frames);
  }

  /** The following step of walk's loop, through a valid entry of a page
      above the last level, passes the promise of the rest of the descent
      about memory and frames back to the whole of it. */
  lemma DescendKeepsFollowing(m: Memory, table: u64, va: u64, frames: seq<u64>, levels: seq<nat>, depth: map<u64, nat>, n: nat)
    requires ValidLevels(levels) && |levels| > 0 && Fresh(m, frames) && Layered(m, frames, depth, n)
    requires table in depth && depth[table] + |levels| == n
    requires IsValid(Entry(m, table, PgIndex(levels[0], va)))
    ensures DescentKeeps(m, frames, Descend(m, table, va, true, frames, levels))
    decreases |levels|, 0
  {
    var next := Target(Entry(m, table, PgIndex(levels[0], va)));
    assert next in depth && depth[next] == depth[table] + 1;
    DescendKeeps(m, next, va, frames, levels[1..], depth, n);
    DescendThrough(m, table, va, frames, levels);
  }

  /** After the allocating step of walk's loop, the rest of the descent,
      from the new page one level below `table`, keeps its promise about
      memory and frames. */
  lemma DescendKeepsBelow(m: Memory, table: u64, va: u64, frames: seq<u64>, levels: seq<nat>, depth: map<u64, nat>, n: nat)
    requires ValidLevels(levels) && |levels| > 0 && |frames| > 0
    requires Fresh(m, frames) && Layered(m, frames, depth, n) && table in depth && depth[table] + |levels| == n
    requires !IsValid(Entry(m, table, PgIndex(levels[0], va)))
    ensures var m' := SetEntry(Allocate(m, frames[0]), PteRef(table, PgIndex(levels[0], va)), Pointer(frames[0]));
            DescentKeeps(m', frames[1..], Descend(m', frames[0], va, true, frames[1..], levels[1..]))
    decreases |levels|, 0
  {
    var page := frames[0];
    var m' := SetEntry(Allocate(m, page), PteRef(table, PgIndex(levels[0], va)), Pointer(page));
    AllocateFresh(m, PteRef(table, PgIndex(levels[0], va)), frames, depth, n);
    DescendKeeps(m', page, va, frames[1..], levels[1..], depth[page := depth[table] + 1], n);
  }

  /** walk's loop with allocation from frames fresh for a laid-out table
      keeps its promise about memory and frames (DescentKeeps) for every
      input. */
  lemma {:induction false} DescendKeeps(m: Memory, table: u64, va: u64, frames: seq<u64>, levels: seq<nat>, depth: map<u64, nat>, n: nat)
    requires ValidLevels(levels) && Fresh(m, frames) && Layered(m, frames, depth, n)
    requires table in depth && depth[table] + |levels| == n
    ensures DescentKeeps(m, frames, Descend(m, table, va, true, frames, levels))
    decreases |levels|, 1
  {
    if |levels| > 0 && IsValid(Entry(m, table, PgIndex(levels[0], va))) {
      DescendKeepsFollowing(m, table, va, frames, levels, depth, n);
    } else if |levels| > 0 && |frames| > 0 {
      DescendKeepsBelow(m, table, va, frames, levels, depth, n);
      DescendKeepsAllocating(m, table, va, frames, levels, depth, n);
    } else {
      assert Descend(m, table, va, true, frames, levels).mem == m;
    }
  }

  /** A valid entry of `m` leading from `table` to `next`, kept in the memory
      a descent from `next` leaves, carries that descent's promise about the
      layout, begun with depths `mid` that extend `depth`, over to the
      descent from `table` through one more level, begun with `depth`. */
  lemma LayeredThrough(m: Memory, table: u64, next: u64, va: u64, levels: seq<nat>, d: Descent,
                       depth: map<u64, nat>, mid: map<u64, nat>, depth': map<u64, nat>, n: nat)
    requires ValidLevels(levels) && |levels| > 0
    requires IsValid(Entry(m, table, PgIndex(levels[0], va)))
    requires Target(Entry(m, table, PgIndex(levels[0], va))) == next
    requires Keeps(m, d.mem)
    requires Extends(depth, mid) && LaidOutAfter(next, va, levels[1..], d, mid, depth', n)
    ensures LaidOutAfter(table, va, levels, d, depth, depth', n)
  {
    assert Entry(d.mem, table, PgIndex(levels[0], va)) == Entry(m, table, PgIndex(levels[0], va));
  }

  /** The following step of walk's loop, through a valid entry of a page
      above the last level, passes the promise of the rest of the descent
      about the layout back to the whole of it. */
  lemma DescendLayeredFollowing(m: Memory, table: u64, va: u64, frames: seq<u64>, levels: seq<nat>, depth: map<u64, nat>, n: nat)
    requires ValidLevels(levels) && |levels| > 0 && Fresh(m, frames) && Layered(m, frames, depth, n)
    requires table in depth && depth[table] + |levels| == n
    requires IsValid(Entry(m, table, PgIndex(levels[0], va)))
    ensures DescentLayered(table, va, levels, Descend(m, table, va, true, frames, levels), depth, n)
    decreases |levels|, 0
  {
    var rest := levels[1..];
    var next := Target(Entry(m, table, PgIndex(levels[0], va)));
    assert next in depth && depth[next] == depth[table] + 1;
    var d := Descend(m, next, va, true, frames, rest);
    assert DescentLayered(next, va, rest, d, depth, n) && Keeps(m, d.mem) by {
      DescendLayered(m, next, va, frames, rest, depth, n);
      DescendKeeps(m, next, va, frames, rest, depth, n);
    }
    var depth' :| LaidOutAfter(next, va, rest, d, depth, depth', n);
    DescendThrough(m, table, va, frames, levels);
    LayeredThrough(m, table, next, va, levels, d, depth, depth, depth', n);
  }

  /** After the allocating step of walk's loop, the rest of the descent,
      from the new page one level below `table`, keeps its promises: the
      layout, and every valid entry of the memory the step left. */
  lemma DescendLayeredBelow(m: Memory, table: u64, va: u64, frames: seq<u64>, levels: seq<nat>, depth: map<u64, nat>, n: nat)
    requires ValidLevels(levels) && |levels| > 0 && |frames| > 0
    requires Fresh(m, frames) && Layered(m, frames, depth, n) && table in depth && depth[table] + |levels| == n
    requires !IsValid(Entry(m, table, PgIndex(levels[0], va)))
    ensures var m' := SetEntry(Allocate(m, frames[0]), PteRef(table, PgIndex(levels[0], va)), Pointer(frames[0]));
            var d := Descend(m', frames[0], va, true, frames[1..], levels[1..]);
            DescentLayered(frames[0], va, levels[1..], d, depth[frames[0] := depth[table] + 1], n) && Keeps(m', d.mem)
    decreases |levels|, 0
  {
    var page := frames[0];
    var m' := SetEntry(Allocate(m, page), PteRef(table, PgIndex(levels[0], va)), Pointer(page));
    var depth1 := depth[page := depth[table] + 1];
    AllocateFresh(m, PteRef(table, PgIndex(levels[0], va)), frames, depth, n);
    DescendLayered(m', page, va, frames[1..], levels[1..], depth1, n);
    DescendKeeps(m', page, va, frames[1..], levels[1..], depth1, n);
  }

  /** The allocating step of walk's loop passes the promise of the rest of
      the descent about the layout back to the whole of it: the new page
      joins one level below the page whose entry names it. */
  lemma DescendLayeredAllocating(m: Memory, table: u64, va: u64, frames: seq<u64>, levels: seq<nat>, depth: map<u64, nat>, n: nat)
    requires ValidLevels(levels) && |levels| > 0 && |frames| > 0
    requires Fresh(m, frames) && Layered(m, frames, depth, n) && table in depth
    requires !IsValid(Entry(m, table, PgIndex(levels[0], va)))
    requires var m' := SetEntry(Allocate(m, frames[0]), PteRef(table, PgIndex(levels[0], va)), Pointer(frames[0]));
             var d := Descend(m', frames[0], va, true, frames[1..], levels[1..]);
             DescentLayered(frames[0], va, levels[1..], d, depth[frames[0] := depth[table] + 1], n) && Keeps(m', d.mem)
    ensures DescentLayered(table, va, levels, Descend(m, table, va, true, frames, levels), depth, n)
  {
    var page := frames[0];
    var m' := SetEntry(Allocate(m, page), PteRef(table, PgIndex(levels[0], va)), Pointer(page));
    var depth1 := depth[page := depth[table] + 1];
    var d := Descend(m', page, va, true, frames[1..], levels[1..]);
    var depth' :| LaidOutAfter(page, va, levels[1..], d, depth1, depth', n);
    assert page in frames && page !in depth;
    PointerTargets(page);
    DescendAllocates(m, table, va, frames, levels);
    ExtendsAdd(depth, page, depth[table] + 1);
    LayeredThrough(m', table, page, va, levels, d, depth, depth1, depth', n);
  }

  /** Where walk's loop stops at once (no level left, or an invalid entry
      and no frame), the memory, the frames and the layout stay as they
      are. */
  lemma DescendLayeredStops(m: Memory, table: u64, va: u64, frames: seq<u64>, levels: seq<nat>, depth: map<u64, nat>, n: nat)
    requires ValidLevels(levels) && Layered(m, frames, depth, n)
    requires table in depth && depth[table] + |levels| == n
    requires |levels| == 0 || (!IsValid(Entry(m, table, PgIndex(levels[0], va))) && |frames| == 0)
    ensures DescentLayered(table, va, levels, Descend(m, table, va, true, frames, levels), depth, n)
  {
    var d := Descend(m, table, va, true, frames, levels);
    assert d == Descent(m, frames, Follow(m, table, va, levels));
    assert LaidOutAfter(table, va, levels, d, depth, depth, n);
  }

  /** walk's loop with allocation from frames fresh for a laid-out table
      keeps its promise about the layout (DescentLayered) for every input. */
  lemma {:induction false} DescendLayered(m: Memory, table: u64, va: u64, frames: seq<u64>, levels: seq<nat>, depth: map<u64, nat>, n: nat)
    requires ValidLevels(levels) && Fresh(m, frames) && Layered(m, frames, depth, n)
    requires table in depth && depth[table] + |levels| == n
    ensures DescentLayered(table, va, levels, Descend(m, table, va, true, frames, levels), depth, n)
    decreases |levels|, 1
  {
    if |levels| > 0 && IsValid(Entry(m, table, PgIndex(levels[0], va))) {
      DescendLayeredFollowing(m, table, va, frames, levels, depth, n);
    } else if |levels| > 0 && |frames| > 0 {
      DescendLayeredBelow(m, table, va, frames, levels, depth, n);
      DescendLayeredAllocating(m, table, va, frames, levels, depth, n);
    } else {
      DescendLayeredStops(m, table, va, frames, levels, depth, n);
    }
  }

  /** Finding's other half, for every input: the corrected walk with
      allocation from fresh frames returns exactly the slot the hardware
      reads in the memory it leaves behind (None when it ran out of frames),
      keeps every valid entry and the frames fresh for the table, and
      changes an entry only inside a page it allocated or by pointing a
      formerly invalid entry at one. */
  lemma WalkCorrectedAllocIsSv39(m: Memory, root: u64, va: u64, frames: seq<u64>)
    requires va < MAXVA && FreshFor(m, root, frames, 2)
    ensures var r := WalkCorrected(m, root, va, true, frames);
            && r.Ok?
            && Sv39Slot(r.value.mem, root, va) == r.value.pte
            && Keeps(m, r.value.mem) && FreshFor(r.value.mem, root, r.value.frames, 2)
            && ChangedOnlyBy(m, r.value.mem, frames, r.value.frames)
  {
    var depth :| FreshIn(m, root, frames, depth, 2);
    var d := Descend(m, root, va, true, frames, SV39_LEVELS);
    DescendKeeps(m, root, va, frames, SV39_LEVELS, depth, 2);
    DescendLayered(m, root, va, frames, SV39_LEVELS, depth, 2);
    var depth' :| LaidOutAfter(root, va, SV39_LEVELS, d, depth, depth', 2);
    Sv39SlotFollows(d.mem, root, va);
    assert FreshIn(d.mem, root, d.frames, depth', 2);
  }

  // ------------------------------------------------------------- map_pages

  /** One entry map_pages wrote: the virtual and physical page, where the
      entry is, and its new value. */
  datatype PteWrite = PteWrite(va: u64, pa: u64, at: PteRef, entry: Pte)

  datatype MapStatus = Mapped | FrameAllocationFailed

  /** How map_pages ended without a panic, with the memory, the unused
      frames and every entry written, in order. */
  datatype MapResult = MapResult(status: MapStatus, mem: Memory, frames: seq<u64>, writes: seq<PteWrite>)

  /** The i-th written entry is for the i-th page from `first`, mapped to the
      i-th physical page from `pa`, no further than `last`; it sits at the
      level-0 index of its page and holds pa2pte of its physical page with
      `perm` plus VALID. */
  predicate PagesInOrder(writes: seq<PteWrite>, first: nat, pa: nat, last: nat, perm: PteFlags) {
    forall i :: 0 <= i < |writes| ==>
      && writes[i].va == first + i * PGSIZE <= last
      && writes[i].pa == pa + i * PGSIZE
      && writes[i].at.index == PgIndex(0, writes[i].va)
      && writes[i].entry == SetAddr(Pa2Pte(writes[i].pa), perm | VALID)
  }

  /** Appending the entry for the next page keeps the writes in order. */
  lemma PagesInOrderSnoc(writes: seq<PteWrite>, w: PteWrite, first: nat, pa: nat, last: nat, perm: PteFlags)
    requires PagesInOrder(writes, first, pa, last, perm)
    requires w.va == first + |writes| * PGSIZE <= last && w.pa == pa + |writes| * PGSIZE
    requires w.at.index == PgIndex(0, w.va) && w.entry == SetAddr(Pa2Pte(w.pa), perm | VALID)
    ensures PagesInOrder(writes + [w], first, pa, last, perm)
  {
    var ws := writes + [w];
    forall i | 0 <= i < |ws|
      ensures ws[i].va == first + i * PGSIZE <= last && ws[i].pa == pa + i * PGSIZE
      ensures ws[i].at.index == PgIndex(0, ws[i].va) && ws[i].entry == SetAddr(Pa2Pte(ws[i].pa), perm | VALID)
    {
      if i < |writes| {
        assert ws[i] == writes[i];
      }
    }
  }

  /** map_pages(page_table, va, pa, size, perm), with walk's loop running
      over `levels` (WALK_LEVELS for the code as written, SV39_LEVELS for
      the corrected walk). It panics for size 0 and when va + size leaves
      `u64`, and otherwise maps the pages from pg_round_down(va) through
      pg_round_down(va + size - 1) as MapRange does. With the corrected walk
      it panics on a first page the hardware already translates; and when
      the frames are fresh for the table (FreshFor), every page it maps now
      translates to its physical page (for a readable, writable or
      executable `perm`), and none of them had a valid entry before. */
  method MapPages(m: Memory, root: u64, va: u64, pa: u64, size: u64, perm: PteFlags, frames: seq<u64>, levels: seq<nat>)
    returns (r: Result<MapResult>)
    requires ValidLevels(levels)
    ensures size == 0 <==> r == Panic(MapPagesZeroSize)
    ensures size != 0 && va + size >= U64 ==> r == Panic(ArithmeticOverflow)
    ensures r.Panic? ==> r.fault in {MapPagesZeroSize, ArithmeticOverflow, WalkOutOfRange, MapPagesRemap}
    ensures r.Ok? ==> va + size < U64 && PagesInOrder(r.value.writes, PgRoundDown(va), pa, PgRoundDown(va + size - 1), perm)
    ensures r.Ok? ==> IsSuffix(r.value.frames, frames)
    ensures r.Ok? && r.value.status == Mapped ==>
              && |r.value.writes| == (PgRoundDown(va + size - 1) - PgRoundDown(va)) / PGSIZE + 1
              && EntryAt(r.value.mem, r.value.writes[|r.value.writes| - 1].at) == r.value.writes[|r.value.writes| - 1].entry
    ensures r.Ok? && r.value.status == FrameAllocationFailed ==> |r.value.frames| == 0
    ensures size != 0 && va + size < U64 && MapPage(m, root, PgRoundDown(va), pa, perm, frames, levels).Panic? ==>
              r == Panic(MapPage(m, root, PgRoundDown(va), pa, perm, frames, levels).fault)
    ensures levels == SV39_LEVELS && size != 0 && va + size < U64 && va < MAXVA && HasValidEntry(m, root, PgRoundDown(va)) ==>
              r == Panic(MapPagesRemap)
    ensures r.Ok? && FreshFor(m, root, frames, |levels|) ==>
              Keeps(m, r.value.mem) && Placed(m, r.value.mem, root, r.value.writes, levels)
    ensures r.Ok? && levels == SV39_LEVELS && FreshFor(m, root, frames, |levels|) ==>
              && (forall i :: 0 <= i < |r.value.writes| ==> !HasValidEntry(m, root, r.value.writes[i].va))
              && (perm & (READABLE | WRITABLE | EXECUTABLE) != 0 ==>
                    forall i :: 0 <= i < |r.value.writes| ==>
                      Translate(r.value.mem, root, r.value.writes[i].va) == Some(PgRoundDown(r.value.writes[i].pa)))
  {
    if size == 0 {
      return Panic(MapPagesZeroSize);
    }
    if va + size >= U64 {
      return Panic(ArithmeticOverflow);
    }
    PgRoundDownAligned(va, va + size - 1);
    if levels == SV39_LEVELS {
      FirstPageRemap(m, root, va, pa, perm, frames);
    }
    r := MapRange(m, root, PgRoundDown(va), PgRoundDown(va + size - 1), pa, perm, frames, levels);
    if r.Ok? && levels == SV39_LEVELS {
      MappedSv39(m, root, va, pa, size, perm, frames, r.value);
    }
  }

  /** What a completed map_pages through the corrected walk, from frames
      fresh for the table (FreshFor), leaves for the hardware: none of its
      pages was mapped before, and with a leaf permission each translates
      to its physical page. */
  lemma MappedSv39(m: Memory, root: u64, va: u64, pa: u64, size: u64, perm: PteFlags, frames: seq<u64>, res: MapResult)
    requires size != 0 && va + size < U64
    requires PagesInOrder(res.writes, PgRoundDown(va), pa, PgRoundDown(va + size - 1), perm)
    requires FreshFor(m, root, frames, 2) ==>
               Keeps(m, res.mem) && Placed(m, res.mem, root, res.writes, SV39_LEVELS)
    ensures FreshFor(m, root, frames, 2) ==>
              && (forall i :: 0 <= i < |res.writes| ==> !HasValidEntry(m, root, res.writes[i].va))
              && (perm & (READABLE | WRITABLE | EXECUTABLE) != 0 ==>
                    forall i :: 0 <= i < |res.writes| ==> Translate(res.mem, root, res.writes[i].va) == Some(PgRoundDown(res.writes[i].pa)))
  {
    if FreshFor(m, root, frames, 2) {
      PlacedWereUnmapped(m, res.mem, root, res.writes);
      if perm & (READABLE | WRITABLE | EXECUTABLE) != 0 {
        PlacedTranslates(m, res.mem, root, res.writes, PgRoundDown(va), pa, PgRoundDown(va + size - 1), perm);
      }
    }
  }

  /** Entries a run placed through the corrected walk are what the hardware
      reads: each page translates to its physical page, given a leaf
      permission. */
  lemma PlacedTranslates(m: Memory, mem: Memory, root: u64, writes: seq<PteWrite>, first: nat, pa: nat, last: nat, perm: PteFlags)
    requires Placed(m, mem, root, writes, SV39_LEVELS) && PagesInOrder(writes, first, pa, last, perm)
    requires first % PGSIZE == 0 && perm & (READABLE | WRITABLE | EXECUTABLE) != 0
    ensures forall i :: 0 <= i < |writes| ==> Translate(mem, root, writes[i].va) == Some(PgRoundDown(writes[i].pa))
  {
    forall i | 0 <= i < |writes|
      ensures Translate(mem, root, writes[i].va) == Some(PgRoundDown(writes[i].pa))
    {
      var w := writes[i];
      DivModUnique(w.va, PGSIZE, first / PGSIZE + i, 0);
      LeafTranslates(mem, root, w.va, w.at, w.pa, perm);
    }
  }

  /** A page-aligned address whose level-0 slot on the hardware's descent
      holds a leaf entry for physical page `pa` translates to that page. */
  lemma LeafTranslates(mem: Memory, root: u64, va: u64, at: PteRef, pa: u64, perm: PteFlags)
    requires Follow(mem, root, va, SV39_LEVELS) == Some(at.table) && at.index == PgIndex(0, va)
    requires EntryAt(mem, at) == SetAddr(Pa2Pte(pa), perm | VALID)
    requires va % PGSIZE == 0 && perm & (READABLE | WRITABLE | EXECUTABLE) != 0
    ensures Translate(mem, root, va) == Some(PgRoundDown(pa))
  {
    Sv39SlotFollows(mem, root, va);
    assert Sv39Slot(mem, root, va) == Some(at);
    LeafEntryRoundTrip(pa, perm | VALID);
    LeafIsValid(pa, perm);
  }

  /** Entries a run placed through the corrected walk, keeping every valid
      entry, were not valid where the hardware looked before the run: no
      page it mapped had been mapped. */
  lemma PlacedWereUnmapped(m: Memory, mem: Memory, root: u64, writes: seq<PteWrite>)
    requires Keeps(m, mem) && Placed(m, mem, root, writes, SV39_LEVELS)
    ensures forall i :: 0 <= i < |writes| ==> !HasValidEntry(m, root, writes[i].va)
  {
    forall i | 0 <= i < |writes|
      ensures !HasValidEntry(m, root, writes[i].va)
    {
      var w := writes[i];
      Sv39SlotFollows(m, root, w.va);
      if Follow(m, root, w.va, SV39_LEVELS).Some? {
        FollowKept(m, mem, root, w.va, SV39_LEVELS);
      }
    }
  }

  /** One iteration of map_pages' loop for virtual page `a` and physical
      page `cur`: walk with allocation, panic on an entry that is already
      valid, else write the leaf entry. A walk that cannot allocate reports
      no entry. */
  function MapPage(m: Memory, root: u64, a: u64, cur: u64, perm: PteFlags, frames: seq<u64>, levels: seq<nat>): (r: Result<Walked>)
    requires ValidLevels(levels)
    ensures r.Panic? ==> r.fault in {WalkOutOfRange, MapPagesRemap}
    ensures r == Panic(WalkOutOfRange) <==> a >= MAXVA
    ensures r == Panic(MapPagesRemap) <==>
              var w := WalkThrough(m, root, a, true, frames, levels);
              w.Ok? && w.value.pte.Some? && IsValid(EntryAt(w.value.mem, w.value.pte.value))
    ensures r.Ok? ==> IsSuffix(r.value.frames, frames)
    ensures r.Ok? && r.value.pte.None? ==> |r.value.frames| == 0
    ensures r.Ok? && r.value.pte.Some? ==>
              && r.value.pte.value.index == PgIndex(0, a)
              && EntryAt(r.value.mem, r.value.pte.value) == SetAddr(Pa2Pte(cur), perm | VALID)
    ensures r.Ok? ==>
              var w := WalkThrough(m, root, a, true, frames, levels).value;
              && r.value.frames == w.frames && r.value.pte == w.pte
              && (r.value.pte.Some? ==> !IsValid(EntryAt(w.mem, w.pte.value)))
              && forall q :: r.value.pte != Some(q) ==> EntryAt(r.value.mem, q) == EntryAt(w.mem, q)
  {
    match WalkThrough(m, root, a, true, frames, levels)
    case Panic(f) => Panic(f)
    case Ok(w) =>
      if w.pte.None? then Ok(w)
      else if IsValid(EntryAt(w.mem, w.pte.value)) then Panic(MapPagesRemap)
      else Ok(w.(mem := SetEntry(w.mem, w.pte.value, SetAddr(Pa2Pte(cur), perm | VALID))))
  }

  /** A leaf entry built with VALID is valid, with the flags and page asked
      for. */
  lemma LeafIsValid(pa: u64, perm: PteFlags)
    ensures IsValid(SetAddr(Pa2Pte(pa), perm | VALID))
    ensures Target(SetAddr(Pa2Pte(pa), perm | VALID)) == PgRoundDown(pa)
  {
    LeafEntryRoundTrip(pa, perm | VALID);
  }

  /** One iteration from frames fresh for a laid-out table: every valid
      entry is kept and the unused frames stay fresh for the table; a written
      entry was invalid before the iteration and is the level-0 slot of `a`
      the hardware's descent through `levels` reaches afterwards. The
      physical page `cur` may be any page, a frame on offer included. */
  lemma MapPageFresh(m: Memory, root: u64, a: u64, cur: u64, perm: PteFlags, frames: seq<u64>, levels: seq<nat>)
    requires ValidLevels(levels) && FreshFor(m, root, frames, |levels|)
    ensures var r := MapPage(m, root, a, cur, perm, frames, levels);
            r.Ok? ==>
              && Keeps(m, r.value.mem)
              && FreshFor(r.value.mem, root, r.value.frames, |levels|)
              && (r.value.pte.Some? ==>
                    && !IsValid(EntryAt(m, r.value.pte.value))
                    && Follow(r.value.mem, root, a, levels) == Some(r.value.pte.value.table))
  {
    if a < MAXVA {
      var depth :| FreshIn(m, root, frames, depth, |levels|);
      var d := Descend(m, root, a, true, frames, levels);
      DescendKeeps(m, root, a, frames, levels, depth, |levels|);
      DescendLayered(m, root, a, frames, levels, depth, |levels|);
      var depth' :| LaidOutAfter(root, a, levels, d, depth, depth', |levels|);
      assert FreshIn(d.mem, root, d.frames, depth', |levels|);
      var r := MapPage(m, root, a, cur, perm, frames, levels);
      if r.Ok? && d.table.Some? {
        var slot := PteRef(d.table.value, PgIndex(0, a));
        var leaf := SetAddr(Pa2Pte(cur), perm | VALID);
        assert r.value.mem == SetEntry(d.mem, slot, leaf);
        LeafWriteFresh(d.mem, slot, leaf, d.frames, depth', |levels|);
        assert FreshIn(r.value.mem, root, r.value.frames, depth', |levels|);
        FollowKept(d.mem, r.value.mem, root, a, levels);
      }
    }
  }

  /** Writing an entry into an invalid slot of a page of the last level
      keeps every valid entry, the frames fresh and the table laid out,
      whatever page the entry names. */
  lemma LeafWriteFresh(m: Memory, slot: PteRef, leaf: Pte, frames: seq<u64>, depth: map<u64, nat>, n: nat)
    requires Fresh(m, frames) && Layered(m, frames, depth, n) && !IsValid(EntryAt(m, slot))
    requires slot.table in depth && depth[slot.table] == n
    ensures var m' := SetEntry(m, slot, leaf);
            Keeps(m, m') && Fresh(m', frames) && Layered(m', frames, depth, n)
  {
  }

  /** map_pages panics on a page the hardware already translates through a
      valid level-0 entry: with every entry on the way valid, the corrected
      walk allocates nothing and returns that entry. */
  lemma RemapWhenAlreadyMapped(m: Memory, root: u64, va: u64, cur: u64, perm: PteFlags, frames: seq<u64>)
    requires va < MAXVA && HasValidEntry(m, root, va)
    ensures MapPage(m, root, va, cur, perm, frames, SV39_LEVELS) == Panic(MapPagesRemap)
  {
    Sv39SlotFollows(m, root, va);
    DescendFollows(m, root, va, true, frames, SV39_LEVELS);
  }

  /** RemapWhenAlreadyMapped for the page holding `va`. */
  lemma FirstPageRemap(m: Memory, root: u64, va: u64, cur: u64, perm: PteFlags, frames: seq<u64>)
    ensures va < MAXVA && HasValidEntry(m, root, PgRoundDown(va)) ==>
              MapPage(m, root, PgRoundDown(va), cur, perm, frames, SV39_LEVELS) == Panic(MapPagesRemap)
  {
    if va < MAXVA && HasValidEntry(m, root, PgRoundDown(va)) {
      RemapWhenAlreadyMapped(m, root, PgRoundDown(va), cur, perm, frames);
    }
  }

  /** The level-0 entry the hardware reads for `va` exists and is valid. */
  predicate HasValidEntry(m: Memory, root: u64, va: u64) {
    match Sv39Slot(m, root, va)
    case None => false
    case Some(s) => IsValid(EntryAt(m, s))
  }

  /** A suffix of a suffix is a suffix. */
  lemma SuffixTrans<T>(s: seq<T>, t: seq<T>, u: seq<T>)
    requires IsSuffix(s, t) && IsSuffix(t, u)
    ensures IsSuffix(s, u)
  {
    assert u[|u| - |t|..][|t| - |s|..] == u[|u| - |s|..];
  }

  /** What a run of map_pages started in memory `m` has established in
      memory `mem`: each entry it wrote is valid and holds its value, was
      not valid in `m`, and is the level-0 slot of its page in the table the
      hardware's descent from `root` through `levels` reaches. */
  ghost predicate Placed(m: Memory, mem: Memory, root: u64, writes: seq<PteWrite>, levels: seq<nat>)
    requires ValidLevels(levels)
  {
    forall i :: 0 <= i < |writes| ==>
      && IsValid(writes[i].entry)
      && EntryAt(mem, writes[i].at) == writes[i].entry
      && !IsValid(EntryAt(m, writes[i].at))
      && writes[i].at.index == PgIndex(0, writes[i].va)
      && Follow(mem, root, writes[i].va, levels) == Some(writes[i].at.table)
  }

  /** One iteration of map_pages' loop from frames fresh for the table
      carries what the run has established over to the memory, frames and
      depths after it. */
  lemma MapRangeStep(m: Memory, root: u64, mem: Memory, fr: seq<u64>, writes: seq<PteWrite>, a: u64, cur: u64,
                     perm: PteFlags, levels: seq<nat>)
    requires ValidLevels(levels)
    requires FreshFor(mem, root, fr, |levels|) && Keeps(m, mem) && Placed(m, mem, root, writes, levels)
    ensures var s := MapPage(mem, root, a, cur, perm, fr, levels);
            s.Ok? ==>
              && FreshFor(s.value.mem, root, s.value.frames, |levels|)
              && Keeps(m, s.value.mem)
              && Placed(m, s.value.mem, root, writes, levels)
              && (s.value.pte.Some? ==>
                    Placed(m, s.value.mem, root, writes + [PteWrite(a, cur, s.value.pte.value, SetAddr(Pa2Pte(cur), perm | VALID))], levels))
  {
    var s := MapPage(mem, root, a, cur, perm, fr, levels);
    MapPageFresh(mem, root, a, cur, perm, fr, levels);
    if s.Ok? {
      var m2 := s.value.mem;
      forall i | 0 <= i < |writes|
        ensures EntryAt(m2, writes[i].at) == writes[i].entry
        ensures Follow(m2, root, writes[i].va, levels) == Some(writes[i].at.table)
      {
        FollowKept(mem, m2, root, writes[i].va, levels);
      }
      if s.value.pte.Some? {
        var w := PteWrite(a, cur, s.value.pte.value, SetAddr(Pa2Pte(cur), perm | VALID));
        LeafIsValid(cur, perm);
        assert !IsValid(EntryAt(m, w.at)) by {
          assert !IsValid(EntryAt(mem, w.at));
        }
        var ws := writes + [w];
        forall i | 0 <= i < |ws|
          ensures && IsValid(ws[i].entry) && EntryAt(m2, ws[i].at) == ws[i].entry && !IsValid(EntryAt(m, ws[i].at))
                  && ws[i].at.index == PgIndex(0, ws[i].va) && Follow(m2, root, ws[i].va, levels) == Some(ws[i].at.table)
        {
          if i < |writes| {
            assert ws[i] == writes[i];
          }
        }
      }
    }
  }

  /** map_pages' loop from page `first` through page `last`: one entry per
      page, the physical address advancing with the virtual one. It panics
      on an entry that is already valid and when the physical address would
      leave `u64`, and stops with FrameAllocationFailed when walk cannot
      allocate. A completed run writes (last - first) / PGSIZE + 1 entries
      and the last one is in memory at the end. When the first page's
      iteration panics, so does the run. With frames fresh for the table
      (FreshFor), every entry the run wrote is in the memory it returns,
      where the descent through `levels` reaches it, and no entry valid
      before the run is touched. */
  method MapRange(m: Memory, root: u64, first: u64, last: u64, pa: u64, perm: PteFlags, frames: seq<u64>, levels: seq<nat>)
    returns (r: Result<MapResult>)
    requires ValidLevels(levels)
    requires first % PGSIZE == 0 && last % PGSIZE == 0 && first <= last
    ensures r.Panic? ==> r.fault in {ArithmeticOverflow, WalkOutOfRange, MapPagesRemap}
    ensures MapPage(m, root, first, pa, perm, frames, levels).Panic? ==> r == Panic(MapPage(m, root, first, pa, perm, frames, levels).fault)
    ensures r.Ok? ==> PagesInOrder(r.value.writes, first, pa, last, perm)
    ensures r.Ok? ==> IsSuffix(r.value.frames, frames)
    ensures r.Ok? && r.value.status == Mapped ==>
              && |r.value.writes| == (last - first) / PGSIZE + 1
              && EntryAt(r.value.mem, r.value.writes[|r.value.writes| - 1].at) == r.value.writes[|r.value.writes| - 1].entry
    ensures r.Ok? && r.value.status == FrameAllocationFailed ==> |r.value.frames| == 0
    ensures r.Ok? && FreshFor(m, root, frames, |levels|) ==>
              Keeps(m, r.value.mem) && Placed(m, r.value.mem, root, r.value.writes, levels)
  {
    var a: u64 := first;
    var cur: u64 := pa;
    var mem := m;
    var fr := frames;
    var writes: seq<PteWrite> := [];
    ghost var offered := FreshFor(m, root, frames, |levels|);
    while true
      invariant first <= a <= last
      invariant a == first + |writes| * PGSIZE && cur == pa + |writes| * PGSIZE
      invariant PagesInOrder(writes, first, pa, last, perm)
      invariant IsSuffix(fr, frames)
      invariant |writes| == 0 ==> mem == m && fr == frames && a == first && cur == pa
      invariant |writes| > 0 ==> MapPage(m, root, first, pa, perm, frames, levels).Ok?
      invariant offered ==> FreshFor(mem, root, fr, |levels|) && Keeps(m, mem)
      invariant offered ==> Placed(m, mem, root, writes, levels)
      decreases last - a
    {
      var step := MapPage(mem, root, a, cur, perm, fr, levels);
      if offered {
        MapRangeStep(m, root, mem, fr, writes, a, cur, perm, levels);
      }
      if step.Panic? {
        return Panic(step.fault);
      }
      assert MapPage(m, root, first, pa, perm, frames, levels).Ok?;
      SuffixTrans(step.value.frames, fr, frames);
      if step.value.pte.None? {
        return Ok(MapResult(FrameAllocationFailed, step.value.mem, step.value.frames, writes));
      }
      var w := PteWrite(a, cur, step.value.pte.value, SetAddr(Pa2Pte(cur), perm | VALID));
      mem := step.value.mem;
      fr := step.value.frames;
      PagesInOrderSnoc(writes, w, first, pa, last, perm);
      if a == last {
        DivModUnique(last - first, PGSIZE, |writes|, 0);
        return Ok(MapResult(Mapped, mem, fr, writes + [w]));
      }
      NextPage(first, |writes|, last);
      writes := writes + [w];
      a := a + PGSIZE;
      if cur + PGSIZE >= U64 {
        return Panic(ArithmeticOverflow);
      }
      cur := cur + PGSIZE;
    }
  }

  /** Between page-aligned addresses, the page `k` pages past `first` is, when
      short of `last`, at least a whole page short of it. */
  lemma NextPage(first: nat, k: nat, last: nat)
    requires first % PGSIZE == 0 && last % PGSIZE == 0
    requires first + k * PGSIZE < last
    ensures first + k * PGSIZE + PGSIZE <= last
  {
    var a := first + k * PGSIZE;
    DivModUnique(first, PGSIZE, first / PGSIZE, 0);
    assert a == (first / PGSIZE + k) * PGSIZE;
    DivModUnique(a, PGSIZE, first / PGSIZE + k, 0);
    if a + PGSIZE > last {
      MulGap(a / PGSIZE, last / PGSIZE, PGSIZE);
    }
  }
}
